=== FILE: README.md ===
# ACI fabric access migration, modelled in Dafny

The scripts move the fabric-access configuration of Cisco ACI leaf switches
from source nodes to destination nodes. They read a migration spec file
(`source,dest` for a single leaf, `s1,s2,d1,d2` for a VPC pair). For each
migration they do four things:

- sort the leaf switch profiles into those of the source and those of the
  destination, by the first node block found in each;
- create the destination's switch profile, with the source's policy group;
- copy the port selectors of the source's interface profiles into a new
  interface profile;
- for a pair, create an explicit VPC protection group with the lowest
  unused id.

Finally, they copy every static path binding of the source nodes onto the
destination nodes by renaming `paths-<source>` to `paths-<dest>` in the
binding's JSON text.

The model has the same parts:

| file | module | models |
|---|---|---|
| `py_base.dfy` | `PyBase` | Python exceptions as `Result`, and a `for` loop that accumulates and stops at the first exception (`Fold`) |
| `pystr.dfy` | `PyStr` | `str.replace`, `split`, `join`, `in` on strings, `int()` and `str()` on integers |
| `json.dfy` | `PyJson` | decoded JSON with ordered members; Python's `d[k]`, `k in x`, iteration and truthiness on it |
| `find_values.dfy` | `JsonSearch` | `find_values` on `json.dumps` of a decoded value: the decoder's object hook, called innermost object first |
| `spec_lines.dfy` | `SpecFile` | the reading of the spec file, line by line, up to the first malformed line |
| `aci_create_objects.dfy` | `AciCreateObjects` | `filter_dict_keys`; the requests built by the four `create_*` functions; the controller session as a class whose `log` holds the accepted requests |
| `fabric_migration.dfy` | `FabricMigration` | profile sorting, the policy group, the source's interface-profile tDns, profile selection, port-selector copying, the lowest unused VPC id, and the per-node and VPC steps |
| `overlay.dfy` | `PathRewrite` | the renamings, the rewriting of each binding's text, and the overlay step that commits the new bindings |

Loops that update variables are methods with loop invariants. Each is proved
equal to a function over the loop's input, and the properties of that
function are proved as lemmas. The controller is a class `Apic`. Its
`Commit` may accept or refuse any request; the `create_*` methods state
what `log` can become.

## Model

| member | source | states |
|---|---|---|
| PyStr.ContainsIffOccurs | fabric_migration.py:263 | `needle in hay` on strings holds exactly when the needle occurs at some position |
| PyStr.ReplaceIsJoinSplit | fabric_migration.py:340 | `s.replace(pat, rep)` equals splitting on `pat` and joining with `rep` |
| PyStr.ReplaceSingleOccurrence | fabric_migration.py:340 | a pattern that occurs once, between `a` and `b`, is replaced there and nowhere else |
| PyStr.ReplaceAbsent | fabric_migration.py:340 | a text that does not contain the pattern is unchanged by `replace` |
| PyStr.ReplaceCharByEmpty | fabric_migration.py:213 | replacing a character by the empty string removes every occurrence of it |
| PyStr.JoinSplit | fabric_migration.py:221 | joining the parts of `split(sep)` with `sep` rebuilds the text |
| PyStr.SplitOnChar | fabric_migration.py:221-225 | splitting on a character gives one part more than it has occurrences, and no part contains it |
| PyStr.ParseShowInt | fabric_migration.py:310 | `int(str(n)) == n` for every integer |
| PyJson.DictOfKeys | fabric_migration.py:284 | a key is in the dict built from an object exactly when some member has it |
| PyJson.DictOfLast | fabric_migration.py:284 | a repeated key keeps the value of its last member |
| PyJson.KeysInOrder | fabric_migration.py:282 | `for x in d` over a dict visits exactly its keys; line 282 iterates a list of children, and meets a dict only on degenerate input where `children` is an object |
| PyJson.KeysInOrderSpec | fabric_migration.py:282 | dict iteration yields each key once, in order of first insertion: more members only add keys at the end, and a member adds its key exactly when it is the first with that key (the order line 282 sees on the degenerate dict input) |
| JsonSearch.ObjectsAreNested | fabric_migration.py:34-41 | the hook sees exactly the objects of the dumped value: at every depth, inside lists, and inside the value a dict keeps for each key, never inside a value that a repeated key overwrote |
| JsonSearch.DistinctKeysWalk | fabric_migration.py:27-42 | in a dict without a repeated key, every member's value is searched, in document order |
| JsonSearch.RepeatedKeyOverwritten | fabric_migration.py:261-262 | for `{"a": {"from_": "1"}, "a": 0}`, `json.dumps` keeps only `"a": 0`, so nothing is found under `from_` |
| JsonSearch.ValuesUnderSpec | fabric_migration.py:34-39 | one value per object holding the key, in hook order, each being that object's value |
| JsonSearch.FindValues | fabric_migration.py:27-42 | the loop's result equals the values of the key in the hook's order |
| JsonSearch.FindValuesCount | fabric_migration.py:27-42 | there are as many values as nested objects with the key |
| JsonSearch.FindValuesMember | fabric_migration.py:27-42 | a value is found exactly when some nested object holds it under the key |
| JsonSearch.FindValuesEmpty | fabric_migration.py:27-42 | nothing is found exactly when no nested object has the key |
| JsonSearch.OwnValueLast | fabric_migration.py:34-41 | post-order: an object's own value comes after the values of the objects inside it |
| JsonSearch.FirstValueSpec | fabric_migration.py:261-262 | `find_values(...)[0]` is the value of the first object, in the order the decoder finishes them, that holds the key; it raises `IndexError` exactly when no object holds it |
| JsonSearch.ExampleObjects | fabric_migration.py:29-31 | in the documented example the hook sees `P2`'s object, `P3`'s, then the outer one |
| JsonSearch.DocumentedExample | fabric_migration.py:29-31 | the documented example yields `['cccc', 'aaa', 'ss']` |
| SpecFile.CleanLineSpec | fabric_migration.py:213 | a cleaned line has no spaces or newlines, and cleaning it again changes nothing |
| SpecFile.SortPairByInt | fabric_migration.py:231-234 | sorting two fields by `int` raises exactly when one is not an integer; otherwise both fields are kept, in ascending order, stably |
| SpecFile.ParseLineSkip | fabric_migration.py:213-214 | a line is skipped exactly when, once cleaned, it is empty or starts with `#` |
| SpecFile.ParseLineSingle | fabric_migration.py:221-224 | a single migration exactly when the cleaned line has one comma; its fields rebuild the line |
| SpecFile.ParseLinePair | fabric_migration.py:225-234 | a pair has three commas, and its sources and destinations are each that pair's fields, in ascending order; three commas give a pair or an `int()` error |
| SpecFile.ParseLinePairFields | fabric_migration.py:225-234 | a line with three commas has four fields; it is a pair exactly when all four are integers, and otherwise stops with the `int()` error of the first field, left to right, that is not |
| SpecFile.ParseLineFieldCount | fabric_migration.py:235-239 | any other comma count stops the run, with the fields found |
| SpecFile.RunEntries | fabric_migration.py:212-239 | the run yields exactly the single and pair migrations of the lines before the first malformed line, in file order, and stops with that line's reason, or reads the whole file when there is none |
| SpecFile.RunCompletes | fabric_migration.py:212-239 | the run reads the whole file exactly when no line is malformed |
| SpecFile.RunStopsAtFirstError | fabric_migration.py:235-239 | a run that stops, stops at the first malformed line, with the migrations of the lines before it |
| SpecFile.RunStops | fabric_migration.py:235-239 | once the run has stopped, the rest of the file changes nothing |
| SpecFile.ReadSpec | fabric_migration.py:210-239 | the line loop computes the run over the parsed file |
| AciCreateObjects.RestrictIdempotent | ACI_create_objects.py:26-36 | filtering twice with the same keys is filtering once |
| AciCreateObjects.RestrictNothing | ACI_create_objects.py:26-36 | with no keys to keep, nothing is kept |
| AciCreateObjects.FilterDictKeys | ACI_create_objects.py:26-36 | the loop over `items()` keeps a key exactly when it is listed, with the dict's (last) value |
| AciCreateObjects.SwitchProfileShape | ACI_create_objects.py:52-68 | the profile is named after the node and holds one leaf selector; the interface-profile link is present exactly when its tDn is truthy |
| AciCreateObjects.LeafSelectorShape | ACI_create_objects.py:62-68 | a range selector named after the node, with one node block; the policy-group link is present exactly when its tDn is truthy |
| AciCreateObjects.NodeBlockShape | ACI_create_objects.py:67-68 | the node block is named after the node and spans `from_block`..`to_block` |
| AciCreateObjects.PortBlockMos | ACI_create_objects.py:114-116 | one port block per block dict, in order, each holding only the allowed keys |
| AciCreateObjects.PortSelectorMos | ACI_create_objects.py:108-116 | one selector object per selector dict, in order; fails exactly when one selector is malformed |
| AciCreateObjects.PortSelectorShape | ACI_create_objects.py:103-116 | a selector keeps only the allowed attribute keys; its children are the policy link, present exactly when it has a policy and restricted to the allowed keys, then one port block per block dict, each restricted to the allowed keys |
| AciCreateObjects.BuildPortBlocks | ACI_create_objects.py:114-116 | the block loop builds the port blocks |
| AciCreateObjects.BuildPortSelector | ACI_create_objects.py:109-116 | one iteration of the selector loop builds the selector object |
| AciCreateObjects.BuildIntProfile | ACI_create_objects.py:94-116 | the selector loop builds the interface profile at `uni/infra/accportprof-<name>` |
| AciCreateObjects.VpcGroupShape | ACI_create_objects.py:141-152 | built exactly when at least two nodes are given, else `nodes[1]` raises `IndexError`; named and numbered as asked, one VPC-policy link, and exactly the first two nodes as members, both in the given pod |
| AciCreateObjects.NodeEndpointShape | ACI_create_objects.py:151-152 | a member endpoint carries the node id and pod id |
| AciCreateObjects.StaticPathShape | ACI_create_objects.py:183-193 | a binding with a `dn` is recreated at that `dn`, with only the allowed properties and never its `dn` |
| AciCreateObjects.StaticPathNamesSpec | ACI_create_objects.py:178-184 | the recorded names are the `dn` of every binding, in order; the loop raises exactly when a binding has no `dn` |
| AciCreateObjects.Apic.constructor | ACI_create_objects.py:47-49 | a new session has accepted nothing |
| AciCreateObjects.Apic.Commit | ACI_create_objects.py:73-79 | the controller accepts the request, which joins the log, or refuses it, and the log is unchanged |
| AciCreateObjects.CreateSwitchProfile | ACI_create_objects.py:39-83 | the log gains the switch profile, or nothing if refused |
| AciCreateObjects.CreateIntProfile | ACI_create_objects.py:86-130 | the result is the interface profile or the exception raised while building it; nothing is sent after an exception |
| AciCreateObjects.CreateVpcGroup | ACI_create_objects.py:133-166 | the result is the protection group or `IndexError`; the log gains at most that group |
| AciCreateObjects.CreateStaticPaths | ACI_create_objects.py:169-208 | the names are every binding's `dn`, whatever the controller answers; the log keeps its old contents and gains only requests built from the bindings |
| FabricMigration.StrIn | fabric_migration.py:263-265 | `block in node` is a substring test that raises `TypeError` on a non-string block |
| FabricMigration.Classify | fabric_migration.py:261-266 | a profile is the source's exactly when its first block lies within the source node, otherwise the destination's when it lies within the destination node; the errors `[0]` and `in` raise |
| FabricMigration.SortedProfilesSpec | fabric_migration.py:260-266 | the loop raises exactly when some profile cannot be classified; otherwise each list is exactly its side's profiles in input order, and no profile is in both |
| FabricMigration.SortProfiles | fabric_migration.py:260-266 | the loop over `switch_profiles['imdata']` computes that sorting |
| FabricMigration.TDnsOfSpec | fabric_migration.py:273 | as written, the comprehension succeeds exactly when every link has a top-level `tDn`, and lists them in order |
| FabricMigration.AsWrittenPolicyGroupRaises | fabric_migration.py:273 | as written, the first policy-group link in the controller's shape raises `KeyError('tDn')` |
| FabricMigration.LinkTDnsOfSpec | fabric_migration.py:273 | corrected, the comprehension succeeds exactly when every link has `attributes.tDn`, and lists them in order |
| FabricMigration.CorrectedPolicyGroupReads | fabric_migration.py:273 | corrected, the policy group is the `tDn` of every link, in order |
| FabricMigration.PolicyGroup | fabric_migration.py:273 | the comprehension over `find_values('infraRsAccNodePGrp', ...)` computes the corrected read |
| FabricMigration.DestSwitchProfileLinks | fabric_migration.py:274-275 | the destination's switch profile links exactly the interface profile of the same name, and its block spans just the destination node |
| FabricMigration.ChildTDnsOk | fabric_migration.py:282-284 | for any children, the child loop raises exactly when some child is unreadable: `'infraRsAccPortP' in child` raises (a number, boolean or null child), or is true and `child['infraRsAccPortP']['attributes']['tDn']` raises; over dict children, exactly when a linking child lacks `attributes.tDn` |
| FabricMigration.ChildTDnsFound | fabric_migration.py:282-284 | the child loop keeps the earlier tDns and adds exactly the tDns of the linking children |
| FabricMigration.ProfileTDns | fabric_migration.py:282-284 | the loop over one profile's children computes its contribution |
| FabricMigration.CollectIntProfileTDns | fabric_migration.py:280-284 | both loops fill `source_int_profiles_tDns` |
| FabricMigration.IntProfileTDnsAll | fabric_migration.py:280-284 | across all source switch profiles, the loops complete exactly when every profile's children can be read and the child loop over all of them completes; the tDns found are exactly those some child of some profile links |
| FabricMigration.SelectedIntProfilesSpec | fabric_migration.py:287-290 | the selection raises exactly when a profile lacks its `dn`; it keeps exactly the profiles whose `dn` is a source tDn |
| FabricMigration.SelectIntProfiles | fabric_migration.py:287-290 | the loop over `all_interface_profiles['imdata']` computes that selection |
| FabricMigration.DetailsOk | fabric_migration.py:297-301 | the detail loop raises exactly when a detail is not a dict or lacks its `attributes` |
| FabricMigration.DetailsBlocks | fabric_migration.py:296-301 | the attributes are kept, and one block per `infraPortBlk` detail is appended, in order |
| FabricMigration.ApplyDetailPolicy | fabric_migration.py:298-299 | a policy link sets the selector's policy; any other detail leaves it unchanged |
| FabricMigration.DetailsNoPolicy | fabric_migration.py:296-301 | without a policy link the selector gets no policy |
| FabricMigration.DetailsPolicy | fabric_migration.py:298-299 | the policy is that of the last policy link |
| FabricMigration.ReadPortSelector | fabric_migration.py:296-302 | the detail loop builds one port selector |
| FabricMigration.HPortsOk | fabric_migration.py:295-302 | the selector loop raises exactly when some selector cannot be read |
| FabricMigration.HPortsSelectors | fabric_migration.py:295-302 | one port selector per child, in order, after those built before |
| FabricMigration.ProfilePortSelectors | fabric_migration.py:295-302 | the loop over one profile's children computes its selectors |
| FabricMigration.BuildPortSelectors | fabric_migration.py:293-302 | the three loops fill `port_selectors` |
| FabricMigration.PortSelectorsAll | fabric_migration.py:293-302 | across all selected interface profiles, the loops complete exactly when every profile's children and every selector can be read, and build one selector per `infraHPortS` child, in order |
| FabricMigration.UsedIdsSpec | fabric_migration.py:308-310 | the ids are parsed one per group, in order; the loop raises exactly when an id is not an integer |
| FabricMigration.CollectUsedIds | fabric_migration.py:308-310 | the loop fills `used_ids` |
| FabricMigration.Candidates | fabric_migration.py:313 | `set(range(1, n + 1))` holds exactly 1..n |
| FabricMigration.FreeIds | fabric_migration.py:314 | the free ids are exactly 1..n+1 minus the used ones |
| FabricMigration.FreeIdExists | fabric_migration.py:313-314 | with n ids in use one of 1..n+1 is free, so `min` never fails |
| FabricMigration.LowestUnusedId | fabric_migration.py:313-314 | the id is unused and between 1 and n+1, and every smaller positive id is used |
| FabricMigration.VpcNamePair | fabric_migration.py:315 | the group name is `<prefix><d0>-<d1>` |
| FabricMigration.VpcGroupForSpec | fabric_migration.py:313-318 | the group for a pair is always built, at `uni/fabric/protpol/expgep-<name>`, with the lowest unused id |
| FabricMigration.VpcGroupForMembers | fabric_migration.py:318 | the group pairs the two destinations, in order, in pod 1 |
| FabricMigration.MigrateVpcGroup | fabric_migration.py:306-318 | the VPC step reads the used ids, then sends the group for the destination pair |
| FabricMigration.IntProfileForNamed | fabric_migration.py:274 | the built interface profile has the name and `dn` the switch profile links to |
| FabricMigration.NodeSentLinks | fabric_migration.py:273-303 | the body sends at most two requests, and when it sends both, the switch profile links exactly the interface profile sent after it |
| FabricMigration.NodeSentComplete | fabric_migration.py:255-303 | the body ends normally exactly when it sends both requests, and returns the second |
| FabricMigration.NodeStages | fabric_migration.py:255-303 | an exception before the first commit sends nothing; otherwise the body sends the switch profile, then the interface profile unless building it raises, and ends as building it ends |
| FabricMigration.SendSwitchProfile | fabric_migration.py:257-275 | the steps up to the first commit, with the policy group read as corrected under "## Findings"; the log gains the destination's switch profile only when they succeed and the controller accepts it |
| FabricMigration.SendIntProfile | fabric_migration.py:280-303 | the steps after the first commit; the log gains the interface profile only when it is built and accepted |
| FabricMigration.PrepareNode | fabric_migration.py:257-273 | the steps before the first commit sort the profiles and read the policy group, with the read corrected under "## Findings" |
| FabricMigration.CopySourceSelectors | fabric_migration.py:280-302 | the steps between the commits collect the source's port selectors |
| FabricMigration.MigrateNode | fabric_migration.py:255-303 | the body for one node, with the policy-group read corrected under "## Findings", returns the interface profile or the first exception; the log gains the accepted subsequence of what was sent |
| PathRewrite.RewritePath | fabric_migration.py:337-340 | the `for j` loop applies the renamings one after the other |
| PathRewrite.RewriteUntouched | fabric_migration.py:337-341 | a binding that names none of the renamed nodes is copied unchanged |
| PathRewrite.RewriteIdentity | fabric_migration.py:338-340 | renamings that keep every node change nothing |
| PathRewrite.SingleLeafRewrite | fabric_migration.py:323-340 | a single-leaf migration moves the one reference to the source leaf and changes nothing else |
| PathRewrite.SingleLeafOrders | fabric_migration.py:323-327 | for a single leaf, the written order and the corrected order are the same one renaming |
| PathRewrite.PairOrders | fabric_migration.py:323-327 | for a pair, both orders hold the same three renamings; the corrected one does the pair first |
| PathRewrite.AsWrittenMissesVpcPath | fabric_migration.py:323-340 | as written, the pair 107/108 → 207/208 turns `protpaths-107-108` into `protpaths-207-108` |
| PathRewrite.CorrectedMovesVpcPath | fabric_migration.py:323-340 | with the pair renamed first, `protpaths-107-108` becomes `protpaths-207-208` |
| PathRewrite.NewPathsSpec | fabric_migration.py:335-341 | one new binding per binding, in order, each the loaded rewritten text; raises exactly when a binding is neither a dict nor a list (`path.copy()` fails) or a rewritten text does not load |
| PathRewrite.NewPathsUntouched | fabric_migration.py:335-341 | when loading undoes dumping and no binding names a renamed node, the new bindings are the old ones, or `AttributeError` when some binding has no `.copy()` |
| PathRewrite.ResponsePaths | fabric_migration.py:335-341 | the loop over one response's bindings, copying, dumping, rewriting and loading each |
| PathRewrite.RewritePaths | fabric_migration.py:332-341 | both loops fill `new_path_dicts` |
| PathRewrite.NewPathDictsAll | fabric_migration.py:332-341 | across all responses, the loops complete exactly when every response has its bindings, every binding is a dict or a list and every rewritten binding loads, and build one new binding per binding, in order |
| PathRewrite.MigrateOverlay | fabric_migration.py:323-342 | the overlay step, with the renaming order corrected under "## Findings", either raises before sending anything, or hands the new bindings to `create_static_paths`, which commits them in order and may raise midway, after committing the earlier ones, at a binding without `fvRsPathAtt.attributes.dn`; the log gains only requests for new bindings |

## Left out

- The REST getters are not modelled. The tree each one returns is a parameter: `switchProfiles`, `allIntProfiles`, the static-path `responses`. These getters are `get_token`, `get_leaf_switch_profiles`, `get_leaf_interface_profiles`, `get_static_paths`, `get_fabric_node_by_id` and `save_aci_config_snapshot`.
- The check that the source nodes exist (fabric_migration.py:240-250) is not modelled, nor is the `exit()` it may call. It depends only on the controller's answers.
- `md.lookupByClass("fabricExplicitGEp")` is not modelled. The `id` texts of the existing groups are a parameter.
- The SDK's login and logout are not modelled, nor is the parent lookup `Dn.fromString(...).getParent()` / `lookupByDn`. A request is modelled as its distinguished name plus the managed-object subtree sent under the parent.
- Why the controller refuses a commit is not modelled, and neither is the exception text. `Apic.Commit` may accept or refuse any request.
- `print` is not modelled. `exit()` after a malformed spec line is modelled as the run stopping with a `LineError`.
- File reading is a parameter: `ReadSpec` takes the lines of the file.
- `json.dumps` and `json.loads` are function parameters of the overlay.
- JsonSearch.Objects: `find_values` is modelled as the program calls it, on `json.dumps` of a decoded value, so the text it decodes has one member per key. A raw text with a repeated key, which the program never passes, would also have the hook see the objects inside the overwritten members. That case is not modelled.
- JSON numbers are integers. Floats are not modelled.
- Python equality across types (`1 == True`, `1 == 1.0`) is not modelled. `in` on lists uses structural equality.
- `int()` is modelled for an optional sign and ASCII digits, with single underscores allowed between digits, as Python allows. Non-ASCII decimal digits are not modelled.
- PyStr.Strip removes only ASCII and Latin-1 white space (code points 9-13, 28-32, 0x85, 0xA0). Python's `int()` also strips the other Unicode white space, such as U+2000-U+200A and U+3000.
- The outer per-line driver is not one method. It sequences `ReadSpec`, `MigrateNode` for each destination, `MigrateVpcGroup` for a pair, and `MigrateOverlay` (fabric_migration.py:212-342). Each step is modelled and proved on its own.
- AciCreateObjects.CreateVpcGroup: the source commits twice, and the first commit (ACI_create_objects.py:158) is outside the `try`. The model commits once and treats a refusal as printed. A refusal of that first commit, which would end the whole run, is not modelled.
- AciCreateObjects.CreateStaticPaths: the contract bounds the new log entries to requests built from the bindings. It does not state that they appear in binding order.
- PathRewrite.MigrateOverlay: the same weaker statement about the log as `CreateStaticPaths`.
- PathRewrite.MigrateOverlay: renames with the corrected order (`OverlayRenames`, the pair first), not the order of fabric_migration.py:323-327 (the pair last). The program as written is `OverlayRenamesAsWritten`, and `AsWrittenMissesVpcPath` shows where the two differ.
- FabricMigration.SwitchProfileFor: reads the policy group with the corrected `obj['attributes']['tDn']` (`LinkTDnsOf`), not the `obj['tDn']` of fabric_migration.py:273. Where that line raises `KeyError('tDn')` before anything is sent, the model goes on. `TDnsOf` is the read as written, and `AsWrittenPolicyGroupRaises` shows it failing.
- FabricMigration.PrepareNode: the same corrected policy-group read as `SwitchProfileFor`.
- FabricMigration.SendSwitchProfile: the same corrected policy-group read, so it sends the switch profile where the program as written raises.
- FabricMigration.MigrateNode: the same corrected policy-group read. On a profile with a policy-group link, its first exception is not the program's `KeyError('tDn')`.
- FabricMigration.DestSwitchProfile passes the whole policy-group list as the link's `tDn`, as fabric_migration.py:275 does. What the SDK makes of a list is not modelled.
- Strings are sequences of characters. There is no encoding or Unicode handling.
- config.py is not part of this model. The naming prefixes are the fields of `Config`.
- overlay_migration.py is not part of this model.

## Findings

| source | as written | input that shows it | evidently intended | confidence | as-written member | corrected member |
|---|---|---|---|---|---|---|
| fabric_migration.py:323-340 | For a VPC pair, the renaming of the pair `s0-s1` is appended after the two leaf renamings. `paths-s0` has already been rewritten inside `protpaths-s0-s1` by the time the pair renaming runs, so it never matches. Also, `get_static_paths` (fabric_migration.py:188-191) fetches only bindings whose tDn contains `/paths-<leaf>`, which a `.../protpaths-s0-s1/...` tDn does not. So the program as a whole does not fetch VPC bindings at all, and no VPC binding is migrated. | Spec line `107,108,207,208` with binding path `topology/pod-1/protpaths-107-108/pathep-[vpc1]`. The new binding points at `protpaths-207-108`, which is neither the source pair nor the destination pair. | The binding moves to `protpaths-207-208`, with the pair renamed before the leaves (`PathRewrite.OverlayRenames`, which `MigrateOverlay` uses). | not executed | PathRewrite.AsWrittenMissesVpcPath | PathRewrite.CorrectedMovesVpcPath |
| fabric_migration.py:273 | `obj['tDn']` is read on each `infraRsAccNodePGrp` value. That value is the relation object, whose properties sit under `attributes`, as line 284 reads `infraRsAccPortP`. | A source switch profile whose leaf selector has the child `{"infraRsAccNodePGrp": {"attributes": {"tDn": "uni/infra/funcprof/accnodepgrp-SwPg"}}}` raises `KeyError('tDn')`. | `obj['attributes']['tDn']` (`FabricMigration.LinkTDnsOf`). `PolicyGroup`, `PrepareNode`, `SendSwitchProfile` and `MigrateNode` use it. | not executed | FabricMigration.AsWrittenPolicyGroupRaises | FabricMigration.CorrectedPolicyGroupReads |

=== FILE: aci_create_objects.dfy ===
/**
 * ACI_create_objects.py: the configuration objects the migration hands to
 * the controller SDK. Each `create_*` operation builds a managed-object
 * subtree and commits it; here the subtree is a `Mo` value, building it is a
 * function or a read-only method, and the commit is the one step of `Apic`,
 * which the controller may refuse.
 */
module AciCreateObjects {
  import opened PyBase
  import opened PyJson

  /** The naming prefixes the scripts read from their configuration module. */
  datatype Config = Config(
    switchProfilePrefix: string,
    switchSelectorPrefix: string,
    blockPrefix: string,
    interfaceProfilePrefix: string,
    vpcGroupPrefix: string)

  /** A managed object as the SDK builds it: its class, its properties and its children. */
  datatype Mo = Mo(cls: string, attrs: map<string, Json>, children: seq<Mo>)

  /** One commit: the distinguished name the SDK is given and the subtree sent under its parent. */
  datatype ConfigRequest = ConfigRequest(dn: Json, mo: Mo)

  /** The children of `mo` of one class, in order. */
  function ChildrenOf(mo: Mo, cls: string): seq<Mo> {
    Select(mo.children, cls)
  }

  function Select(mos: seq<Mo>, cls: string): (r: seq<Mo>)
    ensures |r| <= |mos|
    ensures forall m :: m in r ==> m in mos && m.cls == cls
  {
    if mos == [] then []
    else (if mos[0].cls == cls then [mos[0]] else []) + Select(mos[1..], cls)
  }

  /** `mo` carries the property `k` with value `v`. */
  predicate HasAttr(mo: Mo, k: string, v: Json) {
    k in mo.attrs && mo.attrs[k] == v
  }

  const Empty := JStr("")

  // -----------------------------------------------------------------------
  // filter_dict_keys
  // -----------------------------------------------------------------------

  /** The entries of `d` whose key is listed in `keep`. */
  function Restrict(d: map<string, Json>, keep: seq<string>): (r: map<string, Json>)
    ensures forall k :: k in r <==> k in d && k in keep
    ensures forall k :: k in r ==> r[k] == d[k]
  {
    map k | k in d && k in keep :: d[k]
  }

  /** Filtering twice with the same keys is filtering once. */
  lemma RestrictIdempotent(d: map<string, Json>, keep: seq<string>)
    ensures Restrict(Restrict(d, keep), keep) == Restrict(d, keep)
  {
  }

  /** With no keys to keep, nothing is kept. */
  lemma RestrictNothing(d: map<string, Json>)
    ensures Restrict(d, []) == map[]
  {
  }

  /**
   * `filter_dict_keys(org_dict, keep_keys)`: walks the dict's items and
   * copies those whose key is in `keep_keys` into a new dict.
   */
  method FilterDictKeys(items: seq<Member>, keep: seq<string>) returns (kept: map<string, Json>)
    ensures kept == Restrict(DictOf(items), keep)
    ensures forall k :: k in kept <==> k in DictOf(items) && k in keep
    ensures forall k :: k in kept ==> kept[k] == DictOf(items)[k]
  {
    kept := map[];
    for i := 0 to |items|
      invariant kept == Restrict(DictOf(items[..i]), keep)
    {
      assert items[..i + 1][..i] == items[..i];
      if items[i].key in keep {
        kept := kept[items[i].key := items[i].value];
      }
    }
    assert items[..|items|] == items;
  }

  // -----------------------------------------------------------------------
  // create_switch_profile
  // -----------------------------------------------------------------------

  function SwitchProfileDn(cfg: Config, nodeName: string): string {
    "uni/infra/nprof-" + cfg.switchProfilePrefix + nodeName
  }

  /**
   * The switch profile `create_switch_profile` commits: a profile, an
   * optional link to an interface profile, one leaf selector with an
   * optional link to a policy group, and one node block.
   */
  function SwitchProfilePayload(
    cfg: Config, nodeName: string, fromBlock: string, toBlock: string,
    intProfileTDn: Json, policyGroupTDn: Json): ConfigRequest
  {
    var accPortP :=
      if Truthy(intProfileTDn)
      then [Mo("infraRsAccPortP", map["annotation" := Empty, "tDn" := intProfileTDn], [])]
      else [];
    var profile := Mo("infraNodeP",
      map["annotation" := Empty, "descr" := Empty, "name" := JStr(cfg.switchProfilePrefix + nodeName),
          "nameAlias" := Empty, "ownerKey" := Empty, "ownerTag" := Empty],
      accPortP + [LeafSelector(cfg, nodeName, fromBlock, toBlock, policyGroupTDn)]);
    ConfigRequest(JStr(SwitchProfileDn(cfg, nodeName)), profile)
  }

  /** The leaf selector of a switch profile: an optional policy-group link, then the node block. */
  function LeafSelector(cfg: Config, nodeName: string, fromBlock: string, toBlock: string, policyGroupTDn: Json): Mo {
    var nodePGrp :=
      if Truthy(policyGroupTDn)
      then [Mo("infraRsAccNodePGrp", map["annotation" := Empty, "tDn" := policyGroupTDn], [])]
      else [];
    Mo("infraLeafS",
       map["annotation" := Empty, "descr" := Empty, "name" := JStr(cfg.switchSelectorPrefix + nodeName),
           "nameAlias" := Empty, "ownerKey" := Empty, "ownerTag" := Empty, "type" := JStr("range")],
       nodePGrp + [NodeBlock(cfg, nodeName, fromBlock, toBlock)])
  }

  function NodeBlock(cfg: Config, nodeName: string, fromBlock: string, toBlock: string): Mo {
    Mo("infraNodeBlk",
       map["annotation" := Empty, "descr" := Empty, "from_" := JStr(fromBlock),
           "name" := JStr(cfg.blockPrefix + nodeName), "nameAlias" := Empty, "to_" := JStr(toBlock)],
       [])
  }

  /**
   * The profile is named after the node and holds exactly one leaf
   * selector; the interface-profile link is there iff its tDn is truthy.
   */
  lemma SwitchProfileShape(
    cfg: Config, nodeName: string, fromBlock: string, toBlock: string,
    intProfileTDn: Json, policyGroupTDn: Json)
    ensures var p := SwitchProfilePayload(cfg, nodeName, fromBlock, toBlock, intProfileTDn, policyGroupTDn).mo;
      && p.cls == "infraNodeP"
      && HasAttr(p, "name", JStr(cfg.switchProfilePrefix + nodeName))
      && |ChildrenOf(p, "infraRsAccPortP")| == (if Truthy(intProfileTDn) then 1 else 0)
      && (forall r :: r in ChildrenOf(p, "infraRsAccPortP") ==> HasAttr(r, "tDn", intProfileTDn))
      && ChildrenOf(p, "infraLeafS") == [LeafSelector(cfg, nodeName, fromBlock, toBlock, policyGroupTDn)]
  {
    var sel := LeafSelector(cfg, nodeName, fromBlock, toBlock, policyGroupTDn);
    var p := SwitchProfilePayload(cfg, nodeName, fromBlock, toBlock, intProfileTDn, policyGroupTDn).mo;
    SelectCons(sel, [], "infraRsAccPortP");
    SelectCons(sel, [], "infraLeafS");
    if Truthy(intProfileTDn) {
      SelectCons(p.children[0], [sel], "infraRsAccPortP");
      SelectCons(p.children[0], [sel], "infraLeafS");
    }
  }

  /**
   * The selector is a range selector named after the node holding exactly
   * one node block; the policy-group link is there iff its tDn is truthy.
   */
  lemma LeafSelectorShape(cfg: Config, nodeName: string, fromBlock: string, toBlock: string, policyGroupTDn: Json)
    ensures var s := LeafSelector(cfg, nodeName, fromBlock, toBlock, policyGroupTDn);
      && s.cls == "infraLeafS"
      && HasAttr(s, "name", JStr(cfg.switchSelectorPrefix + nodeName))
      && HasAttr(s, "type", JStr("range"))
      && |ChildrenOf(s, "infraRsAccNodePGrp")| == (if Truthy(policyGroupTDn) then 1 else 0)
      && (forall r :: r in ChildrenOf(s, "infraRsAccNodePGrp") ==> HasAttr(r, "tDn", policyGroupTDn))
      && ChildrenOf(s, "infraNodeBlk") == [NodeBlock(cfg, nodeName, fromBlock, toBlock)]
  {
    var sel := LeafSelector(cfg, nodeName, fromBlock, toBlock, policyGroupTDn);
    var block := NodeBlock(cfg, nodeName, fromBlock, toBlock);
    SelectCons(block, [], "infraRsAccNodePGrp");
    SelectCons(block, [], "infraNodeBlk");
    if Truthy(policyGroupTDn) {
      SelectCons(sel.children[0], [block], "infraRsAccNodePGrp");
      SelectCons(sel.children[0], [block], "infraNodeBlk");
    }
  }

  /** The node block is named after the node and spans `fromBlock`..`toBlock`. */
  lemma NodeBlockShape(cfg: Config, nodeName: string, fromBlock: string, toBlock: string)
    ensures var b := NodeBlock(cfg, nodeName, fromBlock, toBlock);
      && b.cls == "infraNodeBlk"
      && HasAttr(b, "name", JStr(cfg.blockPrefix + nodeName))
      && HasAttr(b, "from_", JStr(fromBlock))
      && HasAttr(b, "to_", JStr(toBlock))
  {
  }

  lemma SelectCons(m: Mo, rest: seq<Mo>, cls: string)
    ensures Select([m] + rest, cls) == (if m.cls == cls then [m] else []) + Select(rest, cls)
  {
    assert ([m] + rest)[1..] == rest;
  }

  // -----------------------------------------------------------------------
  // create_int_profile
  // -----------------------------------------------------------------------

  /** The properties a port selector, its policy link and its port blocks may carry. */
  const IntProfileLimitKeys: seq<string> :=
    ["annotation", "descr", "name", "nameAlias", "ownerKey", "ownerTag", "type", "tDn", "fexId",
     "fromCard", "fromPort", "toCard", "toPort"]

  /**
   * A port selector copied from a source interface profile: its attributes,
   * the attributes of its port blocks and, if it has one, of its policy link.
   */
  datatype PortSelector = PortSelector(attributes: Json, blocks: seq<Json>, policy: Option<Json>)

  function IntProfileDn(name: string): string {
    "uni/infra/accportprof-" + name
  }

  /** One `filter_dict_keys(x, limit_keys)` call on a JSON value, which must be a dict. */
  function Limited(v: Json, keep: seq<string>): (r: Result<map<string, Json>>)
    ensures r.Ok? <==> v.JObj?
    ensures r.Err? ==> r.error == AttributeError
    ensures r.Ok? ==> r.value == Restrict(DictOf(v.members), keep)
  {
    var members :- AsDict(v);
    Ok(Restrict(DictOf(members), keep))
  }

  /** The port-block objects of a selector, in order. */
  function PortBlockMos(blocks: seq<Json>): (r: Result<seq<Mo>>)
    ensures r.Ok? <==> forall i :: 0 <= i < |blocks| ==> blocks[i].JObj?
    ensures r.Err? ==> r.error == AttributeError
    ensures r.Ok? ==> |r.value| == |blocks|
    ensures r.Ok? ==> forall i :: 0 <= i < |blocks| ==>
      r.value[i] == Mo("infraPortBlk", Restrict(DictOf(blocks[i].members), IntProfileLimitKeys), [])
  {
    if blocks == [] then Ok([])
    else
      var first :- Limited(blocks[0], IntProfileLimitKeys);
      var rest :- PortBlockMos(blocks[1..]);
      Ok([Mo("infraPortBlk", first, [])] + rest)
  }

  /** The `infraHPortS` object built for one selector dict. */
  function PortSelectorMo(sel: PortSelector): (r: Result<Mo>)
    ensures r.Err? ==> r.error == AttributeError
  {
    var attrs :- Limited(sel.attributes, IntProfileLimitKeys);
    var policy :-
      if sel.policy.Some? then
        var group :- Limited(sel.policy.value, IntProfileLimitKeys);
        Ok([Mo("infraRsAccBaseGrp", group, [])])
      else Ok([]);
    var blocks :- PortBlockMos(sel.blocks);
    Ok(Mo("infraHPortS", attrs, policy + blocks))
  }

  /** The selectors of an interface profile, in order; the first selector that is not well formed stops the run. */
  function PortSelectorMos(sels: seq<PortSelector>): (r: Result<seq<Mo>>)
    ensures r.Ok? <==> forall i :: 0 <= i < |sels| ==> PortSelectorMo(sels[i]).Ok?
    ensures r.Err? ==> r.error == AttributeError
    ensures r.Ok? ==> |r.value| == |sels|
    ensures r.Ok? ==> forall i :: 0 <= i < |sels| ==> r.value[i] == PortSelectorMo(sels[i]).value
  {
    if sels == [] then Ok([])
    else
      var first :- PortSelectorMo(sels[0]);
      var rest :- PortSelectorMos(sels[1..]);
      Ok([first] + rest)
  }

  /** The interface profile `create_int_profile` commits. */
  function IntProfilePayload(name: string, sels: seq<PortSelector>): Result<ConfigRequest> {
    var selectors :- PortSelectorMos(sels);
    Ok(ConfigRequest(JStr(IntProfileDn(name)),
      Mo("infraAccPortP",
         map["annotation" := Empty, "descr" := Empty, "name" := JStr(name),
             "nameAlias" := Empty, "ownerKey" := Empty, "ownerTag" := Empty],
         selectors)))
  }

  /**
   * A port selector keeps only the allowed keys of its attributes; its
   * children are the policy link, present exactly when it has a policy and
   * carrying only the allowed keys of the policy, followed by one port block
   * per block dict, each carrying only the allowed keys; it fails exactly
   * when one of those is not a dict.
   */
  lemma PortSelectorShape(sel: PortSelector)
    ensures PortSelectorMo(sel).Ok? <==>
      && sel.attributes.JObj?
      && (sel.policy.Some? ==> sel.policy.value.JObj?)
      && (forall i :: 0 <= i < |sel.blocks| ==> sel.blocks[i].JObj?)
    ensures PortSelectorMo(sel).Ok? ==>
      var m := PortSelectorMo(sel).value;
      && m.cls == "infraHPortS"
      && m.attrs == Restrict(DictOf(sel.attributes.members), IntProfileLimitKeys)
      && (forall k :: k in m.attrs ==> k in IntProfileLimitKeys)
      && ChildrenOf(m, "infraRsAccBaseGrp") ==
           (if sel.policy.Some?
            then [Mo("infraRsAccBaseGrp", Restrict(DictOf(sel.policy.value.members), IntProfileLimitKeys), [])]
            else [])
      && ChildrenOf(m, "infraPortBlk") == PortBlockMos(sel.blocks).value
      && m.children == ChildrenOf(m, "infraRsAccBaseGrp") + ChildrenOf(m, "infraPortBlk")
      && |ChildrenOf(m, "infraPortBlk")| == |sel.blocks|
  {
    var r := PortSelectorMo(sel);
    if r.Ok? {
      var m := r.value;
      var blocks := PortBlockMos(sel.blocks).value;
      var policy := if sel.policy.Some? then [Mo("infraRsAccBaseGrp", Limited(sel.policy.value, IntProfileLimitKeys).value, [])] else [];
      assert m.children == policy + blocks;
      SelectConcat(policy, blocks, "infraRsAccBaseGrp");
      SelectConcat(policy, blocks, "infraPortBlk");
      SelectAll(blocks, "infraPortBlk");
      SelectNone(blocks, "infraRsAccBaseGrp");
    }
  }

  lemma {:induction false} SelectConcat(xs: seq<Mo>, ys: seq<Mo>, cls: string)
    ensures Select(xs + ys, cls) == Select(xs, cls) + Select(ys, cls)
  {
    if xs != [] {
      assert (xs + ys)[1..] == xs[1..] + ys;
      SelectConcat(xs[1..], ys, cls);
    } else {
      assert xs + ys == ys;
    }
  }

  lemma {:induction false} SelectAll(xs: seq<Mo>, cls: string)
    requires forall i :: 0 <= i < |xs| ==> xs[i].cls == cls
    ensures Select(xs, cls) == xs
  {
    if xs != [] {
      SelectAll(xs[1..], cls);
    }
  }

  lemma {:induction false} SelectNone(xs: seq<Mo>, cls: string)
    requires forall i :: 0 <= i < |xs| ==> xs[i].cls != cls
    ensures Select(xs, cls) == []
  {
    if xs != [] {
      SelectNone(xs[1..], cls);
    }
  }

  /**
   * The outer loop of `create_int_profile`: one port selector per selector
   * dict, in order.
   */
  method BuildIntProfile(name: string, sels: seq<PortSelector>) returns (r: Result<ConfigRequest>)
    ensures r == IntProfilePayload(name, sels)
  {
    var selectors: seq<Mo> := [];
    for i := 0 to |sels|
      invariant forall j :: 0 <= j < i ==> PortSelectorMo(sels[j]).Ok?
      invariant |selectors| == i
      invariant forall j :: 0 <= j < i ==> selectors[j] == PortSelectorMo(sels[j]).value
    {
      var selector := BuildPortSelector(sels[i]);
      if selector.Err? {
        return Err(selector.error);
      }
      selectors := selectors + [selector.value];
    }
    assert PortSelectorMos(sels).value == selectors;
    r := Ok(ConfigRequest(JStr(IntProfileDn(name)),
      Mo("infraAccPortP",
         map["annotation" := Empty, "descr" := Empty, "name" := JStr(name),
             "nameAlias" := Empty, "ownerKey" := Empty, "ownerTag" := Empty],
         selectors)));
  }

  /**
   * The body of that loop: the selector's own attributes, its policy link,
   * then its port blocks, each filtered to the allowed keys.
   */
  method BuildPortSelector(sel: PortSelector) returns (r: Result<Mo>)
    ensures r == PortSelectorMo(sel)
  {
    if !sel.attributes.JObj? {
      return Err(AttributeError);
    }
    var attrs := FilterDictKeys(sel.attributes.members, IntProfileLimitKeys);
    var children: seq<Mo> := [];
    if sel.policy.Some? {
      if !sel.policy.value.JObj? {
        return Err(AttributeError);
      }
      var group := FilterDictKeys(sel.policy.value.members, IntProfileLimitKeys);
      children := [Mo("infraRsAccBaseGrp", group, [])];
    }
    var blocks := BuildPortBlocks(sel.blocks);
    if blocks.Err? {
      return Err(AttributeError);
    }
    r := Ok(Mo("infraHPortS", attrs, children + blocks.value));
  }

  /** The inner loop of `create_int_profile`: one port block per block dict, in order. */
  method BuildPortBlocks(blocks: seq<Json>) returns (r: Result<seq<Mo>>)
    ensures r == PortBlockMos(blocks)
  {
    var mos: seq<Mo> := [];
    for k := 0 to |blocks|
      invariant forall j :: 0 <= j < k ==> blocks[j].JObj?
      invariant |mos| == k
      invariant forall j :: 0 <= j < k ==>
        mos[j] == Mo("infraPortBlk", Restrict(DictOf(blocks[j].members), IntProfileLimitKeys), [])
    {
      if !blocks[k].JObj? {
        return Err(AttributeError);
      }
      var block := FilterDictKeys(blocks[k].members, IntProfileLimitKeys);
      mos := mos + [Mo("infraPortBlk", block, [])];
    }
    assert PortBlockMos(blocks).value == mos;
    r := Ok(mos);
  }

  // -----------------------------------------------------------------------
  // create_vpc_group
  // -----------------------------------------------------------------------

  /**
   * The explicit VPC protection group `create_vpc_group` commits; `nodes[0]`
   * and `nodes[1]` raise `IndexError` when fewer than two nodes are given.
   */
  function VpcGroupPayload(name: string, id: int, nodes: seq<string>, podId: string): (r: Result<ConfigRequest>)
    ensures r.Ok? <==> |nodes| >= 2
    ensures r.Err? ==> r.error == IndexError
  {
    if |nodes| < 2 then Err(IndexError)
    else
      Ok(ConfigRequest(JStr("uni/fabric/protpol/expgep-" + name),
        Mo("fabricExplicitGEp",
           map["annotation" := Empty, "id" := JNum(id), "name" := JStr(name)],
           [VpcInstPol, NodeEndpoint(nodes[0], podId), NodeEndpoint(nodes[1], podId)])))
  }

  /** The link to the default VPC domain policy every protection group carries. */
  const VpcInstPol := Mo("fabricRsVpcInstPol", map["annotation" := Empty, "tnVpcInstPolName" := Empty], [])

  /**
   * The protection group is built exactly when at least two nodes are
   * given, else `nodes[1]` raises; it is named and numbered as asked and
   * pairs exactly the first two nodes, both in the given pod.
   */
  lemma VpcGroupShape(name: string, id: int, nodes: seq<string>, podId: string)
    ensures VpcGroupPayload(name, id, nodes, podId).Ok? <==> |nodes| >= 2
    ensures VpcGroupPayload(name, id, nodes, podId).Err? ==> VpcGroupPayload(name, id, nodes, podId).error == IndexError
    ensures |nodes| >= 2 ==>
      var g := VpcGroupPayload(name, id, nodes, podId).value.mo;
      && VpcGroupPayload(name, id, nodes, podId).value.dn == JStr("uni/fabric/protpol/expgep-" + name)
      && g.cls == "fabricExplicitGEp"
      && HasAttr(g, "id", JNum(id)) && HasAttr(g, "name", JStr(name))
      && |ChildrenOf(g, "fabricNodePEp")| == 2
      && HasAttr(ChildrenOf(g, "fabricNodePEp")[0], "id", JStr(nodes[0]))
      && HasAttr(ChildrenOf(g, "fabricNodePEp")[1], "id", JStr(nodes[1]))
      && (forall e :: e in ChildrenOf(g, "fabricNodePEp") ==> HasAttr(e, "podId", JStr(podId)))
      && |ChildrenOf(g, "fabricRsVpcInstPol")| == 1
  {
    if |nodes| >= 2 {
      var g := VpcGroupPayload(name, id, nodes, podId).value.mo;
      var e0, e1 := NodeEndpoint(nodes[0], podId), NodeEndpoint(nodes[1], podId);
      assert g.children == [VpcInstPol, e0, e1];
      NodeEndpointShape(nodes[0], podId);
      NodeEndpointShape(nodes[1], podId);
      VpcGroupChildren(VpcInstPol, e0, e1);
    }
  }

  lemma VpcGroupChildren(instPol: Mo, e0: Mo, e1: Mo)
    requires instPol.cls == "fabricRsVpcInstPol" && e0.cls == "fabricNodePEp" && e1.cls == "fabricNodePEp"
    ensures Select([instPol, e0, e1], "fabricNodePEp") == [e0, e1]
    ensures Select([instPol, e0, e1], "fabricRsVpcInstPol") == [instPol]
  {
    assert "fabricRsVpcInstPol" != "fabricNodePEp" by {
      assert "fabricRsVpcInstPol"[6] != "fabricNodePEp"[6];
    }
    assert [e1] == [e1] + [] && [e0, e1] == [e0] + [e1] && [instPol, e0, e1] == [instPol] + [e0, e1];
    SelectCons(e1, [], "fabricNodePEp");
    SelectCons(e0, [e1], "fabricNodePEp");
    SelectCons(instPol, [e0, e1], "fabricNodePEp");
    SelectCons(e1, [], "fabricRsVpcInstPol");
    SelectCons(e0, [e1], "fabricRsVpcInstPol");
    SelectCons(instPol, [e0, e1], "fabricRsVpcInstPol");
  }

  lemma NodeEndpointShape(node: string, podId: string)
    ensures NodeEndpoint(node, podId).cls == "fabricNodePEp"
    ensures HasAttr(NodeEndpoint(node, podId), "id", JStr(node))
    ensures HasAttr(NodeEndpoint(node, podId), "podId", JStr(podId))
  {
  }

  /** One member switch of a protection group. */
  function NodeEndpoint(node: string, podId: string): Mo {
    Mo("fabricNodePEp",
       map["annotation" := Empty, "descr" := Empty, "id" := JStr(node), "name" := Empty,
           "nameAlias" := Empty, "podId" := JStr(podId)],
       [])
  }

  // -----------------------------------------------------------------------
  // create_static_paths
  // -----------------------------------------------------------------------

  /** The properties a static path binding may carry; `dn` is not one of them. */
  const StaticPathLimitKeys: seq<string> :=
    ["annotation", "descr", "encap", "instrImedcy", "mode", "primaryEncap", "tDn"]

  /**
   * One iteration of `create_static_paths`: the binding's `dn`, recorded for
   * the summary, and the request that recreates the binding from its
   * allowed attributes.
   */
  function StaticPath(pathDict: Json): Result<(Json, ConfigRequest)> {
    var attrs :- BindingAttributes(pathDict);
    var dn :- Index(attrs, "dn");
    Ok((dn, ConfigRequest(dn, Mo("fvRsPathAtt", Restrict(DictOf(attrs.members), StaticPathLimitKeys), []))))
  }

  /**
   * A binding that has a `dn` is recreated at that `dn`, as a path
   * attachment carrying only the allowed properties, so never its own `dn`.
   */
  lemma StaticPathShape(pathDict: Json)
    ensures StaticPath(pathDict).Ok? <==>
      BindingAttributes(pathDict).Ok? && HasKey(BindingAttributes(pathDict).value, "dn")
    ensures StaticPath(pathDict).Ok? ==>
      var (dn, req) := StaticPath(pathDict).value;
      && dn == DictOf(BindingAttributes(pathDict).value.members)["dn"]
      && req.dn == dn
      && req.mo.cls == "fvRsPathAtt"
      && "dn" !in req.mo.attrs
      && (forall k :: k in req.mo.attrs <==> k in StaticPathLimitKeys && k in DictOf(BindingAttributes(pathDict).value.members))
  {
  }

  /** `path_dict['fvRsPathAtt']['attributes']`. */
  function BindingAttributes(pathDict: Json): Result<Json> {
    var binding :- Index(pathDict, "fvRsPathAtt");
    Index(binding, "attributes")
  }

  /** The loop's bookkeeping: the binding's `dn` is appended to the names recorded so far. */
  function StaticPathNameInto(names: seq<Json>, pathDict: Json): Result<seq<Json>> {
    var path :- StaticPath(pathDict);
    Ok(names + [path.0])
  }

  /** The `dn` of every binding, in input order; a binding without one stops the run. */
  function StaticPathNames(pathDicts: seq<Json>): Result<seq<Json>> {
    Fold(pathDicts, [], StaticPathNameInto)
  }

  /**
   * The run completes exactly when every binding has a `dn`, and then it
   * lists them one per binding, in input order.
   */
  lemma {:induction false} StaticPathNamesSpec(pathDicts: seq<Json>)
    ensures StaticPathNames(pathDicts).Ok? <==> forall i :: 0 <= i < |pathDicts| ==> StaticPath(pathDicts[i]).Ok?
    ensures StaticPathNames(pathDicts).Ok? ==>
      && |StaticPathNames(pathDicts).value| == |pathDicts|
      && forall i :: 0 <= i < |pathDicts| ==> StaticPathNames(pathDicts).value[i] == StaticPath(pathDicts[i]).value.0
  {
    if pathDicts != [] {
      var front, last := pathDicts[..|pathDicts| - 1], pathDicts[|pathDicts| - 1];
      StaticPathNamesSpec(front);
      assert forall i :: 0 <= i < |front| ==> front[i] == pathDicts[i];
      var before := StaticPathNames(front);
      if before.Ok? {
        assert StaticPathNames(pathDicts) == StaticPathNameInto(before.value, last);
        if StaticPath(last).Ok? {
          var names := StaticPathNames(pathDicts).value;
          assert names == before.value + [StaticPath(last).value.0];
          forall i | 0 <= i < |pathDicts|
            ensures names[i] == StaticPath(pathDicts[i]).value.0
          {
            if i < |front| {
              assert names[i] == before.value[i];
            }
          }
        }
      }
    }
  }

  // -----------------------------------------------------------------------
  // The controller
  // -----------------------------------------------------------------------

  /** A logged-in controller session; `log` holds the requests it has accepted, in order. */
  class Apic {
    var log: seq<ConfigRequest>

    constructor ()
      ensures log == []
    {
      log := [];
    }

    /** `md.commit(c)`: the controller accepts the request or raises. */
    method Commit(req: ConfigRequest) returns (ok: bool)
      modifies this
      ensures log == if ok then old(log) + [req] else old(log)
    {
      ok := *;
      if ok {
        log := log + [req];
      }
    }
  }

  /**
   * The requests of `sent` that the controller accepted, in the order they
   * were sent; `oks[i]` is its answer to `sent[i]`.
   */
  function Accepted(sent: seq<ConfigRequest>, oks: seq<bool>): seq<ConfigRequest>
    requires |oks| == |sent|
  {
    if sent == [] then []
    else Accepted(sent[..|sent| - 1], oks[..|oks| - 1]) + if oks[|oks| - 1] then [sent[|sent| - 1]] else []
  }

  /** `create_switch_profile`: commits the switch profile; a refused commit is printed and dropped. */
  method CreateSwitchProfile(
    apic: Apic, cfg: Config, nodeName: string, fromBlock: string, toBlock: string,
    intProfileTDn: Json, policyGroupTDn: Json)
    modifies apic
    ensures apic.log == old(apic.log)
         || apic.log == old(apic.log) + [SwitchProfilePayload(cfg, nodeName, fromBlock, toBlock, intProfileTDn, policyGroupTDn)]
  {
    var _ := apic.Commit(SwitchProfilePayload(cfg, nodeName, fromBlock, toBlock, intProfileTDn, policyGroupTDn));
  }

  /** `create_int_profile`: builds the interface profile and commits it. */
  method CreateIntProfile(apic: Apic, name: string, sels: seq<PortSelector>) returns (r: Result<ConfigRequest>)
    modifies apic
    ensures r == IntProfilePayload(name, sels)
    ensures r.Err? ==> apic.log == old(apic.log)
    ensures r.Ok? ==> apic.log == old(apic.log) || apic.log == old(apic.log) + [r.value]
  {
    r := BuildIntProfile(name, sels);
    if r.Ok? {
      var _ := apic.Commit(r.value);
    }
  }

  /** `create_vpc_group`: builds the protection group and commits it. */
  method CreateVpcGroup(apic: Apic, name: string, id: int, nodes: seq<string>, podId: string)
    returns (r: Result<ConfigRequest>)
    modifies apic
    ensures r == VpcGroupPayload(name, id, nodes, podId)
    ensures r.Err? ==> apic.log == old(apic.log)
    ensures r.Ok? ==> apic.log == old(apic.log) || apic.log == old(apic.log) + [r.value]
  {
    r := VpcGroupPayload(name, id, nodes, podId);
    if r.Ok? {
      var _ := apic.Commit(r.value);
    }
  }

  /**
   * `create_static_paths`: for each binding, records its `dn`, then commits
   * it; a refused commit is printed and the loop goes on, so every `dn` is
   * recorded whatever the controller answers.
   */
  method CreateStaticPaths(apic: Apic, pathDicts: seq<Json>) returns (names: Result<seq<Json>>)
    modifies apic
    ensures names == StaticPathNames(pathDicts)
    ensures |old(apic.log)| <= |apic.log| && apic.log[..|old(apic.log)|] == old(apic.log)
    ensures forall q :: q in apic.log[|old(apic.log)|..] ==> IsStaticPathRequest(pathDicts, q)
  {
    var recorded: seq<Json> := [];
    ghost var start := apic.log;
    for i := 0 to |pathDicts|
      invariant StaticPathNames(pathDicts[..i]) == Ok(recorded)
      invariant |start| <= |apic.log| && apic.log[..|start|] == start
      invariant forall q :: q in apic.log[|start|..] ==> IsStaticPathRequest(pathDicts, q)
    {
      StaticPathNamesStep(pathDicts, i, recorded);
      var step := StaticPath(pathDicts[i]);
      if step.Err? {
        return Err(step.error);
      }
      recorded := recorded + [step.value.0];
      var req := step.value.1;
      assert IsStaticPathRequest(pathDicts, req);
      ghost var before := apic.log;
      var ok := apic.Commit(req);
      if ok {
        LogAppend(before, |start|, req);
      }
    }
    assert pathDicts[..|pathDicts|] == pathDicts;
    names := Ok(recorded);
  }

  /** One iteration of the loop in `create_static_paths`, as the fold sees it. */
  lemma StaticPathNamesStep(pathDicts: seq<Json>, i: int, recorded: seq<Json>)
    requires 0 <= i < |pathDicts|
    requires StaticPathNames(pathDicts[..i]) == Ok(recorded)
    ensures StaticPath(pathDicts[i]).Ok? ==>
      StaticPathNames(pathDicts[..i + 1]) == Ok(recorded + [StaticPath(pathDicts[i]).value.0])
    ensures StaticPath(pathDicts[i]).Err? ==>
      StaticPathNames(pathDicts) == Err(StaticPath(pathDicts[i]).error)
  {
    assert pathDicts[..i + 1][..i] == pathDicts[..i];
    if StaticPath(pathDicts[i]).Err? {
      FoldStops(pathDicts, [], StaticPathNameInto, i + 1);
    }
  }

  /** Appending to a log keeps its first `n` entries and extends the rest by the new one. */
  lemma LogAppend(log: seq<ConfigRequest>, n: nat, req: ConfigRequest)
    requires n <= |log|
    ensures (log + [req])[..n] == log[..n]
    ensures (log + [req])[n..] == log[n..] + [req]
  {
  }

  /** `q` is the request built for one of the bindings. */
  predicate IsStaticPathRequest(pathDicts: seq<Json>, q: ConfigRequest) {
    exists j :: 0 <= j < |pathDicts| && StaticPath(pathDicts[j]).Ok? && StaticPath(pathDicts[j]).value.1 == q
  }
}

=== FILE: fabric_migration.dfy ===
/**
 * The fabric-access part of the migration loop in fabric_migration.py, for
 * one source/destination node: sorting the switch profiles into source and
 * destination profiles, recreating the switch profile of the destination,
 * finding the interface profiles of the source and copying their port
 * selectors, and choosing the id and name of a new VPC protection group.
 */
module FabricMigration {
  import opened PyBase
  import opened PyStr
  import opened PyJson
  import opened JsonSearch
  import opened AciCreateObjects

  // -----------------------------------------------------------------------
  // Sorting switch profiles into source and destination profiles
  // -----------------------------------------------------------------------

  /** Which list a switch profile goes to. */
  datatype Side = SourceSide | DestSide | Neither

  /** Python `needle in hay` with a string `hay`: a substring test, and a `TypeError` for a non-string needle. */
  function StrIn(needle: Json, hay: string): (r: Result<bool>)
    ensures r.Ok? <==> needle.JStr?
    ensures r.Err? ==> r.error == TypeError
    ensures r.Ok? ==> (r.value <==> exists i :: OccursAt(hay, needle.s, i))
  {
    if needle.JStr? then
      ContainsIffOccurs(hay, needle.s);
      Ok(Contains(hay, needle.s))
    else Err(TypeError)
  }

  /** The first `from_` and the first `to_` value anywhere in a profile. */
  function FirstBlock(profile: Json): Result<(Json, Json)> {
    var blockFrom :- FirstValue("from_", profile);
    var blockTo :- FirstValue("to_", profile);
    Ok((blockFrom, blockTo))
  }

  /** Both ends of a node block are strings found inside the node id. */
  predicate BlockWithin(blockFrom: Json, blockTo: Json, node: string) {
    blockFrom.JStr? && blockTo.JStr? && Contains(node, blockFrom.s) && Contains(node, blockTo.s)
  }

  /**
   * One turn of the profile loop: source if the profile's first block lies
   * within the source id, else destination if it lies within the
   * destination id; `and` does not look at `to_` once `from_` fails the test.
   */
  function Classify(profile: Json, source: string, dest: string): (r: Result<Side>)
    ensures FirstBlock(profile).Err? ==> r == Err(FirstBlock(profile).error)
    ensures FirstBlock(profile).Ok? ==>
      var (f, t) := FirstBlock(profile).value;
      && (r == Ok(SourceSide) <==> BlockWithin(f, t, source))
      && (r == Ok(DestSide) <==> !BlockWithin(f, t, source) && BlockWithin(f, t, dest))
      && (r.Err? <==> !f.JStr? || (!t.JStr? && (Contains(source, f.s) || Contains(dest, f.s))))
      && (r.Err? ==> r.error == TypeError)
  {
    var block :- FirstBlock(profile);
    var (blockFrom, blockTo) := block;
    var fromInSource :- StrIn(blockFrom, source);
    var inSource :- if fromInSource then StrIn(blockTo, source) else Ok(false);
    if inSource then Ok(SourceSide)
    else
      // `block_from` is known to be a string here, so this test cannot raise.
      var fromInDest := Contains(dest, blockFrom.s);
      var inDest :- if fromInDest then StrIn(blockTo, dest) else Ok(false);
      Ok(if inDest then DestSide else Neither)
  }

  /** The loop body: appends the profile to the list its side names. */
  function SortInto(lists: (seq<Json>, seq<Json>), profile: Json, source: string, dest: string): Result<(seq<Json>, seq<Json>)> {
    var side :- Classify(profile, source, dest);
    Ok(match side
      case SourceSide => (lists.0 + [profile], lists.1)
      case DestSide => (lists.0, lists.1 + [profile])
      case Neither => lists)
  }

  function SortStep(source: string, dest: string): ((seq<Json>, seq<Json>), Json) -> Result<(seq<Json>, seq<Json>)> {
    (lists, profile) => SortInto(lists, profile, source, dest)
  }

  /** `source_profiles` and `dest_profiles` after the loop over the profiles. */
  function SortedProfiles(profiles: seq<Json>, source: string, dest: string): Result<(seq<Json>, seq<Json>)> {
    Fold(profiles, ([], []), SortStep(source, dest))
  }

  /** The profiles classified on `side`, in input order. */
  function OnSide(profiles: seq<Json>, source: string, dest: string, side: Side): seq<Json> {
    if profiles == [] then []
    else
      var last := profiles[|profiles| - 1];
      OnSide(profiles[..|profiles| - 1], source, dest, side) +
        if Classify(last, source, dest) == Ok(side) then [last] else []
  }

  /**
   * The profiles are sorted without loss or invention: the source list is
   * the profiles classified as source, the destination list those classified
   * as destination, each in input order, so no profile is in both; the loop
   * raises exactly when some profile cannot be classified.
   */
  lemma SortedProfilesSpec(profiles: seq<Json>, source: string, dest: string)
    ensures SortedProfiles(profiles, source, dest).Ok? <==>
      forall i :: 0 <= i < |profiles| ==> Classify(profiles[i], source, dest).Ok?
    ensures SortedProfiles(profiles, source, dest).Ok? ==>
      var (src, dst) := SortedProfiles(profiles, source, dest).value;
      && src == OnSide(profiles, source, dest, SourceSide)
      && dst == OnSide(profiles, source, dest, DestSide)
      && (forall p :: p in src <==> p in profiles && Classify(p, source, dest) == Ok(SourceSide))
      && (forall p :: p in dst <==> p in profiles && Classify(p, source, dest) == Ok(DestSide))
      && (forall p :: !(p in src && p in dst))
      && |src| + |dst| <= |profiles|
  {
    FoldOkIff(profiles, ([], []), SortStep(source, dest), p => Classify(p, source, dest).Ok?);
    if SortedProfiles(profiles, source, dest).Ok? {
      SortedProfilesContents(profiles, source, dest);
    }
  }

  lemma {:induction false} SortedProfilesContents(profiles: seq<Json>, source: string, dest: string)
    requires SortedProfiles(profiles, source, dest).Ok?
    ensures var (src, dst) := SortedProfiles(profiles, source, dest).value;
      && src == OnSide(profiles, source, dest, SourceSide)
      && dst == OnSide(profiles, source, dest, DestSide)
      && (forall p :: p in src <==> p in profiles && Classify(p, source, dest) == Ok(SourceSide))
      && (forall p :: p in dst <==> p in profiles && Classify(p, source, dest) == Ok(DestSide))
      && (forall p :: !(p in src && p in dst))
      && |src| + |dst| <= |profiles|
  {
    if profiles != [] {
      var front, last := profiles[..|profiles| - 1], profiles[|profiles| - 1];
      assert SortedProfiles(front, source, dest).Ok?;
      SortedProfilesContents(front, source, dest);
      var lists := SortedProfiles(front, source, dest).value;
      assert SortedProfiles(profiles, source, dest) == SortInto(lists, last, source, dest);
      assert forall p :: p in profiles <==> p in front || p == last;
    }
  }

  /**
   * The loop over `switch_profiles['imdata']` that fills `source_profiles`
   * and `dest_profiles`.
   */
  method SortProfiles(switchProfiles: Json, source: string, dest: string) returns (r: Result<(seq<Json>, seq<Json>)>)
    ensures r == (var profiles :- ItemsAt(switchProfiles, ["imdata"]); SortedProfiles(profiles, source, dest))
  {
    var profiles :- ItemsAt(switchProfiles, ["imdata"]);
    var sourceProfiles, destProfiles := [], [];
    for i := 0 to |profiles|
      invariant SortedProfiles(profiles[..i], source, dest) == Ok((sourceProfiles, destProfiles))
    {
      assert profiles[..i + 1][..i] == profiles[..i];
      assert SortedProfiles(profiles[..i + 1], source, dest) ==
        SortInto((sourceProfiles, destProfiles), profiles[i], source, dest);
      var side := Classify(profiles[i], source, dest);
      if side.Err? {
        FoldStops(profiles, ([], []), SortStep(source, dest), i + 1);
        return Err(side.error);
      }
      if side.value == SourceSide {
        sourceProfiles := sourceProfiles + [profiles[i]];
      } else if side.value == DestSide {
        destProfiles := destProfiles + [profiles[i]];
      }
    }
    assert profiles[..|profiles|] == profiles;
    r := Ok((sourceProfiles, destProfiles));
  }

  // -----------------------------------------------------------------------
  // The destination's switch profile
  // -----------------------------------------------------------------------

  /** The list comprehension's step: `obj['tDn']` for the next policy-group value. */
  function TDnStep(tdns: seq<Json>, obj: Json): Result<seq<Json>> {
    var tdn :- Index(obj, "tDn");
    Ok(tdns + [tdn])
  }

  /** `[obj['tDn'] for obj in objs]`. */
  function TDnsOf(objs: seq<Json>): Result<seq<Json>> {
    Fold(objs, [], TDnStep)
  }

  /** The comprehension succeeds exactly when every object is a dict with a `tDn`, and keeps their order. */
  lemma {:induction false} TDnsOfSpec(objs: seq<Json>)
    ensures TDnsOf(objs).Ok? <==> forall i :: 0 <= i < |objs| ==> HasKey(objs[i], "tDn")
    ensures TDnsOf(objs).Ok? ==>
      && |TDnsOf(objs).value| == |objs|
      && forall i :: 0 <= i < |objs| ==> TDnsOf(objs).value[i] == DictOf(objs[i].members)["tDn"]
  {
    if objs != [] {
      var front := objs[..|objs| - 1];
      TDnsOfSpec(front);
      assert forall i :: 0 <= i < |front| ==> front[i] == objs[i];
    }
  }

  /**
   * A relation object as the controller returns it, the way the script
   * itself reads `infraRsAccPortP` links: its properties under `attributes`.
   */
  function RelationObject(tdn: Json): Json {
    JObj([Member("attributes", JObj([Member("tDn", tdn)]))])
  }

  lemma RelationObjectKeys(tdn: Json)
    ensures !HasKey(RelationObject(tdn), "tDn")
    ensures Lookup(RelationObject(tdn), ["attributes", "tDn"]) == Ok(tdn)
  {
    var attrs := [Member("tDn", tdn)];
    var members := [Member("attributes", JObj(attrs))];
    assert members[..0] == [] && attrs[..0] == [];
    assert DictOf(members) == map["attributes" := JObj(attrs)];
    assert DictOf(attrs) == map["tDn" := tdn];
    assert ["attributes", "tDn"][1..] == ["tDn"] && ["tDn"][1..] == [];
  }

  /**
   * As written, the comprehension looks `tDn` up on the relation object
   * itself, so the first policy-group link of a source profile raises
   * `KeyError`.
   */
  lemma AsWrittenPolicyGroupRaises(tdns: seq<Json>)
    requires tdns != []
    ensures TDnsOf(seq(|tdns|, i requires 0 <= i < |tdns| => RelationObject(tdns[i]))) == Err(KeyError("tDn"))
  {
    var objs := seq(|tdns|, i requires 0 <= i < |tdns| => RelationObject(tdns[i]));
    RelationObjectKeys(tdns[0]);
    assert objs[..1][..0] == [] && objs[..1][0] == RelationObject(tdns[0]);
    assert TDnStep([], RelationObject(tdns[0])) == Err(KeyError("tDn"));
    assert Fold(objs[..1][..0], [], TDnStep) == Ok([]);
    assert TDnsOf(objs[..1]) == Err(KeyError("tDn"));
    FoldStops(objs, [], TDnStep, 1);
  }

  /** The corrected comprehension's step: `obj['attributes']['tDn']`. */
  function LinkTDnStep(tdns: seq<Json>, obj: Json): Result<seq<Json>> {
    var tdn :- Lookup(obj, ["attributes", "tDn"]);
    Ok(tdns + [tdn])
  }

  /** `[obj['attributes']['tDn'] for obj in objs]`. */
  function LinkTDnsOf(objs: seq<Json>): Result<seq<Json>> {
    Fold(objs, [], LinkTDnStep)
  }

  /**
   * The corrected comprehension succeeds exactly when every link carries
   * `attributes.tDn`, and lists those in the links' order.
   */
  lemma {:induction false} LinkTDnsOfSpec(objs: seq<Json>)
    ensures LinkTDnsOf(objs).Ok? <==> forall i :: 0 <= i < |objs| ==> Lookup(objs[i], ["attributes", "tDn"]).Ok?
    ensures LinkTDnsOf(objs).Ok? ==>
      && |LinkTDnsOf(objs).value| == |objs|
      && forall i :: 0 <= i < |objs| ==> Lookup(objs[i], ["attributes", "tDn"]) == Ok(LinkTDnsOf(objs).value[i])
  {
    if objs != [] {
      var front := objs[..|objs| - 1];
      LinkTDnsOfSpec(front);
      assert forall i :: 0 <= i < |front| ==> front[i] == objs[i];
    }
  }

  /** Corrected, the policy group lists the `tDn` of every link the controller returns. */
  lemma CorrectedPolicyGroupReads(tdns: seq<Json>)
    ensures LinkTDnsOf(seq(|tdns|, i requires 0 <= i < |tdns| => RelationObject(tdns[i]))) == Ok(tdns)
  {
    var objs := seq(|tdns|, i requires 0 <= i < |tdns| => RelationObject(tdns[i]));
    forall i | 0 <= i < |objs|
      ensures Lookup(objs[i], ["attributes", "tDn"]) == Ok(tdns[i])
    {
      RelationObjectKeys(tdns[i]);
    }
    LinkTDnsOfSpec(objs);
    assert LinkTDnsOf(objs).value == tdns;
  }

  /**
   * `policy_group`: the `tDn` of every `infraRsAccNodePGrp` link found in
   * the source profiles, in the order `find_values` returns them, read
   * from the link's attributes.
   */
  method PolicyGroup(sourceProfiles: seq<Json>) returns (r: Result<seq<Json>>)
    ensures r == LinkTDnsOf(ValuesUnder("infraRsAccNodePGrp", Objects(JArr(sourceProfiles))))
  {
    var objs := FindValues("infraRsAccNodePGrp", JArr(sourceProfiles));
    var tdns := [];
    for i := 0 to |objs|
      invariant LinkTDnsOf(objs[..i]) == Ok(tdns)
    {
      assert objs[..i + 1][..i] == objs[..i];
      var tdn := Lookup(objs[i], ["attributes", "tDn"]);
      if tdn.Err? {
        FoldStops(objs, [], LinkTDnStep, i + 1);
        return Err(tdn.error);
      }
      tdns := tdns + [tdn.value];
    }
    assert objs[..|objs|] == objs;
    r := Ok(tdns);
  }

  /** `int_profile_name`: the destination's interface profile is named after it. */
  function IntProfileName(cfg: Config, dest: string): string {
    cfg.interfaceProfilePrefix + dest
  }

  /**
   * The switch profile created for a destination node: named after the
   * node, with a one-node block, linked to the interface profile of the same
   * name and to the policy group list.
   */
  function DestSwitchProfile(cfg: Config, dest: string, policyGroup: seq<Json>): ConfigRequest {
    SwitchProfilePayload(cfg, dest, dest, dest,
      JStr("uni/infra/accportprof-" + IntProfileName(cfg, dest)), JArr(policyGroup))
  }

  /**
   * The switch profile links to exactly the interface profile that
   * `create_int_profile` commits for the same destination, its block spans
   * just that node, and it links a policy group only when one was found.
   */
  lemma DestSwitchProfileLinks(cfg: Config, dest: string, policyGroup: seq<Json>)
    ensures var p := DestSwitchProfile(cfg, dest, policyGroup).mo;
      && ChildrenOf(p, "infraRsAccPortP") == [Mo("infraRsAccPortP",
           map["annotation" := Empty, "tDn" := JStr(IntProfileDn(IntProfileName(cfg, dest)))], [])]
      && ChildrenOf(p, "infraLeafS") == [LeafSelector(cfg, dest, dest, dest, JArr(policyGroup))]
    ensures var b := NodeBlock(cfg, dest, dest, dest);
      HasAttr(b, "from_", JStr(dest)) && HasAttr(b, "to_", JStr(dest))
    ensures |ChildrenOf(LeafSelector(cfg, dest, dest, dest, JArr(policyGroup)), "infraRsAccNodePGrp")| ==
      if policyGroup == [] then 0 else 1
  {
    var tdn := JStr("uni/infra/accportprof-" + IntProfileName(cfg, dest));
    var sel := LeafSelector(cfg, dest, dest, dest, JArr(policyGroup));
    var p := DestSwitchProfile(cfg, dest, policyGroup).mo;
    SwitchProfileShape(cfg, dest, dest, dest, tdn, JArr(policyGroup));
    LeafSelectorShape(cfg, dest, dest, dest, JArr(policyGroup));
    NodeBlockShape(cfg, dest, dest, dest);
    SelectCons(sel, [], "infraRsAccPortP");
    SelectCons(p.children[0], [sel], "infraRsAccPortP");
  }

  // -----------------------------------------------------------------------
  // The interface profiles of the source
  // -----------------------------------------------------------------------

  /** The inner loop's body: a child linking an interface profile contributes that profile's tDn. */
  function ChildTDnInto(tdns: seq<Json>, child: Json): Result<seq<Json>> {
    var linked :- In("infraRsAccPortP", child);
    if linked then
      var tdn :- LinkedTDn(child);
      Ok(tdns + [tdn])
    else Ok(tdns)
  }

  /** The outer loop's body: the tDns linked from one source switch profile, after those already found. */
  function ProfileTDnsInto(tdns: seq<Json>, profile: Json): Result<seq<Json>> {
    var children :- ItemsAt(profile, ["infraNodeP", "children"]);
    Fold(children, tdns, ChildTDnInto)
  }

  /** `source_int_profiles_tDns` after both loops. */
  function IntProfileTDns(sourceProfiles: seq<Json>): Result<seq<Json>> {
    Fold(sourceProfiles, [], ProfileTDnsInto)
  }

  /** A child object that links an interface profile. */
  predicate LinksIntProfile(child: Json) {
    HasKey(child, "infraRsAccPortP")
  }

  /** The tDn a linking child names: `child['infraRsAccPortP']['attributes']['tDn']`. */
  function LinkedTDn(child: Json): Result<Json> {
    Lookup(child, ["infraRsAccPortP", "attributes", "tDn"])
  }

  /** On a dict child, one step appends the linked tDn, or changes nothing when the child links nothing. */
  lemma ChildTDnStep(tdns: seq<Json>, child: Json)
    requires child.JObj?
    ensures LinksIntProfile(child) && LinkedTDn(child).Ok? ==>
      ChildTDnInto(tdns, child) == Ok(tdns + [LinkedTDn(child).value])
    ensures LinksIntProfile(child) && LinkedTDn(child).Err? ==>
      ChildTDnInto(tdns, child) == Err(LinkedTDn(child).error)
    ensures !LinksIntProfile(child) ==> ChildTDnInto(tdns, child) == Ok(tdns)
  {
  }

  /** A step that does not raise appends the tDn of a linking child, and nothing for any other child. */
  lemma ChildTDnOkStep(tdns: seq<Json>, child: Json)
    requires ChildTDnInto(tdns, child).Ok?
    ensures LinksIntProfile(child) ==>
      LinkedTDn(child).Ok? && ChildTDnInto(tdns, child).value == tdns + [LinkedTDn(child).value]
    ensures !LinksIntProfile(child) ==> ChildTDnInto(tdns, child).value == tdns
  {
    if child.JObj? {
      ChildTDnStep(tdns, child);
    }
  }

  /**
   * A child the inner loop's body reads without raising: `'infraRsAccPortP' in
   * child` has an answer (the child is a dict, a list or a string), and when
   * the answer is yes, `child['infraRsAccPortP']['attributes']['tDn']` exists.
   */
  predicate ChildReadable(child: Json) {
    In("infraRsAccPortP", child).Ok? && (In("infraRsAccPortP", child).value ==> LinkedTDn(child).Ok?)
  }

  /**
   * The loop raises exactly when some child is not readable; over dict
   * children, exactly when a linking child lacks `attributes` or `tDn`.
   */
  lemma ChildTDnsOk(children: seq<Json>, tdns: seq<Json>)
    ensures Fold(children, tdns, ChildTDnInto).Ok? <==>
      forall i :: 0 <= i < |children| ==> ChildReadable(children[i])
    ensures (forall i :: 0 <= i < |children| ==> children[i].JObj?) ==>
      (Fold(children, tdns, ChildTDnInto).Ok? <==>
        forall i :: 0 <= i < |children| && LinksIntProfile(children[i]) ==> LinkedTDn(children[i]).Ok?)
  {
    FoldOkIff(children, tdns, ChildTDnInto, ChildReadable);
  }

  /**
   * Over dict children, the loop keeps the tDns found before and adds the
   * tDn of exactly the children that link an interface profile.
   */
  lemma {:induction false} ChildTDnsFound(children: seq<Json>, tdns: seq<Json>)
    requires Fold(children, tdns, ChildTDnInto).Ok?
    ensures var found := Fold(children, tdns, ChildTDnInto).value;
      && |tdns| <= |found| <= |tdns| + |children|
      && found[..|tdns|] == tdns
      && forall t :: t in found[|tdns|..] <==> Linked(children, t)
  {
    if children != [] {
      var front, last := children[..|children| - 1], children[|children| - 1];
      var before := Fold(front, tdns, ChildTDnInto).value;
      ChildTDnOkStep(before, last);
      ChildTDnsFound(front, tdns);
      var found := Fold(children, tdns, ChildTDnInto).value;
      var added := if LinksIntProfile(last) then [LinkedTDn(last).value] else [];
      assert found == before + added;
      assert found[..|before|] == before;
      assert found[|tdns|..] == before[|tdns|..] + added;
      forall t ensures Linked(children, t) <==> Linked(front, t) || t in added {
        LinkedSplit(children, t);
      }
    }
  }

  /** Some child links an interface profile whose tDn is `t`. */
  predicate Linked(children: seq<Json>, t: Json) {
    exists i :: 0 <= i < |children| && LinksIntProfile(children[i]) && LinkedTDn(children[i]) == Ok(t)
  }

  lemma LinkedSplit(children: seq<Json>, t: Json)
    requires children != []
    ensures Linked(children, t) <==>
      || Linked(children[..|children| - 1], t)
      || (LinksIntProfile(children[|children| - 1]) && LinkedTDn(children[|children| - 1]) == Ok(t))
  {
    var front := children[..|children| - 1];
    if Linked(children, t) {
      var i :| 0 <= i < |children| && LinksIntProfile(children[i]) && LinkedTDn(children[i]) == Ok(t);
      if i < |front| {
        assert front[i] == children[i];
      }
    }
    if Linked(front, t) {
      var i :| 0 <= i < |front| && LinksIntProfile(front[i]) && LinkedTDn(front[i]) == Ok(t);
      assert children[i] == front[i];
    }
  }

  /** The inner loop, over the children of one source switch profile. */
  method ProfileTDns(tdns: seq<Json>, profile: Json) returns (r: Result<seq<Json>>)
    ensures r == ProfileTDnsInto(tdns, profile)
  {
    var children :- ItemsAt(profile, ["infraNodeP", "children"]);
    var found := tdns;
    for k := 0 to |children|
      invariant Fold(children[..k], tdns, ChildTDnInto) == Ok(found)
    {
      assert children[..k + 1][..k] == children[..k];
      var linked := In("infraRsAccPortP", children[k]);
      if linked.Err? {
        FoldStops(children, tdns, ChildTDnInto, k + 1);
        return Err(linked.error);
      }
      if linked.value {
        var tdn := LinkedTDn(children[k]);
        if tdn.Err? {
          FoldStops(children, tdns, ChildTDnInto, k + 1);
          return Err(tdn.error);
        }
        found := found + [tdn.value];
      }
    }
    assert children[..|children|] == children;
    r := Ok(found);
  }

  /** The children of every source switch profile, in order. */
  function AllNodeChildren(sourceProfiles: seq<Json>): Result<seq<Json>> {
    Flatten(sourceProfiles, p => ItemsAt(p, ["infraNodeP", "children"]))
  }

  /**
   * Across all source switch profiles, the two loops complete exactly when
   * every profile's children can be read and the child loop over all of
   * them completes; the tDns found are then exactly those that some child of
   * some profile links.
   */
  lemma IntProfileTDnsAll(sourceProfiles: seq<Json>)
    ensures IntProfileTDns(sourceProfiles).Ok? <==>
      AllNodeChildren(sourceProfiles).Ok? && Fold(AllNodeChildren(sourceProfiles).value, [], ChildTDnInto).Ok?
    ensures IntProfileTDns(sourceProfiles).Ok? ==>
      forall t :: t in IntProfileTDns(sourceProfiles).value <==> Linked(AllNodeChildren(sourceProfiles).value, t)
  {
    FoldNested(sourceProfiles, [], ProfileTDnsInto, p => ItemsAt(p, ["infraNodeP", "children"]), ChildTDnInto);
    if IntProfileTDns(sourceProfiles).Ok? {
      ChildTDnsFound(AllNodeChildren(sourceProfiles).value, []);
    }
  }

  /** Both loops that fill `source_int_profiles_tDns`. */
  method CollectIntProfileTDns(sourceProfiles: seq<Json>) returns (r: Result<seq<Json>>)
    ensures r == IntProfileTDns(sourceProfiles)
  {
    var tdns := [];
    for i := 0 to |sourceProfiles|
      invariant IntProfileTDns(sourceProfiles[..i]) == Ok(tdns)
    {
      assert sourceProfiles[..i + 1][..i] == sourceProfiles[..i];
      var next := ProfileTDns(tdns, sourceProfiles[i]);
      if next.Err? {
        FoldStops(sourceProfiles, [], ProfileTDnsInto, i + 1);
        return next;
      }
      tdns := next.value;
    }
    assert sourceProfiles[..|sourceProfiles|] == sourceProfiles;
    r := Ok(tdns);
  }

  /** The selection loop's body: a profile is kept when its dn is one of the tDns. */
  function SelectInto(selected: seq<Json>, profile: Json, tdns: seq<Json>): Result<seq<Json>> {
    var dn :- Lookup(profile, ["infraAccPortP", "attributes", "dn"]);
    Ok(if dn in tdns then selected + [profile] else selected)
  }

  function SelectStep(tdns: seq<Json>): (seq<Json>, Json) -> Result<seq<Json>> {
    (selected, profile) => SelectInto(selected, profile, tdns)
  }

  /** `int_profiles`: the interface profiles whose dn the source switch profiles link to. */
  function SelectedIntProfiles(profiles: seq<Json>, tdns: seq<Json>): Result<seq<Json>> {
    Fold(profiles, [], SelectStep(tdns))
  }

  /**
   * Exactly the profiles whose dn is one of the tDns are kept, none added;
   * the loop raises exactly when a profile has no `infraAccPortP`,
   * `attributes` or `dn`.
   */
  lemma {:induction false} SelectedIntProfilesSpec(profiles: seq<Json>, tdns: seq<Json>)
    ensures SelectedIntProfiles(profiles, tdns).Ok? <==>
      forall i :: 0 <= i < |profiles| ==> Lookup(profiles[i], ["infraAccPortP", "attributes", "dn"]).Ok?
    ensures SelectedIntProfiles(profiles, tdns).Ok? ==>
      && |SelectedIntProfiles(profiles, tdns).value| <= |profiles|
      && forall p :: p in SelectedIntProfiles(profiles, tdns).value <==>
           p in profiles && Lookup(p, ["infraAccPortP", "attributes", "dn"]).value in tdns
  {
    if profiles != [] {
      var front, last := profiles[..|profiles| - 1], profiles[|profiles| - 1];
      SelectedIntProfilesSpec(front, tdns);
      assert forall i :: 0 <= i < |front| ==> front[i] == profiles[i];
      var before := SelectedIntProfiles(front, tdns);
      if before.Ok? {
        assert SelectedIntProfiles(profiles, tdns) == SelectInto(before.value, last, tdns);
        assert forall p :: p in profiles <==> p in front || p == last;
      }
    }
  }

  /** The loop over `all_interface_profiles['imdata']` that fills `int_profiles`. */
  method SelectIntProfiles(allIntProfiles: Json, tdns: seq<Json>) returns (r: Result<seq<Json>>)
    ensures r == (var profiles :- ItemsAt(allIntProfiles, ["imdata"]); SelectedIntProfiles(profiles, tdns))
  {
    var profiles :- ItemsAt(allIntProfiles, ["imdata"]);
    var selected := [];
    for i := 0 to |profiles|
      invariant SelectedIntProfiles(profiles[..i], tdns) == Ok(selected)
    {
      assert profiles[..i + 1][..i] == profiles[..i];
      assert SelectedIntProfiles(profiles[..i + 1], tdns) == SelectInto(selected, profiles[i], tdns);
      var dn := Lookup(profiles[i], ["infraAccPortP", "attributes", "dn"]);
      if dn.Err? {
        FoldStops(profiles, [], SelectStep(tdns), i + 1);
        return Err(dn.error);
      }
      if dn.value in tdns {
        selected := selected + [profiles[i]];
      }
    }
    assert profiles[..|profiles|] == profiles;
    r := Ok(selected);
  }

  // -----------------------------------------------------------------------
  // The port selectors of the selected interface profiles
  // -----------------------------------------------------------------------

  /** A detail that links the selector's policy group. */
  predicate IsPolicyLink(detail: Json) {
    HasKey(detail, "infraRsAccBaseGrp")
  }

  /** A detail that is a port block (and does not also link a policy group). */
  predicate IsPortBlock(detail: Json) {
    !IsPolicyLink(detail) && HasKey(detail, "infraPortBlk")
  }

  function PolicyOf(detail: Json): Result<Json> {
    Lookup(detail, ["infraRsAccBaseGrp", "attributes"])
  }

  function BlockOf(detail: Json): Result<Json> {
    Lookup(detail, ["infraPortBlk", "attributes"])
  }

  /** The innermost loop's body: a policy link sets the policy, a port block is appended. */
  function ApplyDetail(sel: PortSelector, detail: Json): Result<PortSelector> {
    var members :- AsDict(detail);
    var keys := DictOf(members);
    if "infraRsAccBaseGrp" in keys then
      var policy :- PolicyOf(detail);
      Ok(sel.(policy := Some(policy)))
    else if "infraPortBlk" in keys then
      var block :- BlockOf(detail);
      Ok(sel.(blocks := sel.blocks + [block]))
    else Ok(sel)
  }

  /** The selector built from one `infraHPortS` child: its attributes, then its details in order. */
  function SelectorOf(hport: Json): Result<PortSelector> {
    var attributes :- Lookup(hport, ["infraHPortS", "attributes"]);
    var details :- ItemsAt(hport, ["infraHPortS", "children"]);
    Fold(details, PortSelector(attributes, [], None), ApplyDetail)
  }

  /** The details that are port blocks, in order. */
  function BlockDetails(details: seq<Json>): (r: seq<Json>)
    ensures forall d :: d in r ==> IsPortBlock(d)
    ensures |r| <= |details|
  {
    if details == [] then []
    else
      var last := details[|details| - 1];
      BlockDetails(details[..|details| - 1]) + (if IsPortBlock(last) then [last] else [])
  }

  /** Every detail can be read: it is a dict, and a link or block has its attributes. */
  predicate DetailReadable(detail: Json) {
    && detail.JObj?
    && (IsPolicyLink(detail) ==> PolicyOf(detail).Ok?)
    && (IsPortBlock(detail) ==> BlockOf(detail).Ok?)
  }

  /** The loop over a selector's details raises exactly when some detail cannot be read. */
  lemma {:induction false} DetailsOk(details: seq<Json>, sel: PortSelector)
    ensures Fold(details, sel, ApplyDetail).Ok? <==>
      forall i :: 0 <= i < |details| ==> DetailReadable(details[i])
  {
    if details != [] {
      var front := details[..|details| - 1];
      DetailsOk(front, sel);
      assert forall i :: 0 <= i < |front| ==> front[i] == details[i];
    }
  }

  /**
   * The loop keeps the selector's attributes and appends the attributes of
   * exactly the port-block details, in order.
   */
  lemma {:induction false} DetailsBlocks(details: seq<Json>, sel: PortSelector)
    requires Fold(details, sel, ApplyDetail).Ok?
    ensures var r := Fold(details, sel, ApplyDetail).value;
      && r.attributes == sel.attributes
      && |r.blocks| == |sel.blocks| + |BlockDetails(details)|
      && r.blocks[..|sel.blocks|] == sel.blocks
      && forall k :: 0 <= k < |BlockDetails(details)| ==>
           BlockOf(BlockDetails(details)[k]) == Ok(r.blocks[|sel.blocks| + k])
  {
    if details != [] {
      var front, last := details[..|details| - 1], details[|details| - 1];
      DetailsBlocks(front, sel);
      var before := Fold(front, sel, ApplyDetail).value;
      var r := Fold(details, sel, ApplyDetail).value;
      assert r == ApplyDetail(before, last).value;
      if IsPortBlock(last) {
        assert r.blocks == before.blocks + [BlockOf(last).value];
        assert r.blocks[..|before.blocks|] == before.blocks;
      } else {
        assert r.blocks == before.blocks;
      }
    }
  }

  /** `details[i]` is the last policy link among the details. */
  predicate LastPolicyLink(details: seq<Json>, i: int) {
    && 0 <= i < |details|
    && IsPolicyLink(details[i])
    && forall j :: i < j < |details| ==> !IsPolicyLink(details[j])
  }

  /** One detail replaces the policy exactly when it is a policy link. */
  lemma ApplyDetailPolicy(sel: PortSelector, detail: Json)
    requires ApplyDetail(sel, detail).Ok?
    ensures IsPolicyLink(detail) ==> ApplyDetail(sel, detail).value.policy == Some(PolicyOf(detail).value)
    ensures !IsPolicyLink(detail) ==> ApplyDetail(sel, detail).value.policy == sel.policy
  {
  }

  /** Without any policy link among the details, the policy is left as it was. */
  lemma {:induction false} DetailsNoPolicy(details: seq<Json>, sel: PortSelector)
    requires Fold(details, sel, ApplyDetail).Ok?
    requires forall i :: 0 <= i < |details| ==> !IsPolicyLink(details[i])
    ensures Fold(details, sel, ApplyDetail).value.policy == sel.policy
  {
    if details != [] {
      var front, last := details[..|details| - 1], details[|details| - 1];
      assert forall i :: 0 <= i < |front| ==> front[i] == details[i];
      DetailsNoPolicy(front, sel);
      ApplyDetailPolicy(Fold(front, sel, ApplyDetail).value, last);
    }
  }

  /** The selector's policy is the one of the last policy link among its details. */
  lemma {:induction false} DetailsPolicy(details: seq<Json>, sel: PortSelector, i: int)
    requires Fold(details, sel, ApplyDetail).Ok?
    requires LastPolicyLink(details, i)
    ensures Fold(details, sel, ApplyDetail).value.policy.Some?
    ensures PolicyOf(details[i]) == Ok(Fold(details, sel, ApplyDetail).value.policy.value)
  {
    var front, last := details[..|details| - 1], details[|details| - 1];
    var before := Fold(front, sel, ApplyDetail).value;
    ApplyDetailPolicy(before, last);
    if i < |front| {
      assert LastPolicyLink(front, i) by {
        assert forall j :: 0 <= j < |front| ==> front[j] == details[j];
      }
      DetailsPolicy(front, sel, i);
    }
  }

  /** The innermost loop: one port selector read from an `infraHPortS` child. */
  method ReadPortSelector(hport: Json) returns (r: Result<PortSelector>)
    ensures r == SelectorOf(hport)
  {
    var attributes :- Lookup(hport, ["infraHPortS", "attributes"]);
    var details :- ItemsAt(hport, ["infraHPortS", "children"]);
    var sel := PortSelector(attributes, [], None);
    for k := 0 to |details|
      invariant Fold(details[..k], PortSelector(attributes, [], None), ApplyDetail) == Ok(sel)
    {
      assert details[..k + 1][..k] == details[..k];
      var next := ApplyDetail(sel, details[k]);
      if next.Err? {
        FoldStops(details, PortSelector(attributes, [], None), ApplyDetail, k + 1);
        return next;
      }
      sel := next.value;
    }
    assert details[..|details|] == details;
    r := Ok(sel);
  }

  /** The middle loop's body: one selector per `infraHPortS` child, after the selectors built so far. */
  function SelectorInto(sels: seq<PortSelector>, hport: Json): Result<seq<PortSelector>> {
    var sel :- SelectorOf(hport);
    Ok(sels + [sel])
  }

  /** The outer loop's body: the selectors of one interface profile. */
  function ProfileSelectorsInto(sels: seq<PortSelector>, profile: Json): Result<seq<PortSelector>> {
    var hports :- ItemsAt(profile, ["infraAccPortP", "children"]);
    Fold(hports, sels, SelectorInto)
  }

  /** `port_selectors` after the loops over the selected interface profiles. */
  function PortSelectors(intProfiles: seq<Json>): Result<seq<PortSelector>> {
    Fold(intProfiles, [], ProfileSelectorsInto)
  }

  /** The loop over `infraHPortS` children raises exactly when some child's selector cannot be read. */
  lemma {:induction false} HPortsOk(hports: seq<Json>, sels: seq<PortSelector>)
    ensures Fold(hports, sels, SelectorInto).Ok? <==> forall i :: 0 <= i < |hports| ==> SelectorOf(hports[i]).Ok?
  {
    FoldOkIff(hports, sels, SelectorInto, h => SelectorOf(h).Ok?);
  }

  /**
   * One selector per `infraHPortS` child, in the children's order, after
   * the selectors built before.
   */
  lemma {:induction false} HPortsSelectors(hports: seq<Json>, sels: seq<PortSelector>)
    requires Fold(hports, sels, SelectorInto).Ok?
    ensures var r := Fold(hports, sels, SelectorInto).value;
      && |r| == |sels| + |hports|
      && r[..|sels|] == sels
      && forall k :: 0 <= k < |hports| ==> SelectorOf(hports[k]) == Ok(r[|sels| + k])
  {
    if hports != [] {
      var front := hports[..|hports| - 1];
      HPortsSelectors(front, sels);
      var before := Fold(front, sels, SelectorInto).value;
      var last := hports[|hports| - 1];
      assert SelectorInto(before, last) == Fold(hports, sels, SelectorInto);
      var r := Fold(hports, sels, SelectorInto).value;
      assert r == before + [SelectorOf(last).value];
      assert r[..|before|] == before;
      forall k | 0 <= k < |hports|
        ensures SelectorOf(hports[k]) == Ok(r[|sels| + k])
      {
        if k < |front| {
          assert front[k] == hports[k] && r[|sels| + k] == before[|sels| + k];
        }
      }
    }
  }

  /** The `infraHPortS` children of every selected interface profile, in order. */
  function AllHPorts(intProfiles: seq<Json>): Result<seq<Json>> {
    Flatten(intProfiles, p => ItemsAt(p, ["infraAccPortP", "children"]))
  }

  /**
   * Across all selected interface profiles: the loops complete exactly when
   * every profile's children can be read and every `infraHPortS` child's
   * selector can be read, and they build one selector per child, in order.
   */
  lemma PortSelectorsAll(intProfiles: seq<Json>)
    ensures PortSelectors(intProfiles).Ok? <==>
      && AllHPorts(intProfiles).Ok?
      && forall k :: 0 <= k < |AllHPorts(intProfiles).value| ==> SelectorOf(AllHPorts(intProfiles).value[k]).Ok?
    ensures PortSelectors(intProfiles).Ok? ==>
      var hports, sels := AllHPorts(intProfiles).value, PortSelectors(intProfiles).value;
      && |sels| == |hports|
      && forall k :: 0 <= k < |hports| ==> SelectorOf(hports[k]) == Ok(sels[k])
  {
    FoldNested(intProfiles, [], ProfileSelectorsInto, p => ItemsAt(p, ["infraAccPortP", "children"]), SelectorInto);
    var hports := AllHPorts(intProfiles);
    if hports.Ok? {
      HPortsOk(hports.value, []);
      if PortSelectors(intProfiles).Ok? {
        HPortsSelectors(hports.value, []);
      }
    }
  }

  /** The middle loop, over the `infraHPortS` children of one interface profile. */
  method ProfilePortSelectors(sels: seq<PortSelector>, profile: Json) returns (r: Result<seq<PortSelector>>)
    ensures r == ProfileSelectorsInto(sels, profile)
  {
    var hports :- ItemsAt(profile, ["infraAccPortP", "children"]);
    var built := sels;
    for k := 0 to |hports|
      invariant Fold(hports[..k], sels, SelectorInto) == Ok(built)
    {
      assert hports[..k + 1][..k] == hports[..k];
      var sel := ReadPortSelector(hports[k]);
      if sel.Err? {
        FoldStops(hports, sels, SelectorInto, k + 1);
        return Err(sel.error);
      }
      built := built + [sel.value];
    }
    assert hports[..|hports|] == hports;
    r := Ok(built);
  }

  /** All three loops that fill `port_selectors`. */
  method BuildPortSelectors(intProfiles: seq<Json>) returns (r: Result<seq<PortSelector>>)
    ensures r == PortSelectors(intProfiles)
  {
    var sels := [];
    for i := 0 to |intProfiles|
      invariant PortSelectors(intProfiles[..i]) == Ok(sels)
    {
      assert intProfiles[..i + 1][..i] == intProfiles[..i];
      var next := ProfilePortSelectors(sels, intProfiles[i]);
      if next.Err? {
        FoldStops(intProfiles, [], ProfileSelectorsInto, i + 1);
        return next;
      }
      sels := next.value;
    }
    assert intProfiles[..|intProfiles|] == intProfiles;
    r := Ok(sels);
  }

  // -----------------------------------------------------------------------
  // The VPC protection group
  // -----------------------------------------------------------------------

  /** The loop's body: `used_ids.append(int(pod.id))`. */
  function ParseIdInto(used: seq<int>, podId: string): Result<seq<int>> {
    var id :- ParseInt(podId);
    Ok(used + [id])
  }

  /** `used_ids`, from the ids of the existing protection groups. */
  function UsedIds(podIds: seq<string>): Result<seq<int>> {
    Fold(podIds, [], ParseIdInto)
  }

  /**
   * One number per existing group, each the value of its id; the loop
   * raises exactly when some id is not an integer literal.
   */
  lemma {:induction false} UsedIdsSpec(podIds: seq<string>)
    ensures UsedIds(podIds).Ok? <==> forall i :: 0 <= i < |podIds| ==> ParseInt(podIds[i]).Ok?
    ensures UsedIds(podIds).Ok? ==>
      && |UsedIds(podIds).value| == |podIds|
      && forall i :: 0 <= i < |podIds| ==> ParseInt(podIds[i]) == Ok(UsedIds(podIds).value[i])
  {
    if podIds != [] {
      var front := podIds[..|podIds| - 1];
      UsedIdsSpec(front);
      assert forall i :: 0 <= i < |front| ==> front[i] == podIds[i];
      if UsedIds(podIds).Ok? {
        assert UsedIds(podIds).value == UsedIds(front).value + [ParseInt(podIds[|podIds| - 1]).value];
      }
    }
  }

  /** The loop over the existing protection groups that fills `used_ids`. */
  method CollectUsedIds(podIds: seq<string>) returns (r: Result<seq<int>>)
    ensures r == UsedIds(podIds)
  {
    var used := [];
    for i := 0 to |podIds|
      invariant UsedIds(podIds[..i]) == Ok(used)
    {
      assert podIds[..i + 1][..i] == podIds[..i];
      var id := ParseInt(podIds[i]);
      if id.Err? {
        FoldStops(podIds, [], ParseIdInto, i + 1);
        return Err(id.error);
      }
      used := used + [id.value];
    }
    assert podIds[..|podIds|] == podIds;
    r := Ok(used);
  }

  /**
   * `min(set(range(1, len(used_ids) + 2)) - set(used_ids))`: the smallest
   * positive id not in use; with n ids in use one of 1..n+1 is always free.
   */
  function LowestUnusedId(used: seq<int>): (id: int)
    ensures 1 <= id <= |used| + 1
    ensures id !in used
    ensures forall k :: 1 <= k < id ==> k in used
  {
    var free := FreeIds(used);
    FreeIdExists(used);
    SmallestExists(free, 1, |used| + 1);
    var id :| id in free && forall k :: k in free ==> id <= k;
    id
  }

  /** `set(range(1, n + 1))`. */
  function Candidates(n: nat): (c: set<int>)
    ensures forall k :: k in c <==> 1 <= k <= n
    ensures |c| == n
  {
    if n == 0 then {} else Candidates(n - 1) + {n}
  }

  /** `set(range(1, len(used) + 2)) - set(used)`. */
  function FreeIds(used: seq<int>): (free: set<int>)
    ensures forall k :: k in free <==> 1 <= k <= |used| + 1 && k !in used
  {
    Candidates(|used| + 1) - set x | x in used
  }

  /** Pigeonhole: n ids cannot occupy all of 1..n+1. */
  lemma FreeIdExists(used: seq<int>)
    ensures exists j :: j in FreeIds(used)
  {
    var c, u := Candidates(|used| + 1), set x | x in used;
    DistinctBound(used);
    if forall j :: j !in FreeIds(used) {
      forall j | j in c
        ensures j in u
      {
        assert j !in FreeIds(used);
      }
      SubsetCard(c, u);
    }
  }

  /** A list has at most as many distinct elements as items. */
  lemma {:induction false} DistinctBound(xs: seq<int>)
    ensures |set x | x in xs| <= |xs|
  {
    if xs != [] {
      DistinctBound(xs[1..]);
      assert (set x | x in xs) == (set x | x in xs[1..]) + {xs[0]};
    }
  }

  lemma SubsetCard(a: set<int>, b: set<int>)
    requires a <= b
    ensures |a| <= |b|
  {
    assert b == a + (b - a);
    assert a * (b - a) == {};
  }

  /** A non-empty set of integers within k..n has a least element. */
  lemma {:induction false} SmallestExists(s: set<int>, k: int, n: int)
    requires forall j :: j in s ==> k <= j <= n
    requires exists j :: j in s
    ensures exists m :: m in s && forall j :: j in s ==> m <= j
    decreases n - k
  {
    if k in s {
      assert forall j :: j in s ==> k <= j;
    } else {
      SmallestExists(s, k + 1, n);
    }
  }

  /** `vpc_group_prefix` followed by the destination nodes joined with `-`. */
  function VpcName(cfg: Config, dests: seq<string>): string {
    cfg.vpcGroupPrefix + Join(dests, "-")
  }

  /** For a pair of destinations the name is `<prefix><d0>-<d1>`. */
  lemma VpcNamePair(cfg: Config, d0: string, d1: string)
    ensures VpcName(cfg, [d0, d1]) == cfg.vpcGroupPrefix + d0 + "-" + d1
  {
    assert [d0, d1][1..] == [d1];
    assert Join([d0, d1], "-") == d0 + "-" + Join([d1], "-");
  }

  /** The protection group created for the destination pair, numbered with the lowest free id. */
  function VpcGroupFor(cfg: Config, d0: string, d1: string, used: seq<int>): Result<ConfigRequest> {
    VpcGroupPayload(VpcName(cfg, [d0, d1]), LowestUnusedId(used), [d0, d1], "1")
  }

  /**
   * The group for a destination pair is always built, named after the
   * pair (`<prefix><d0>-<d1>`, by `VpcNamePair`), and carries the lowest id
   * no existing group uses.
   */
  lemma VpcGroupForSpec(cfg: Config, d0: string, d1: string, used: seq<int>)
    ensures VpcGroupFor(cfg, d0, d1, used).Ok?
    ensures VpcGroupFor(cfg, d0, d1, used).value.dn == JStr("uni/fabric/protpol/expgep-" + VpcName(cfg, [d0, d1]))
    ensures HasAttr(VpcGroupFor(cfg, d0, d1, used).value.mo, "name", JStr(VpcName(cfg, [d0, d1])))
    ensures HasAttr(VpcGroupFor(cfg, d0, d1, used).value.mo, "id", JNum(LowestUnusedId(used)))
  {
    VpcGroupShape(VpcName(cfg, [d0, d1]), LowestUnusedId(used), [d0, d1], "1");
  }

  /** The group pairs exactly the two destinations, in that order, both in pod 1. */
  lemma VpcGroupForMembers(cfg: Config, d0: string, d1: string, used: seq<int>)
    ensures VpcGroupFor(cfg, d0, d1, used).Ok?
    ensures var g := VpcGroupFor(cfg, d0, d1, used).value.mo;
      && |ChildrenOf(g, "fabricNodePEp")| == 2
      && HasAttr(ChildrenOf(g, "fabricNodePEp")[0], "id", JStr(d0))
      && HasAttr(ChildrenOf(g, "fabricNodePEp")[1], "id", JStr(d1))
      && forall e :: e in ChildrenOf(g, "fabricNodePEp") ==> HasAttr(e, "podId", JStr("1"))
  {
    VpcGroupShape(VpcName(cfg, [d0, d1]), LowestUnusedId(used), [d0, d1], "1");
  }

  /** The protection group step: reads the ids in use, then commits the group for the destination pair. */
  method MigrateVpcGroup(apic: Apic, cfg: Config, podIds: seq<string>, d0: string, d1: string)
    returns (r: Result<ConfigRequest>)
    modifies apic
    ensures r == (var used :- UsedIds(podIds); VpcGroupFor(cfg, d0, d1, used))
    ensures r.Err? ==> apic.log == old(apic.log)
    ensures r.Ok? ==> apic.log == old(apic.log) || apic.log == old(apic.log) + [r.value]
  {
    var used :- CollectUsedIds(podIds);
    r := CreateVpcGroup(apic, VpcName(cfg, [d0, d1]), LowestUnusedId(used), [d0, d1], "1");
  }

  // -----------------------------------------------------------------------
  // One source/destination node
  // -----------------------------------------------------------------------

  /** `source_profiles`: the switch profiles whose first block lies within the source node. */
  function SourceProfiles(switchProfiles: Json, source: string, dest: string): Result<seq<Json>> {
    var profiles :- ItemsAt(switchProfiles, ["imdata"]);
    var sorted :- SortedProfiles(profiles, source, dest);
    Ok(sorted.0)
  }

  /** The switch profile the loop body sends for the destination. */
  function SwitchProfileFor(cfg: Config, sourceProfiles: seq<Json>, dest: string): Result<ConfigRequest> {
    var policyGroup :- LinkTDnsOf(ValuesUnder("infraRsAccNodePGrp", Objects(JArr(sourceProfiles))));
    Ok(DestSwitchProfile(cfg, dest, policyGroup))
  }

  /** `port_selectors`: the selectors of the source's interface profiles, as the body copies them. */
  function SourceSelectors(sourceProfiles: seq<Json>, allIntProfiles: Json): Result<seq<PortSelector>> {
    var tdns :- IntProfileTDns(sourceProfiles);
    var profiles :- ItemsAt(allIntProfiles, ["imdata"]);
    var intProfiles :- SelectedIntProfiles(profiles, tdns);
    PortSelectors(intProfiles)
  }

  /** The interface profile it sends: the source's port selectors under the destination's name. */
  function IntProfileFor(cfg: Config, sourceProfiles: seq<Json>, allIntProfiles: Json, dest: string): Result<ConfigRequest> {
    var sels :- SourceSelectors(sourceProfiles, allIntProfiles);
    IntProfilePayload(IntProfileName(cfg, dest), sels)
  }

  /** How the steps before the first commit end: the source's profiles and the policy group, or an exception. */
  function Prepared(switchProfiles: Json, source: string, dest: string): Result<(seq<Json>, seq<Json>)> {
    var sourceProfiles :- SourceProfiles(switchProfiles, source, dest);
    var policyGroup :- LinkTDnsOf(ValuesUnder("infraRsAccNodePGrp", Objects(JArr(sourceProfiles))));
    Ok((sourceProfiles, policyGroup))
  }

  /** How the loop body for one node ends: the interface profile it built, or the first exception. */
  function NodeResult(cfg: Config, switchProfiles: Json, allIntProfiles: Json, source: string, dest: string): Result<ConfigRequest> {
    var sourceProfiles :- SourceProfiles(switchProfiles, source, dest);
    var _ :- SwitchProfileFor(cfg, sourceProfiles, dest);
    IntProfileFor(cfg, sourceProfiles, allIntProfiles, dest)
  }

  /**
   * The requests the loop body sends to the controller for one node, in
   * order: none if sorting the profiles or reading the policy group raises,
   * else the switch profile, followed by the interface profile unless
   * building it raises.
   */
  function NodeSent(cfg: Config, switchProfiles: Json, allIntProfiles: Json, source: string, dest: string): seq<ConfigRequest> {
    match SourceProfiles(switchProfiles, source, dest)
    case Err(_) => []
    case Ok(sourceProfiles) =>
      match SwitchProfileFor(cfg, sourceProfiles, dest)
      case Err(_) => []
      case Ok(switchProfile) =>
        match IntProfileFor(cfg, sourceProfiles, allIntProfiles, dest)
        case Err(_) => [switchProfile]
        case Ok(intProfile) => [switchProfile, intProfile]
  }

  /**
   * When the body sends both requests, the switch profile links exactly
   * the interface profile sent after it, and that profile carries the
   * destination's interface profile name.
   */
  lemma NodeSentLinks(cfg: Config, switchProfiles: Json, allIntProfiles: Json, source: string, dest: string)
    ensures |NodeSent(cfg, switchProfiles, allIntProfiles, source, dest)| <= 2
    ensures var sent := NodeSent(cfg, switchProfiles, allIntProfiles, source, dest);
      |sent| == 2 ==>
        && ChildrenOf(sent[0].mo, "infraRsAccPortP") == [Mo("infraRsAccPortP", map["annotation" := Empty, "tDn" := sent[1].dn], [])]
        && HasAttr(sent[1].mo, "name", JStr(IntProfileName(cfg, dest)))
  {
    var sent := NodeSent(cfg, switchProfiles, allIntProfiles, source, dest);
    if |sent| == 2 {
      var sourceProfiles := SourceProfiles(switchProfiles, source, dest).value;
      var policyGroup := LinkTDnsOf(ValuesUnder("infraRsAccNodePGrp", Objects(JArr(sourceProfiles)))).value;
      assert sent[0] == DestSwitchProfile(cfg, dest, policyGroup);
      IntProfileForNamed(cfg, sourceProfiles, allIntProfiles, dest);
      DestSwitchProfileLinks(cfg, dest, policyGroup);
    }
  }

  /** A built interface profile sits at the dn and carries the name the switch profile links to. */
  lemma IntProfileForNamed(cfg: Config, sourceProfiles: seq<Json>, allIntProfiles: Json, dest: string)
    ensures var r := IntProfileFor(cfg, sourceProfiles, allIntProfiles, dest);
      r.Ok? ==> r.value.dn == JStr(IntProfileDn(IntProfileName(cfg, dest))) && HasAttr(r.value.mo, "name", JStr(IntProfileName(cfg, dest)))
  {
  }

  /** With two requests sent, the controller's log gains the accepted ones, in order. */
  lemma AcceptedTwo(a: ConfigRequest, b: ConfigRequest, okA: bool, okB: bool)
    ensures Accepted([a, b], [okA, okB]) == (if okA then [a] else []) + (if okB then [b] else [])
  {
    assert [a][..0] == [] && [okA][..0] == [];
    assert Accepted([a], [okA]) == (if okA then [a] else []);
    assert [a, b][..1] == [a] && [okA, okB][..1] == [okA];
  }

  /**
   * The body ends normally exactly when it sends both requests, and then
   * the interface profile it returns is the second one.
   */
  lemma NodeSentComplete(cfg: Config, switchProfiles: Json, allIntProfiles: Json, source: string, dest: string)
    ensures var r := NodeResult(cfg, switchProfiles, allIntProfiles, source, dest);
      var sent := NodeSent(cfg, switchProfiles, allIntProfiles, source, dest);
      && (r.Ok? <==> |sent| == 2)
      && (r.Ok? ==> r.value == sent[1])
  {
  }

  /** What the body sends, and how it ends, once the steps before the first commit are done. */
  lemma NodeStages(cfg: Config, switchProfiles: Json, allIntProfiles: Json, source: string, dest: string)
    ensures Prepared(switchProfiles, source, dest).Err? ==>
      && NodeSent(cfg, switchProfiles, allIntProfiles, source, dest) == []
      && NodeResult(cfg, switchProfiles, allIntProfiles, source, dest) == Err(Prepared(switchProfiles, source, dest).error)
    ensures Prepared(switchProfiles, source, dest).Ok? ==>
      var (sourceProfiles, policyGroup) := Prepared(switchProfiles, source, dest).value;
      var intProfile := IntProfileFor(cfg, sourceProfiles, allIntProfiles, dest);
      && NodeSent(cfg, switchProfiles, allIntProfiles, source, dest) ==
           [DestSwitchProfile(cfg, dest, policyGroup)] + (if intProfile.Ok? then [intProfile.value] else [])
      && NodeResult(cfg, switchProfiles, allIntProfiles, source, dest) == intProfile
  {
  }

  /**
   * The loop body for one source/destination node: sorts the switch
   * profiles, commits the destination's switch profile, then collects the
   * source's interface profiles and port selectors and commits the
   * destination's interface profile. The controller accepts any subset of
   * what is sent; the first exception ends the body.
   */
  method MigrateNode(apic: Apic, cfg: Config, switchProfiles: Json, allIntProfiles: Json, source: string, dest: string)
    returns (r: Result<ConfigRequest>, ghost answers: seq<bool>)
    modifies apic
    ensures r == NodeResult(cfg, switchProfiles, allIntProfiles, source, dest)
    ensures |answers| == |NodeSent(cfg, switchProfiles, allIntProfiles, source, dest)|
    ensures apic.log == old(apic.log) + Accepted(NodeSent(cfg, switchProfiles, allIntProfiles, source, dest), answers)
  {
    var prepared;
    ghost var ok0;
    prepared, ok0 := SendSwitchProfile(apic, cfg, switchProfiles, source, dest);
    NodeStages(cfg, switchProfiles, allIntProfiles, source, dest);
    if prepared.Err? {
      return Err(prepared.error), [];
    }
    var (sourceProfiles, policyGroup) := prepared.value;
    var switchProfile := DestSwitchProfile(cfg, dest, policyGroup);
    ghost var ok1;
    r, ok1 := SendIntProfile(apic, cfg, sourceProfiles, allIntProfiles, dest);
    if r.Err? {
      assert Accepted([switchProfile], [ok0]) == if ok0 then [switchProfile] else [];
      answers := [ok0];
    } else {
      AcceptedTwo(switchProfile, r.value, ok0, ok1);
      answers := [ok0, ok1];
    }
  }

  /**
   * The body up to the first commit: sorts the profiles, reads the policy
   * group and commits the destination's switch profile.
   */
  method SendSwitchProfile(apic: Apic, cfg: Config, switchProfiles: Json, source: string, dest: string)
    returns (r: Result<(seq<Json>, seq<Json>)>, ghost ok: bool)
    modifies apic
    ensures r == Prepared(switchProfiles, source, dest)
    ensures r.Err? ==> apic.log == old(apic.log) && !ok
    ensures r.Ok? ==> apic.log == old(apic.log) + if ok then [DestSwitchProfile(cfg, dest, r.value.1)] else []
  {
    r := PrepareNode(switchProfiles, source, dest);
    ok := false;
    if r.Ok? {
      ghost var log0 := apic.log;
      CreateSwitchProfile(apic, cfg, dest, dest, dest,
        JStr("uni/infra/accportprof-" + IntProfileName(cfg, dest)), JArr(r.value.1));
      ok := apic.log != log0;
    }
  }

  /**
   * The body after the first commit: collects the source's port selectors
   * and commits the destination's interface profile.
   */
  method SendIntProfile(apic: Apic, cfg: Config, sourceProfiles: seq<Json>, allIntProfiles: Json, dest: string)
    returns (r: Result<ConfigRequest>, ghost ok: bool)
    modifies apic
    ensures r == IntProfileFor(cfg, sourceProfiles, allIntProfiles, dest)
    ensures apic.log == old(apic.log) + if r.Ok? && ok then [r.value] else []
  {
    ok := false;
    var sels := CopySourceSelectors(sourceProfiles, allIntProfiles);
    if sels.Err? {
      return Err(sels.error), false;
    }
    ghost var log0 := apic.log;
    r := CreateIntProfile(apic, IntProfileName(cfg, dest), sels.value);
    ok := apic.log != log0;
  }

  /** The body's first steps, which send nothing: sorting the switch profiles and reading the policy group. */
  method PrepareNode(switchProfiles: Json, source: string, dest: string) returns (r: Result<(seq<Json>, seq<Json>)>)
    ensures r == Prepared(switchProfiles, source, dest)
  {
    var sorted :- SortProfiles(switchProfiles, source, dest);
    var policyGroup :- PolicyGroup(sorted.0);
    r := Ok((sorted.0, policyGroup));
  }

  /** The body's steps between the two commits, which send nothing. */
  method CopySourceSelectors(sourceProfiles: seq<Json>, allIntProfiles: Json) returns (r: Result<seq<PortSelector>>)
    ensures r == SourceSelectors(sourceProfiles, allIntProfiles)
  {
    var tdns :- CollectIntProfileTDns(sourceProfiles);
    var intProfiles :- SelectIntProfiles(allIntProfiles, tdns);
    r := BuildPortSelectors(intProfiles);
  }
}

=== FILE: find_values.dfy ===
/**
 * `find_values(id, json_repr)` from fabric_migration.py, called as the
 * program calls it, on `json.dumps` of a decoded value: the decoder calls
 * an object hook once per JSON object, innermost objects first, and the
 * hook appends the object's value under `id` when it has one.
 */
module JsonSearch {
  import opened PyBase
  import opened PyJson

  // -----------------------------------------------------------------------
  // The order in which `json.loads` hands objects to its object hook
  // -----------------------------------------------------------------------

  /**
   * The objects of `j`, as member lists, in the order the decoder finishes
   * them when it reads `json.dumps(j)`: every object after the objects
   * nested in its values, siblings left to right. A dict is dumped with one
   * member per key, at the key's first position and with its last value,
   * so the value of a member that a later one with the same key overwrote
   * is never read.
   */
  function Objects(j: Json): seq<seq<Member>>
    decreases j, 2
  {
    match j
    case JArr(items) => ObjectsInItems(items)
    case JObj(members) => ObjectsInMembers(members) + [members]
    case _ => []
  }

  function ObjectsInItems(items: seq<Json>): seq<seq<Member>>
    decreases items, 0
  {
    if items == [] then []
    else ObjectsInItems(items[..|items| - 1]) + Objects(items[|items| - 1])
  }

  /** The objects nested in the values of a dict, key by key in the dict's order. */
  function ObjectsInMembers(members: seq<Member>): seq<seq<Member>>
    decreases members, 1
  {
    ObjectsInDict(members, |members|)
  }

  /**
   * The objects nested in the values of the keys that the first `n` members
   * put into the dict: each key's value is that of its last member.
   */
  function ObjectsInDict(members: seq<Member>, n: nat): seq<seq<Member>>
    requires n <= |members|
    decreases members, 0, n
  {
    if n == 0 then []
    else if FirstWithKey(members, n - 1) then
      var l := LastKeyIndex(members, members[n - 1].key, |members|);
      ObjectsInDict(members, n - 1) + Objects(members[l].value)
    else ObjectsInDict(members, n - 1)
  }

  /**
   * `o` is an object of `j` at any depth, `j` itself included, inside arrays
   * as well as inside the values a dict keeps.
   */
  predicate Nested(o: seq<Member>, j: Json)
    decreases j
  {
    match j
    case JArr(items) => exists i :: 0 <= i < |items| && Nested(o, items[i])
    case JObj(members) =>
      o == members || exists i :: 0 <= i < |members| && LastWithKey(members, i) && Nested(o, members[i].value)
    case _ => false
  }

  /** The hook sees exactly the objects of the document, at every depth. */
  lemma {:induction false} ObjectsAreNested(o: seq<Member>, j: Json)
    ensures o in Objects(j) <==> Nested(o, j)
    decreases j, 2
  {
    match j
    case JArr(items) => ObjectsInItemsNested(o, items);
    case JObj(members) => ObjectsInMembersNested(o, members);
    case _ =>
  }

  lemma {:induction false} ObjectsInItemsNested(o: seq<Member>, items: seq<Json>)
    ensures o in ObjectsInItems(items) <==> exists i :: 0 <= i < |items| && Nested(o, items[i])
    decreases items, 0
  {
    if items != [] {
      var front, last := items[..|items| - 1], items[|items| - 1];
      ObjectsInItemsNested(o, front);
      ObjectsAreNested(o, last);
      if exists i :: 0 <= i < |items| && Nested(o, items[i]) {
        var i :| 0 <= i < |items| && Nested(o, items[i]);
        if i < |front| {
          assert front[i] == items[i];
        }
      }
      if exists i :: 0 <= i < |front| && Nested(o, front[i]) {
        var i :| 0 <= i < |front| && Nested(o, front[i]);
        assert items[i] == front[i];
      }
    }
  }

  lemma {:induction false} ObjectsInMembersNested(o: seq<Member>, members: seq<Member>)
    ensures o in ObjectsInMembers(members) <==>
      exists i :: 0 <= i < |members| && LastWithKey(members, i) && Nested(o, members[i].value)
    decreases members, 1
  {
    ObjectsInDictNested(o, members, |members|);
    forall i | 0 <= i < |members|
      ensures ReachedVia(o, members, |members|, i) <==> LastWithKey(members, i) && Nested(o, members[i].value)
    {
    }
  }

  /**
   * Member `i` is the one the dict keeps for its key, one of the first `n`
   * members introduced that key, and `o` is nested in its value.
   */
  predicate ReachedVia(o: seq<Member>, members: seq<Member>, n: nat, i: int)
    requires n <= |members|
  {
    && 0 <= i < |members|
    && LastWithKey(members, i)
    && LastKeyIndex(members, members[i].key, n) >= 0
    && Nested(o, members[i].value)
  }

  /**
   * The walk over the first `n` members reaches the objects nested in the
   * kept values of exactly the keys those members introduce.
   */
  lemma {:induction false} ObjectsInDictNested(o: seq<Member>, members: seq<Member>, n: nat)
    requires n <= |members|
    ensures o in ObjectsInDict(members, n) <==> exists i :: ReachedVia(o, members, n, i)
    decreases members, 0, n
  {
    if n > 0 {
      ObjectsInDictNested(o, members, n - 1);
      if FirstWithKey(members, n - 1) {
        var l := LastKeyIndex(members, members[n - 1].key, |members|);
        ObjectsAreNested(o, members[l].value);
        NewKeyReached(o, members, n - 1, n);
      } else {
        OldKeyReached(o, members, n - 1, n);
      }
    }
  }

  /** The step of a member that introduces its key reaches what that key's kept value holds. */
  lemma NewKeyReached(o: seq<Member>, members: seq<Member>, p: nat, n: nat)
    requires n == p + 1 && n <= |members| && FirstWithKey(members, p)
    requires o in ObjectsInDict(members, p) <==> exists i :: ReachedVia(o, members, p, i)
    requires var l := LastKeyIndex(members, members[p].key, |members|);
      l >= 0 && (o in Objects(members[l].value) <==> Nested(o, members[l].value))
    ensures o in ObjectsInDict(members, n) <==> exists i :: ReachedVia(o, members, n, i)
  {
    var l := LastKeyIndex(members, members[p].key, |members|);
    NewKeyKept(members, n);
    assert ObjectsInDict(members, n) == ObjectsInDict(members, p) + Objects(members[l].value);
    if o in ObjectsInDict(members, n) {
      if o in ObjectsInDict(members, p) {
        var i :| ReachedVia(o, members, p, i);
        assert ReachedVia(o, members, n, i);
      } else {
        assert ReachedVia(o, members, n, l);
      }
    }
    if exists i :: ReachedVia(o, members, n, i) {
      var i :| ReachedVia(o, members, n, i);
      if LastKeyIndex(members, members[i].key, p) >= 0 {
        assert ReachedVia(o, members, p, i);
      } else {
        NewKeyOnly(members, n, i);
      }
    }
  }

  /** The step of a member whose key an earlier one introduced adds nothing. */
  lemma OldKeyReached(o: seq<Member>, members: seq<Member>, p: nat, n: nat)
    requires n == p + 1 && n <= |members| && !FirstWithKey(members, p)
    requires o in ObjectsInDict(members, p) <==> exists i :: ReachedVia(o, members, p, i)
    ensures o in ObjectsInDict(members, n) <==> exists i :: ReachedVia(o, members, n, i)
  {
    assert ObjectsInDict(members, n) == ObjectsInDict(members, p);
    if exists i :: ReachedVia(o, members, n, i) {
      var i :| ReachedVia(o, members, n, i);
      OldKeySeen(members, n, members[i].key);
      assert ReachedVia(o, members, p, i);
    }
    if exists i :: ReachedVia(o, members, p, i) {
      var i :| ReachedVia(o, members, p, i);
      OldKeySeen(members, n, members[i].key);
      assert ReachedVia(o, members, n, i);
    }
  }

  /** The member a new key keeps is the last with that key, and its key is introduced by the first `n`. */
  lemma NewKeyKept(members: seq<Member>, n: nat)
    requires 0 < n <= |members|
    ensures var l := LastKeyIndex(members, members[n - 1].key, |members|);
      0 <= l && LastWithKey(members, l) && LastKeyIndex(members, members[l].key, n) == n - 1
  {
    var l := LastKeyIndex(members, members[n - 1].key, |members|);
    assert n - 1 <= l;
  }

  /** A kept member whose key the `n`-th member introduces is the one that key's walk step reads. */
  lemma NewKeyOnly(members: seq<Member>, n: nat, i: nat)
    requires 0 < n <= |members| && i < |members|
    requires LastWithKey(members, i)
    requires LastKeyIndex(members, members[i].key, n) >= 0
    requires LastKeyIndex(members, members[i].key, n - 1) < 0
    ensures i == LastKeyIndex(members, members[n - 1].key, |members|)
  {
    assert members[n - 1].key == members[i].key;
    var l := LastKeyIndex(members, members[n - 1].key, |members|);
    assert i <= l;
  }

  /** A key that an earlier member already introduced is introduced by the first `n - 1`. */
  lemma OldKeySeen(members: seq<Member>, n: nat, key: string)
    requires 0 < n <= |members|
    requires !FirstWithKey(members, n - 1)
    ensures LastKeyIndex(members, key, n) >= 0 <==> LastKeyIndex(members, key, n - 1) >= 0
  {
    if members[n - 1].key == key {
      var k :| 0 <= k < n - 1 && members[k].key == key;
    }
  }

  /** A dict without a repeated key: every member stays in it. */
  predicate DistinctKeys(members: seq<Member>) {
    forall a, b :: 0 <= a < b < |members| ==> members[a].key != members[b].key
  }

  /** The values of the members, in document order. */
  function MemberValues(members: seq<Member>): (vs: seq<Json>)
    ensures |vs| == |members|
    ensures forall i :: 0 <= i < |members| ==> vs[i] == members[i].value
  {
    seq(|members|, i requires 0 <= i < |members| => members[i].value)
  }

  /**
   * Without a repeated key, the walk reads every member's value in document
   * order, as it would read the items of a list.
   */
  lemma {:induction false} DistinctKeysWalk(members: seq<Member>, n: nat)
    requires n <= |members|
    requires DistinctKeys(members)
    ensures ObjectsInDict(members, n) == ObjectsInItems(MemberValues(members)[..n])
  {
    if n > 0 {
      DistinctKeysWalk(members, n - 1);
      var vs := MemberValues(members);
      assert vs[..n][..n - 1] == vs[..n - 1];
      assert FirstWithKey(members, n - 1);
      var l := LastKeyIndex(members, members[n - 1].key, |members|);
      assert l == n - 1;
    }
  }

  // -----------------------------------------------------------------------
  // The values the hook collects
  // -----------------------------------------------------------------------

  /** What the hook has appended after seeing `objs`, in order. */
  function ValuesUnder(key: string, objs: seq<seq<Member>>): seq<Json> {
    if objs == [] then []
    else
      var d := DictOf(objs[|objs| - 1]);
      ValuesUnder(key, objs[..|objs| - 1]) + (if key in d then [d[key]] else [])
  }

  /** The objects among `objs` that have `key`, in order. */
  function WithKey(key: string, objs: seq<seq<Member>>): seq<seq<Member>> {
    if objs == [] then []
    else WithKey(key, objs[..|objs| - 1]) + (if key in DictOf(objs[|objs| - 1]) then [objs[|objs| - 1]] else [])
  }

  /**
   * One value per object that has the key, in the objects' order, each
   * being that object's (last) value under the key.
   */
  lemma {:induction false} ValuesUnderSpec(key: string, objs: seq<seq<Member>>)
    ensures |ValuesUnder(key, objs)| == |WithKey(key, objs)|
    ensures forall i :: 0 <= i < |WithKey(key, objs)| ==>
      key in DictOf(WithKey(key, objs)[i]) && ValuesUnder(key, objs)[i] == DictOf(WithKey(key, objs)[i])[key]
    ensures forall o :: o in WithKey(key, objs) <==> o in objs && key in DictOf(o)
  {
    if objs != [] {
      ValuesUnderSpec(key, objs[..|objs| - 1]);
    }
  }

  /**
   * `find_values(key, json.dumps(j))`: the callback appends, object by
   * object in the decoder's order, the object's value under `key` if it has one.
   */
  method FindValues(key: string, j: Json) returns (results: seq<Json>)
    ensures results == ValuesUnder(key, Objects(j))
  {
    var objs := Objects(j);
    results := [];
    for i := 0 to |objs|
      invariant results == ValuesUnder(key, objs[..i])
    {
      assert objs[..i + 1][..i] == objs[..i];
      var d := DictOf(objs[i]);
      if key in d {
        results := results + [d[key]];
      }
    }
    assert objs[..|objs|] == objs;
  }

  /**
   * The list holds exactly one value per object of the document, at any
   * depth, that has the key.
   */
  lemma FindValuesCount(key: string, j: Json)
    ensures |ValuesUnder(key, Objects(j))| == |WithKey(key, Objects(j))|
    ensures forall o :: o in WithKey(key, Objects(j)) <==> Nested(o, j) && key in DictOf(o)
  {
    ValuesUnderSpec(key, Objects(j));
    forall o ensures o in Objects(j) <==> Nested(o, j) {
      ObjectsAreNested(o, j);
    }
  }

  /** A value is in the list exactly when some object of the document holds it under the key. */
  lemma FindValuesMember(key: string, j: Json, v: Json)
    ensures v in ValuesUnder(key, Objects(j)) <==>
      exists o :: Nested(o, j) && key in DictOf(o) && DictOf(o)[key] == v
  {
    if v in ValuesUnder(key, Objects(j)) {
      ValueHasObject(key, j, v);
    }
    if exists o :: Nested(o, j) && key in DictOf(o) && DictOf(o)[key] == v {
      var o :| Nested(o, j) && key in DictOf(o) && DictOf(o)[key] == v;
      ObjectHasValue(key, j, o);
    }
  }

  lemma ValueHasObject(key: string, j: Json, v: Json)
    requires v in ValuesUnder(key, Objects(j))
    ensures exists o :: Nested(o, j) && key in DictOf(o) && DictOf(o)[key] == v
  {
    FindValuesCount(key, j);
    ValuesUnderSpec(key, Objects(j));
    var vs, ws := ValuesUnder(key, Objects(j)), WithKey(key, Objects(j));
    var i :| 0 <= i < |vs| && vs[i] == v;
    assert ws[i] in ws;
  }

  lemma ObjectHasValue(key: string, j: Json, o: seq<Member>)
    requires Nested(o, j) && key in DictOf(o)
    ensures DictOf(o)[key] in ValuesUnder(key, Objects(j))
  {
    FindValuesCount(key, j);
    ValuesUnderSpec(key, Objects(j));
    var vs, ws := ValuesUnder(key, Objects(j)), WithKey(key, Objects(j));
    assert o in ws;
    var i :| 0 <= i < |ws| && ws[i] == o;
    assert vs[i] == DictOf(o)[key];
  }

  /** The list is empty exactly when no object of the document has the key. */
  lemma FindValuesEmpty(key: string, j: Json)
    ensures ValuesUnder(key, Objects(j)) == [] <==> forall o :: Nested(o, j) ==> key !in DictOf(o)
  {
    FindValuesCount(key, j);
    var ws := WithKey(key, Objects(j));
    if ws != [] {
      assert ws[0] in ws;
      assert Nested(ws[0], j) && key in DictOf(ws[0]);
    } else {
      forall o | Nested(o, j)
        ensures key !in DictOf(o)
      {
        assert o !in ws;
      }
    }
  }

  /**
   * Post-order: an object's own value comes after the values of every
   * object nested in its members, which come in member order.
   */
  lemma OwnValueLast(key: string, members: seq<Member>)
    requires key in DictOf(members)
    ensures ValuesUnder(key, Objects(JObj(members))) ==
      ValuesUnder(key, ObjectsInMembers(members)) + [DictOf(members)[key]]
  {
    var objs := Objects(JObj(members));
    assert objs[..|objs| - 1] == ObjectsInMembers(members);
  }

  /** `find_values(key, j)[0]`: the first value collected, or `IndexError` when there is none. */
  function FirstValue(key: string, j: Json): (r: Result<Json>)
    ensures r.Err? <==> ValuesUnder(key, Objects(j)) == []
    ensures r.Err? ==> r.error == IndexError
    ensures r.Ok? ==> r.value == ValuesUnder(key, Objects(j))[0]
  {
    var vs := ValuesUnder(key, Objects(j));
    if vs == [] then Err(IndexError) else Ok(vs[0])
  }

  /**
   * `find_values(key, j)[0]` is the value of the first object, in the order
   * the decoder finishes them, that has the key; it raises `IndexError`
   * exactly when no object of the document has the key.
   */
  lemma FirstValueSpec(key: string, j: Json)
    ensures FirstValue(key, j).Err? <==> forall o :: o in Objects(j) ==> key !in DictOf(o)
    ensures FirstValue(key, j).Ok? ==> exists i ::
      && 0 <= i < |Objects(j)|
      && key in DictOf(Objects(j)[i])
      && FirstValue(key, j).value == DictOf(Objects(j)[i])[key]
      && (forall k :: 0 <= k < i ==> key !in DictOf(Objects(j)[k]))
  {
    FirstOfValuesUnder(key, Objects(j));
  }

  lemma {:induction false} FirstOfValuesUnder(key: string, objs: seq<seq<Member>>)
    ensures ValuesUnder(key, objs) == [] <==> forall k :: 0 <= k < |objs| ==> key !in DictOf(objs[k])
    ensures ValuesUnder(key, objs) != [] ==> exists i ::
      && 0 <= i < |objs|
      && key in DictOf(objs[i])
      && ValuesUnder(key, objs)[0] == DictOf(objs[i])[key]
      && (forall k :: 0 <= k < i ==> key !in DictOf(objs[k]))
  {
    if objs != [] {
      var front := objs[..|objs| - 1];
      FirstOfValuesUnder(key, front);
      assert forall k :: 0 <= k < |front| ==> front[k] == objs[k];
      if ValuesUnder(key, front) != [] {
        var i :| 0 <= i < |front| && key in DictOf(front[i])
          && ValuesUnder(key, front)[0] == DictOf(front[i])[key]
          && (forall k :: 0 <= k < i ==> key !in DictOf(front[k]));
        assert ValuesUnder(key, objs)[0] == ValuesUnder(key, front)[0];
      }
    }
  }

  /** The document of the example in the function's documentation. */
  const ExampleP2: seq<Member> := [Member("P1", JStr("cccc"))]
  const ExampleP3: seq<Member> := [Member("P1", JStr("aaa"))]
  const Example: seq<Member> :=
    [Member("P1", JStr("ss")), Member("Id", JNum(1234)), Member("P2", JObj(ExampleP2)), Member("P3", JArr([JObj(ExampleP3)]))]

  /**
   * The example in the function's documentation: for
   * `{"P1": "ss", "Id": 1234, "P2": {"P1": "cccc"}, "P3": [{"P1": "aaa"}]}`
   * the values under `P1` are `cccc`, `aaa`, `ss`.
   */
  lemma DocumentedExample()
    ensures ValuesUnder("P1", Objects(JObj(Example))) == [JStr("cccc"), JStr("aaa"), JStr("ss")]
  {
    ExampleObjects();
    var objs := [ExampleP2, ExampleP3, Example];
    assert objs[..2][..1] == [ExampleP2] && objs[..2] == [ExampleP2, ExampleP3] && objs[..1][..0] == [];
    assert DictOf(ExampleP2) == map["P1" := JStr("cccc")] by {
      assert ExampleP2[..0] == [];
    }
    assert DictOf(ExampleP3) == map["P1" := JStr("aaa")] by {
      assert ExampleP3[..0] == [];
    }
    DictOfLast(Example, 0);
    assert ValuesUnder("P1", [ExampleP2]) == [JStr("cccc")];
    assert ValuesUnder("P1", objs[..2]) == [JStr("cccc"), JStr("aaa")];
  }

  /** The objects of `P2`'s and of `P3`'s value. */
  lemma ExampleInner()
    ensures Objects(JObj(ExampleP2)) == [ExampleP2]
    ensures Objects(JArr([JObj(ExampleP3)])) == [ExampleP3]
  {
    DistinctKeysWalk(ExampleP2, 1);
    assert MemberValues(ExampleP2)[..1] == [JStr("cccc")];
    assert [JStr("cccc")][..0] == [];
    DistinctKeysWalk(ExampleP3, 1);
    assert MemberValues(ExampleP3)[..1] == [JStr("aaa")];
    assert [JStr("aaa")][..0] == [];
    assert [JObj(ExampleP3)][..0] == [];
    assert ObjectsInItems([JObj(ExampleP3)]) == ObjectsInItems([]) + Objects(JObj(ExampleP3));
  }

  /** The decoder finishes `P2`'s object, then `P3`'s, then the outer one. */
  lemma ExampleObjects()
    ensures Objects(JObj(Example)) == [ExampleP2, ExampleP3, Example]
  {
    ExampleInner();
    var e := Example;
    assert |e| == 4;
    assert DistinctKeys(e);
    DistinctKeysWalk(e, 4);
    var vs := MemberValues(e);
    assert vs[..4] == vs;
    assert vs[..1][..0] == [];
    assert vs[..2][..1] == vs[..1];
    assert vs[..3][..2] == vs[..2];
    assert vs[..3] == vs[..4][..3];
    assert ObjectsInItems(vs[..1]) == [];
    assert ObjectsInItems(vs[..2]) == [];
    assert ObjectsInItems(vs[..3]) == [ExampleP2];
    assert ObjectsInItems(vs) == [ExampleP2, ExampleP3];
  }

  /**
   * A repeated key hides the earlier value: for
   * `{"a": {"from_": "1"}, "a": 0}` the dumped dict is `{"a": 0}`, so nothing
   * is found under `from_`.
   */
  lemma RepeatedKeyOverwritten()
    ensures var j := JObj([Member("a", JObj([Member("from_", JStr("1"))])), Member("a", JNum(0))]);
      ValuesUnder("from_", Objects(j)) == []
  {
    var inner := [Member("from_", JStr("1"))];
    var m := [Member("a", JObj(inner)), Member("a", JNum(0))];
    assert m[0].key == "a" && m[1].key == "a";
    assert !FirstWithKey(m, 1);
    assert FirstWithKey(m, 0);
    assert LastKeyIndex(m, "a", 2) == 1;
    assert ObjectsInDict(m, 1) == [];
    assert ObjectsInDict(m, 2) == [];
    assert Objects(JObj(m)) == [m];
    assert |m| == 2 && m[..|m| - 1] == m[..1] == [Member("a", JObj(inner))];
    assert DictOf(m[..1]) == map["a" := JObj(inner)];
    assert m[..1][..0] == [];
    assert DictOf(m) == map["a" := JNum(0)];
    var objs: seq<seq<Member>> := [m];
    assert objs[..0] == [];
  }
}

=== FILE: json.dfy ===
/**
 * A decoded JSON document as the scripts see it after `json.loads`, and the
 * Python operations they apply to it: `d[k]`, `k in x`, `for x in v`,
 * `.items()` and truthiness.
 */
module PyJson {
  import opened PyBase
  import opened PyStr

  /** One `"key": value` pair of a JSON object, in the order it was written. */
  datatype Member = Member(key: string, value: Json)

  /**
   * A JSON value. Objects keep their members in document order, duplicates
   * included; numbers are integers.
   */
  datatype Json =
    | JNull
    | JBool(b: bool)
    | JNum(n: int)
    | JStr(s: string)
    | JArr(items: seq<Json>)
    | JObj(members: seq<Member>)

  /** The dict Python builds from an object's members: a repeated key keeps its last value. */
  function DictOf(members: seq<Member>): map<string, Json> {
    if members == [] then map[]
    else DictOf(members[..|members| - 1])[members[|members| - 1].key := members[|members| - 1].value]
  }

  /** A key is in the dict exactly when some member has it. */
  lemma {:induction false} DictOfKeys(members: seq<Member>, k: string)
    ensures k in DictOf(members) <==> exists i :: 0 <= i < |members| && members[i].key == k
  {
    if members != [] {
      var front := members[..|members| - 1];
      DictOfKeys(front, k);
      if exists i :: 0 <= i < |members| && members[i].key == k {
        var i :| 0 <= i < |members| && members[i].key == k;
        if i < |front| {
          assert front[i].key == k;
        }
      }
      if exists i :: 0 <= i < |front| && front[i].key == k {
        var i :| 0 <= i < |front| && front[i].key == k;
        assert members[i].key == k;
      }
    }
  }

  /** The value the dict holds for a key is that of the key's last member. */
  lemma {:induction false} DictOfLast(members: seq<Member>, i: int)
    requires 0 <= i < |members|
    requires forall j :: i < j < |members| ==> members[j].key != members[i].key
    ensures members[i].key in DictOf(members)
    ensures DictOf(members)[members[i].key] == members[i].value
  {
    if i < |members| - 1 {
      var front := members[..|members| - 1];
      DictOfLast(front, i);
    }
  }

  /** Member `i` is the first with its key: the position the key takes in the dict. */
  predicate FirstWithKey(members: seq<Member>, i: nat)
    requires i < |members|
  {
    forall k :: 0 <= k < i ==> members[k].key != members[i].key
  }

  /** Member `i` is the last with its key: the one whose value the dict keeps. */
  predicate LastWithKey(members: seq<Member>, i: nat)
    requires i < |members|
  {
    forall k :: i < k < |members| ==> members[k].key != members[i].key
  }

  /** The index of the last of the first `n` members that has `key`, or -1 when none has it. */
  function LastKeyIndex(members: seq<Member>, key: string, n: nat): (l: int)
    requires n <= |members|
    ensures -1 <= l < n
    ensures l >= 0 ==> members[l].key == key
    ensures forall k :: l < k < n ==> members[k].key != key
  {
    if n == 0 then -1
    else if members[n - 1].key == key then n - 1
    else LastKeyIndex(members, key, n - 1)
  }

  /** `v` is a dict that holds `key`. */
  predicate HasKey(v: Json, key: string) {
    v.JObj? && key in DictOf(v.members)
  }

  /** The keys of a dict in the order `for k in d` yields them: first occurrence first. */
  function KeysInOrder(members: seq<Member>): (ks: seq<string>)
    ensures forall k :: k in ks <==> k in DictOf(members)
  {
    if members == [] then []
    else
      var front := KeysInOrder(members[..|members| - 1]);
      var k := members[|members| - 1].key;
      if k in front then front else front + [k]
  }

  /** Member `i` adds its key to the iteration order exactly when it is the first member with that key. */
  lemma KeysInOrderStep(members: seq<Member>, i: nat)
    requires i < |members|
    ensures KeysInOrder(members[..i + 1]) ==
      if FirstWithKey(members, i) then KeysInOrder(members[..i]) + [members[i].key] else KeysInOrder(members[..i])
  {
    var upto, k := members[..i + 1], members[i].key;
    assert upto[..|upto| - 1] == members[..i];
    DictOfKeys(members[..i], k);
    if !FirstWithKey(members, i) {
      var j :| 0 <= j < i && members[j].key == k;
      assert members[..i][j].key == k;
    }
  }

  /** No string occurs twice in `ks`. */
  predicate Distinct(ks: seq<string>) {
    forall i, j :: 0 <= i < j < |ks| ==> ks[i] != ks[j]
  }

  /** No key is yielded twice. */
  lemma {:induction false} KeysDistinct(members: seq<Member>)
    ensures Distinct(KeysInOrder(members))
  {
    if members != [] {
      var before := members[..|members| - 1];
      KeysDistinct(before);
      var front, k := KeysInOrder(before), members[|members| - 1].key;
      if k !in front {
        var ks := front + [k];
        forall i, j | 0 <= i < j < |ks|
          ensures ks[i] != ks[j]
        {
          assert ks[i] == front[i] && front[i] in front;
          if j < |front| {
            assert ks[j] == front[j];
          } else {
            assert ks[j] == k;
          }
        }
        assert KeysInOrder(members) == ks;
      }
    }
  }

  /** Adding members only adds keys at the end. */
  lemma {:induction false} KeysGrow(members: seq<Member>, n: nat)
    requires n <= |members|
    ensures KeysInOrder(members[..n]) <= KeysInOrder(members)
    decreases |members|
  {
    if n < |members| {
      var front := members[..|members| - 1];
      KeysGrow(front, n);
      assert members[..n] == front[..n];
    } else {
      assert members[..n] == members;
    }
  }

  /**
   * Dict iteration order: no key is yielded twice, adding members only adds
   * keys at the end, and member `i` adds its key exactly when it is the
   * first member with that key. So the keys come in order of first insertion.
   */
  lemma KeysInOrderSpec(members: seq<Member>)
    ensures Distinct(KeysInOrder(members))
    ensures forall n :: 0 <= n <= |members| ==> KeysInOrder(members[..n]) <= KeysInOrder(members)
    ensures forall i :: 0 <= i < |members| ==>
      KeysInOrder(members[..i + 1]) ==
        if FirstWithKey(members, i) then KeysInOrder(members[..i]) + [members[i].key] else KeysInOrder(members[..i])
  {
    KeysDistinct(members);
    forall n | 0 <= n <= |members|
      ensures KeysInOrder(members[..n]) <= KeysInOrder(members)
    {
      KeysGrow(members, n);
    }
    forall i | 0 <= i < |members|
      ensures KeysInOrder(members[..i + 1]) ==
        if FirstWithKey(members, i) then KeysInOrder(members[..i]) + [members[i].key] else KeysInOrder(members[..i])
    {
      KeysInOrderStep(members, i);
    }
  }

  /** Python `v[key]` with a string key: only a dict can be indexed by a string. */
  function Index(v: Json, key: string): (r: Result<Json>)
    ensures r.Ok? <==> HasKey(v, key)
    ensures r.Ok? ==> r.value == DictOf(v.members)[key]
  {
    match v
    case JObj(members) =>
      var d := DictOf(members);
      if key in d then Ok(d[key]) else Err(KeyError(key))
    case _ => Err(TypeError)
  }

  /**
   * Python `key in v` for a string `key`: a key test on a dict, an element
   * test on a list, a substring test on a string, and a `TypeError` on
   * anything else.
   */
  function In(key: string, v: Json): Result<bool> {
    match v
    case JObj(members) => Ok(key in DictOf(members))
    case JArr(items) => Ok(JStr(key) in items)
    case JStr(s) => Ok(Contains(s, key))
    case _ => Err(TypeError)
  }

  /**
   * Python `for x in v`: the elements of a list, the keys of a dict, the
   * one-character strings of a string; anything else is not iterable.
   */
  function Iter(v: Json): Result<seq<Json>> {
    match v
    case JArr(items) => Ok(items)
    case JObj(members) =>
      var ks := KeysInOrder(members);
      Ok(seq(|ks|, i requires 0 <= i < |ks| => JStr(ks[i])))
    case JStr(s) => Ok(seq(|s|, i requires 0 <= i < |s| => JStr([s[i]])))
    case _ => Err(TypeError)
  }

  /** The members behind `v.items()` or `v.keys()`; only a dict has these methods. */
  function AsDict(v: Json): (r: Result<seq<Member>>)
    ensures r.Ok? <==> v.JObj?
  {
    if v.JObj? then Ok(v.members) else Err(AttributeError)
  }

  /** The values that have a `.copy()` method: dicts and lists. */
  predicate HasCopy(v: Json) {
    v.JObj? || v.JArr?
  }

  /** `v.copy()`: an equal dict or list; any other value has no such method. */
  function Copy(v: Json): (r: Result<Json>)
    ensures r.Ok? <==> HasCopy(v)
    ensures r.Ok? ==> r.value == v
    ensures r.Err? ==> r.error == AttributeError
  {
    if HasCopy(v) then Ok(v) else Err(AttributeError)
  }

  /** Python truthiness: `None`, `False`, `0` and empty containers are false. */
  predicate Truthy(v: Json) {
    match v
    case JNull => false
    case JBool(b) => b
    case JNum(n) => n != 0
    case JStr(s) => s != []
    case JArr(items) => items != []
    case JObj(members) => members != []
  }

  /** `v[k1][k2]...`, raising at the first lookup that fails. */
  function Lookup(v: Json, keys: seq<string>): (r: Result<Json>)
    ensures keys == [] ==> r == Ok(v)
    decreases |keys|
  {
    if keys == [] then Ok(v)
    else
      var child :- Index(v, keys[0]);
      Lookup(child, keys[1..])
  }

  /** `for x in v[k1][k2]...`: the items of a looked-up value. */
  function ItemsAt(v: Json, keys: seq<string>): Result<seq<Json>> {
    var c :- Lookup(v, keys);
    Iter(c)
  }
}

=== FILE: overlay.dfy ===
/**
 * The overlay step of fabric_migration.py: every static path binding of the
 * source nodes is copied with its path references moved to the destination
 * nodes. The binding is dumped to JSON text, each `paths-<source>` in the
 * text is replaced by `paths-<dest>` one node after the other, and the text
 * is loaded back.
 */
module PathRewrite {
  import opened PyBase
  import opened PyStr
  import opened PyJson
  import opened SpecFile
  import opened AciCreateObjects

  /** One renaming of path references: `paths-<source>` becomes `paths-<dest>`. */
  datatype Rename = Rename(source: string, dest: string)

  /** The text a renaming looks for, and the text it puts in its place. */
  function Pattern(r: Rename): string {
    "paths-" + r.source
  }

  function Replacement(r: Rename): string {
    "paths-" + r.dest
  }

  /**
   * The renamings in the order the script applies them: each source leaf
   * to its destination, then, for a VPC pair, the pair `s0-s1` to `d0-d1`.
   */
  function OverlayRenamesAsWritten(e: SpecLine): seq<Rename>
    requires e.Single? || e.Pair?
  {
    match e
    case Single(s, d) => [Rename(s, d)]
    case Pair(s0, s1, d0, d1) =>
      [Rename(s0, d0), Rename(s1, d1), Rename(s0 + "-" + s1, d0 + "-" + d1)]
  }

  /**
   * The renamings in the order that moves VPC paths too: the pair first,
   * while its text is still intact, then each leaf.
   */
  function OverlayRenames(e: SpecLine): seq<Rename>
    requires e.Single? || e.Pair?
  {
    match e
    case Single(s, d) => [Rename(s, d)]
    case Pair(s0, s1, d0, d1) =>
      [Rename(s0 + "-" + s1, d0 + "-" + d1), Rename(s0, d0), Rename(s1, d1)]
  }

  /** The text after the renamings, applied one after the other with `str.replace`. */
  function RewriteText(text: string, renames: seq<Rename>): string {
    if renames == [] then text
    else
      var r := renames[|renames| - 1];
      Replace(RewriteText(text, renames[..|renames| - 1]), Pattern(r), Replacement(r))
  }

  /** The inner `for j` loop: `new_path = new_path.replace(...)` for each renaming. */
  method RewritePath(text: string, renames: seq<Rename>) returns (r: string)
    ensures r == RewriteText(text, renames)
  {
    r := text;
    for j := 0 to |renames|
      invariant r == RewriteText(text, renames[..j])
    {
      assert renames[..j + 1][..j] == renames[..j];
      r := Replace(r, Pattern(renames[j]), Replacement(renames[j]));
    }
    assert renames[..|renames|] == renames;
  }

  /** `pat` starts nowhere in `s`. */
  predicate Absent(s: string, pat: string) {
    forall i :: 0 <= i < |s| ==> !StartsWith(s[i..], pat)
  }

  /** A text that names none of the renamed nodes is copied unchanged. */
  lemma {:induction false} RewriteUntouched(text: string, renames: seq<Rename>)
    requires forall j :: 0 <= j < |renames| ==> !Contains(text, Pattern(renames[j]))
    ensures RewriteText(text, renames) == text
  {
    if renames != [] {
      var front := renames[..|renames| - 1];
      assert forall j :: 0 <= j < |front| ==> front[j] == renames[j];
      RewriteUntouched(text, front);
      var r := renames[|renames| - 1];
      ReplaceAbsent(text, Pattern(r), Replacement(r));
    }
  }

  /** Renamings that keep every node change nothing. */
  lemma {:induction false} RewriteIdentity(text: string, renames: seq<Rename>)
    requires forall j :: 0 <= j < |renames| ==> renames[j].source == renames[j].dest
    ensures RewriteText(text, renames) == text
  {
    if renames != [] {
      var front := renames[..|renames| - 1];
      assert forall j :: 0 <= j < |front| ==> front[j] == renames[j];
      RewriteIdentity(text, front);
      var r := renames[|renames| - 1];
      ReplaceBySelf(text, Pattern(r));
    }
  }

  /**
   * A single-leaf migration moves the one reference to the source leaf in
   * a text to the destination leaf and changes nothing else.
   */
  lemma SingleLeafRewrite(a: string, b: string, source: string, dest: string)
    requires forall i :: OccursAt(a + ("paths-" + source) + b, "paths-" + source, i) ==> i == |a|
    ensures RewriteText(a + ("paths-" + source) + b, OverlayRenames(Single(source, dest))) ==
      a + ("paths-" + dest) + b
  {
    var renames := OverlayRenames(Single(source, dest));
    assert renames[..0] == [];
    ReplaceSingleOccurrence(a, b, "paths-" + source, "paths-" + dest);
  }

  /** For a single leaf the script's order and the pair-first order are the same. */
  lemma SingleLeafOrders(source: string, dest: string)
    ensures OverlayRenames(Single(source, dest)) == OverlayRenamesAsWritten(Single(source, dest))
    ensures OverlayRenames(Single(source, dest)) == [Rename(source, dest)]
  {
  }

  /**
   * Both orders rename the same nodes: the two leaves and the pair, each to
   * its own destination; only the order differs.
   */
  lemma PairOrders(e: SpecLine)
    requires e.Pair?
    ensures multiset(OverlayRenames(e)) == multiset(OverlayRenamesAsWritten(e))
    ensures |OverlayRenames(e)| == 3
    ensures OverlayRenames(e)[0] == OverlayRenamesAsWritten(e)[2]
  {
    var w, c := OverlayRenamesAsWritten(e), OverlayRenames(e);
    assert c == [w[2]] + w[..2];
    assert w == w[..2] + [w[2]];
  }

  // -----------------------------------------------------------------------
  // Replacing in a text whose occurrences are known
  // -----------------------------------------------------------------------

  /** A text in which the pattern starts nowhere is left unchanged. */
  lemma ReplaceNowhere(s: string, pat: string, rep: string)
    requires pat != []
    requires Absent(s, pat)
    ensures Replace(s, pat, rep) == s
  {
    assert s + [] == s;
    ReplaceSkipsPrefix(s, [], pat, rep);
  }

  /** The one occurrence of the pattern, after a prefix where it does not start, is replaced. */
  lemma ReplaceOnce(a: string, b: string, pat: string, rep: string)
    requires pat != []
    requires forall i :: 0 <= i < |a| ==> !StartsWith((a + pat + b)[i..], pat)
    requires Absent(b, pat)
    ensures Replace(a + pat + b, pat, rep) == a + rep + b
  {
    assert a + pat + b == a + (pat + b);
    ReplaceSkipsPrefix(a, pat + b, pat, rep);
    assert StartsWith(pat + b, pat);
    assert (pat + b)[|pat|..] == b;
    ReplaceNowhere(b, pat, rep);
  }

  /**
   * A pattern of the form `paths-1...` cannot start at `i` in `s` when the
   * characters at `i`, `i + 1` or `i + 6` differ from it.
   */
  lemma NoStartBefore(s: string, pat: string, n: int)
    requires 7 <= |pat| && 0 <= n <= |s|
    requires forall i :: 0 <= i < n && i + |pat| <= |s| ==>
      s[i] != pat[0] || s[i + 1] != pat[1] || s[i + 6] != pat[6]
    ensures forall i :: 0 <= i < n ==> !StartsWith(s[i..], pat)
  {
    forall i | 0 <= i < n && i + |pat| <= |s|
      ensures !StartsWith(s[i..], pat)
    {
      assert s[i..][..|pat|][0] == s[i] && s[i..][..|pat|][1] == s[i + 1] && s[i..][..|pat|][6] == s[i + 6];
    }
  }

  // -----------------------------------------------------------------------
  // The VPC pair: the reference to the pair is not moved as written
  // -----------------------------------------------------------------------

  /** A migration of the VPC pair 107/108 to 207/208. */
  const PairExample: SpecLine := Pair("107", "108", "207", "208")

  /** A VPC path reference of the pair 107/108 as it appears in a binding. */
  const VpcPathPrefix := "topology/pod-1/prot"
  const VpcPathSuffix := "/pathep-[vpc1]"

  /** The pair's reference, and what each order turns it into. */
  const VpcPath := VpcPathPrefix + "paths-107-108" + VpcPathSuffix
  const HalfMovedVpcPath := VpcPathPrefix + "paths-207-108" + VpcPathSuffix
  const MovedVpcPath := VpcPathPrefix + "paths-207-208" + VpcPathSuffix

  /**
   * As written, the leaf renaming `paths-107` fires inside the pair's
   * `protpaths-107-108` first; the text then no longer holds
   * `paths-107-108`, and the binding ends up on the pair 207/108, which is
   * neither the source nor the destination pair.
   */
  lemma AsWrittenMissesVpcPath()
    ensures RewriteText(VpcPath, OverlayRenamesAsWritten(PairExample)) == HalfMovedVpcPath
  {
    var leaf0, leaf1, pair := Rename("107", "207"), Rename("108", "208"), Rename("107-108", "207-208");
    PairExampleRenames();
    LeafFiresInsidePair();
    HalfMovedHasNoLeaf("paths-108");
    ReplaceNowhere(HalfMovedVpcPath, "paths-108", "paths-208");
    HalfMovedHasNoLeaf("paths-107-108");
    ReplaceNowhere(HalfMovedVpcPath, "paths-107-108", "paths-207-208");
    RewriteThree(VpcPath, HalfMovedVpcPath, HalfMovedVpcPath, HalfMovedVpcPath, leaf0, leaf1, pair);
  }

  /** The renamings of the example pair, in both orders, and the texts they look for. */
  lemma PairExampleRenames()
    ensures OverlayRenamesAsWritten(PairExample) ==
      [Rename("107", "207"), Rename("108", "208"), Rename("107-108", "207-208")]
    ensures OverlayRenames(PairExample) ==
      [Rename("107-108", "207-208"), Rename("107", "207"), Rename("108", "208")]
    ensures Pattern(Rename("107", "207")) == "paths-107" && Replacement(Rename("107", "207")) == "paths-207"
    ensures Pattern(Rename("108", "208")) == "paths-108" && Replacement(Rename("108", "208")) == "paths-208"
    ensures Pattern(Rename("107-108", "207-208")) == "paths-107-108"
    ensures Replacement(Rename("107-108", "207-208")) == "paths-207-208"
  {
    assert "107" + "-" + "108" == "107-108" && "207" + "-" + "208" == "207-208";
  }

  /** Three renamings are three replacements, in order. */
  lemma RewriteThree(t0: string, t1: string, t2: string, t3: string, r0: Rename, r1: Rename, r2: Rename)
    requires Replace(t0, Pattern(r0), Replacement(r0)) == t1
    requires Replace(t1, Pattern(r1), Replacement(r1)) == t2
    requires Replace(t2, Pattern(r2), Replacement(r2)) == t3
    ensures RewriteText(t0, [r0, r1, r2]) == t3
  {
    var rs := [r0, r1, r2];
    assert rs[..2] == [r0, r1] && [r0, r1][..1] == [r0] && [r0][..0] == [];
    assert RewriteText(t0, [r0]) == t1;
    assert RewriteText(t0, [r0, r1]) == t2;
  }

  /** `paths-107` occurs once in the pair's reference, inside `paths-107-108`. */
  lemma LeafFiresInsidePair()
    ensures Replace(VpcPath, "paths-107", "paths-207") == HalfMovedVpcPath
  {
    var a, b := VpcPathPrefix, "-108" + VpcPathSuffix;
    assert VpcPath == a + "paths-107" + b;
    NoStartBefore(VpcPath, "paths-107", |a|);
    NoStartBefore(b, "paths-107", |b|);
    ReplaceOnce(a, b, "paths-107", "paths-207");
    assert a + "paths-207" + b == HalfMovedVpcPath;
  }

  lemma HalfMovedHasNoLeaf(pat: string)
    requires pat == "paths-108" || pat == "paths-107-108"
    ensures Absent(HalfMovedVpcPath, pat)
  {
    NoStartBefore(HalfMovedVpcPath, pat, |HalfMovedVpcPath|);
  }

  /** With the pair renamed first, the pair's reference moves to the destination pair 207/208. */
  lemma CorrectedMovesVpcPath()
    ensures RewriteText(VpcPath, OverlayRenames(PairExample)) == MovedVpcPath
  {
    var leaf0, leaf1, pair := Rename("107", "207"), Rename("108", "208"), Rename("107-108", "207-208");
    PairExampleRenames();
    PairFiresFirst();
    MovedHasNoLeaf("paths-107");
    ReplaceNowhere(MovedVpcPath, "paths-107", "paths-207");
    MovedHasNoLeaf("paths-108");
    ReplaceNowhere(MovedVpcPath, "paths-108", "paths-208");
    RewriteThree(VpcPath, MovedVpcPath, MovedVpcPath, MovedVpcPath, pair, leaf0, leaf1);
  }

  /** `paths-107-108` occurs once in the pair's reference. */
  lemma PairFiresFirst()
    ensures Replace(VpcPath, "paths-107-108", "paths-207-208") == MovedVpcPath
  {
    var a, b := VpcPathPrefix, VpcPathSuffix;
    NoStartBefore(VpcPath, "paths-107-108", |a|);
    NoStartBefore(b, "paths-107-108", |b|);
    ReplaceOnce(a, b, "paths-107-108", "paths-207-208");
  }

  lemma MovedHasNoLeaf(pat: string)
    requires pat == "paths-107" || pat == "paths-108"
    ensures Absent(MovedVpcPath, pat)
  {
    NoStartBefore(MovedVpcPath, pat, |MovedVpcPath|);
  }

  // -----------------------------------------------------------------------
  // The loops over the responses and their bindings
  // -----------------------------------------------------------------------

  /**
   * The innermost loop's body: one binding, copied, dumped, rewritten and
   * loaded back. `dumps` and `loads` stand for `json.dumps` and `json.loads`.
   */
  function NewPathInto(
    done: seq<Json>, path: Json, renames: seq<Rename>,
    dumps: Json -> string, loads: string -> Result<Json>): Result<seq<Json>>
  {
    var copy :- Copy(path);
    var newPath :- loads(RewriteText(dumps(copy), renames));
    Ok(done + [newPath])
  }

  function NewPathStep(renames: seq<Rename>, dumps: Json -> string, loads: string -> Result<Json>)
    : (seq<Json>, Json) -> Result<seq<Json>>
  {
    (done, path) => NewPathInto(done, path, renames, dumps, loads)
  }

  /** The outer loop's body: the bindings of one response, `resp['imdata']`. */
  function ResponseInto(
    done: seq<Json>, resp: Json, renames: seq<Rename>,
    dumps: Json -> string, loads: string -> Result<Json>): Result<seq<Json>>
  {
    var paths :- ItemsAt(resp, ["imdata"]);
    Fold(paths, done, NewPathStep(renames, dumps, loads))
  }

  function ResponseStep(renames: seq<Rename>, dumps: Json -> string, loads: string -> Result<Json>)
    : (seq<Json>, Json) -> Result<seq<Json>>
  {
    (done, resp) => ResponseInto(done, resp, renames, dumps, loads)
  }

  /** `new_path_dicts` after both loops. */
  function NewPathDicts(
    responses: seq<Json>, renames: seq<Rename>,
    dumps: Json -> string, loads: string -> Result<Json>): Result<seq<Json>>
  {
    Fold(responses, [], ResponseStep(renames, dumps, loads))
  }

  /**
   * One new binding per binding of a response, in order, after those built
   * before, each being the loaded rewritten text of its binding; the loop
   * raises exactly when some binding is neither a dict nor a list, so that
   * `path.copy()` fails, or some rewritten text does not load.
   */
  lemma {:induction false} NewPathsSpec(
    paths: seq<Json>, done: seq<Json>, renames: seq<Rename>,
    dumps: Json -> string, loads: string -> Result<Json>)
    ensures Fold(paths, done, NewPathStep(renames, dumps, loads)).Ok? <==>
      forall i :: 0 <= i < |paths| ==> HasCopy(paths[i]) && loads(RewriteText(dumps(paths[i]), renames)).Ok?
    ensures Fold(paths, done, NewPathStep(renames, dumps, loads)).Ok? ==>
      var r := Fold(paths, done, NewPathStep(renames, dumps, loads)).value;
      && |r| == |done| + |paths|
      && r[..|done|] == done
      && forall i :: 0 <= i < |paths| ==> loads(RewriteText(dumps(paths[i]), renames)) == Ok(r[|done| + i])
  {
    if paths != [] {
      var front, last := paths[..|paths| - 1], paths[|paths| - 1];
      NewPathsSpec(front, done, renames, dumps, loads);
      assert forall i :: 0 <= i < |front| ==> front[i] == paths[i];
      var step := NewPathStep(renames, dumps, loads);
      var before := Fold(front, done, step);
      if before.Ok? {
        assert Fold(paths, done, step) == NewPathInto(before.value, last, renames, dumps, loads);
        if Fold(paths, done, step).Ok? {
          var r := Fold(paths, done, step).value;
          assert r[..|before.value|] == before.value;
        }
      }
    }
  }

  /**
   * When loading undoes dumping and no binding names a renamed node, the
   * new bindings are the old ones, unless a binding is neither a dict nor a
   * list, in which case `path.copy()` raises `AttributeError`.
   */
  lemma NewPathsUntouched(
    paths: seq<Json>, done: seq<Json>, renames: seq<Rename>,
    dumps: Json -> string, loads: string -> Result<Json>)
    requires forall j :: loads(dumps(j)) == Ok(j)
    requires forall i, k :: 0 <= i < |paths| && 0 <= k < |renames| ==> !Contains(dumps(paths[i]), Pattern(renames[k]))
    ensures Fold(paths, done, NewPathStep(renames, dumps, loads)) ==
      if forall i :: 0 <= i < |paths| ==> HasCopy(paths[i]) then Ok(done + paths) else Err(AttributeError)
  {
    forall i | 0 <= i < |paths|
      ensures loads(RewriteText(dumps(paths[i]), renames)) == Ok(paths[i])
    {
      RewriteUntouched(dumps(paths[i]), renames);
    }
    NewPathsSpec(paths, done, renames, dumps, loads);
    var step := NewPathStep(renames, dumps, loads);
    if Fold(paths, done, step).Ok? {
      var r := Fold(paths, done, step).value;
      assert r == done + paths;
    } else {
      FoldFails(paths, done, step);
      var i :| 0 <= i < |paths| && Fold(paths[..i], done, step).Ok?
        && step(Fold(paths[..i], done, step).value, paths[i]) == Err(Fold(paths, done, step).error);
      assert NewPathInto(Fold(paths[..i], done, step).value, paths[i], renames, dumps, loads).error == AttributeError;
    }
  }

  /** The bindings of every response, `resp['imdata']`, in order. */
  function AllBindings(responses: seq<Json>): Result<seq<Json>> {
    Flatten(responses, resp => ItemsAt(resp, ["imdata"]))
  }

  /**
   * Across all responses: the loops complete exactly when every response
   * has its bindings, every binding is a dict or a list and every rewritten
   * binding loads, and they build one
   * new binding per binding, in order, each the loaded rewritten text of its
   * binding.
   */
  lemma NewPathDictsAll(
    responses: seq<Json>, renames: seq<Rename>,
    dumps: Json -> string, loads: string -> Result<Json>)
    ensures NewPathDicts(responses, renames, dumps, loads).Ok? <==>
      && AllBindings(responses).Ok?
      && forall i :: 0 <= i < |AllBindings(responses).value| ==>
           && HasCopy(AllBindings(responses).value[i])
           && loads(RewriteText(dumps(AllBindings(responses).value[i]), renames)).Ok?
    ensures NewPathDicts(responses, renames, dumps, loads).Ok? ==>
      var paths, r := AllBindings(responses).value, NewPathDicts(responses, renames, dumps, loads).value;
      && |r| == |paths|
      && forall i :: 0 <= i < |paths| ==> loads(RewriteText(dumps(paths[i]), renames)) == Ok(r[i])
  {
    FoldNested(responses, [], ResponseStep(renames, dumps, loads), resp => ItemsAt(resp, ["imdata"]),
      NewPathStep(renames, dumps, loads));
    var paths := AllBindings(responses);
    if paths.Ok? {
      NewPathsSpec(paths.value, [], renames, dumps, loads);
    }
  }

  /** The innermost loop, over the bindings of one response. */
  method ResponsePaths(
    done: seq<Json>, resp: Json, renames: seq<Rename>,
    dumps: Json -> string, loads: string -> Result<Json>) returns (r: Result<seq<Json>>)
    ensures r == ResponseInto(done, resp, renames, dumps, loads)
  {
    var paths :- ItemsAt(resp, ["imdata"]);
    var step := NewPathStep(renames, dumps, loads);
    var built := done;
    for k := 0 to |paths|
      invariant Fold(paths[..k], done, step) == Ok(built)
    {
      assert paths[..k + 1][..k] == paths[..k];
      assert Fold(paths[..k + 1], done, step) == NewPathInto(built, paths[k], renames, dumps, loads);
      var copy := Copy(paths[k]);
      if copy.Err? {
        FoldStops(paths, done, step, k + 1);
        return Err(copy.error);
      }
      var newText := RewritePath(dumps(copy.value), renames);
      var newPath := loads(newText);
      if newPath.Err? {
        FoldStops(paths, done, step, k + 1);
        return Err(newPath.error);
      }
      built := built + [newPath.value];
    }
    assert paths[..|paths|] == paths;
    r := Ok(built);
  }

  /** Both loops that fill `new_path_dicts`. */
  method RewritePaths(
    responses: seq<Json>, renames: seq<Rename>,
    dumps: Json -> string, loads: string -> Result<Json>) returns (r: Result<seq<Json>>)
    ensures r == NewPathDicts(responses, renames, dumps, loads)
  {
    var step := ResponseStep(renames, dumps, loads);
    var built := [];
    for i := 0 to |responses|
      invariant Fold(responses[..i], [], step) == Ok(built)
    {
      assert responses[..i + 1][..i] == responses[..i];
      assert Fold(responses[..i + 1], [], step) == ResponseInto(built, responses[i], renames, dumps, loads);
      var next := ResponsePaths(built, responses[i], renames, dumps, loads);
      if next.Err? {
        FoldStops(responses, [], step, i + 1);
        return next;
      }
      built := next.value;
    }
    assert responses[..|responses|] == responses;
    r := Ok(built);
  }

  /**
   * The overlay step for one migration: the bindings of the source nodes
   * are copied onto the destination nodes and committed.
   */
  method MigrateOverlay(
    apic: Apic, e: SpecLine, responses: seq<Json>,
    dumps: Json -> string, loads: string -> Result<Json>) returns (r: Result<seq<Json>>)
    requires e.Single? || e.Pair?
    modifies apic
    ensures NewPathDicts(responses, OverlayRenames(e), dumps, loads).Err? ==>
      r == NewPathDicts(responses, OverlayRenames(e), dumps, loads) && apic.log == old(apic.log)
    ensures NewPathDicts(responses, OverlayRenames(e), dumps, loads).Ok? ==>
      r == StaticPathNames(NewPathDicts(responses, OverlayRenames(e), dumps, loads).value)
    ensures |old(apic.log)| <= |apic.log| && apic.log[..|old(apic.log)|] == old(apic.log)
    ensures forall q :: q in apic.log[|old(apic.log)|..] ==>
      NewPathDicts(responses, OverlayRenames(e), dumps, loads).Ok? &&
      IsStaticPathRequest(NewPathDicts(responses, OverlayRenames(e), dumps, loads).value, q)
  {
    var newPaths := RewritePaths(responses, OverlayRenames(e), dumps, loads);
    if newPaths.Err? {
      assert apic.log[..|apic.log|] == apic.log;
      return Err(newPaths.error);
    }
    r := CreateStaticPaths(apic, newPaths.value);
  }
}

=== FILE: py_base.dfy ===
/**
 * The few pieces of Python's run-time behaviour that the migration scripts
 * rely on without saying so: a missing value (`None`), and the exceptions
 * that escape from a lookup, an index or a conversion and end the run.
 */
module PyBase {

  datatype Option<+T> = None | Some(value: T)

  /** The exceptions the scripts never catch; each one stops the migration. */
  datatype PyError =
    | KeyError(key: string)    // `d[k]` on a dict without `k`
    | TypeError                // `x[k]` or `k in x` on a value of the wrong kind
    | IndexError               // `xs[i]` past the end of a list
    | AttributeError           // `.keys()` or `.items()` on a value that is not a dict
    | ValueError(text: string) // `int(text)` on text that is not an integer literal

  /** The value of a Python expression, or the exception it raises. */
  datatype Result<+T> = Ok(value: T) | Err(error: PyError) {
    predicate IsFailure() {
      Err?
    }

    function PropagateFailure<U>(): Result<U>
      requires Err?
    {
      Err(error)
    }

    function Extract(): T
      requires Ok?
    {
      value
    }
  }

  /**
   * A `for x in xs` loop that updates `acc` with `step`; the first step that
   * raises ends the loop with its exception.
   */
  function Fold<A, B>(xs: seq<A>, init: B, step: (B, A) -> Result<B>): Result<B> {
    if xs == [] then Ok(init)
    else
      var acc :- Fold(xs[..|xs| - 1], init, step);
      step(acc, xs[|xs| - 1])
  }

  /** Once the loop has raised, the remaining items change nothing. */
  lemma {:induction false} FoldStops<A, B>(xs: seq<A>, init: B, step: (B, A) -> Result<B>, i: int)
    requires 0 <= i <= |xs|
    requires Fold(xs[..i], init, step).Err?
    ensures Fold(xs, init, step) == Fold(xs[..i], init, step)
    decreases |xs| - i
  {
    if i < |xs| {
      assert xs[..i + 1][..i] == xs[..i];
      FoldStops(xs, init, step, i + 1);
    } else {
      assert xs[..i] == xs;
    }
  }

  /** The loop raises exactly when some step raises on the state it was given. */
  lemma {:induction false} FoldFails<A, B>(xs: seq<A>, init: B, step: (B, A) -> Result<B>)
    ensures Fold(xs, init, step).Err? ==> exists i ::
      && 0 <= i < |xs|
      && Fold(xs[..i], init, step).Ok?
      && step(Fold(xs[..i], init, step).value, xs[i]) == Err(Fold(xs, init, step).error)
  {
    if xs != [] {
      var front := xs[..|xs| - 1];
      FoldFails(front, init, step);
      if Fold(front, init, step).Err? {
        var i :| 0 <= i < |front| && Fold(front[..i], init, step).Ok? &&
          step(Fold(front[..i], init, step).value, front[i]) == Err(Fold(front, init, step).error);
        assert front[..i] == xs[..i];
      } else {
        assert xs[..|xs| - 1] == front;
      }
    }
  }

  /**
   * When whether a step raises depends only on the item, the loop completes
   * exactly when every item is one no step raises on.
   */
  lemma {:induction false} FoldOkIff<A, B>(xs: seq<A>, init: B, step: (B, A) -> Result<B>, ok: A -> bool)
    requires forall acc, x :: step(acc, x).Ok? <==> ok(x)
    ensures Fold(xs, init, step).Ok? <==> forall i :: 0 <= i < |xs| ==> ok(xs[i])
  {
    if xs != [] {
      var front := xs[..|xs| - 1];
      FoldOkIff(front, init, step, ok);
      assert forall i :: 0 <= i < |front| ==> front[i] == xs[i];
    }
  }

  /** A loop over `a + b` is the loop over `a`, continued over `b` unless it has raised. */
  lemma {:induction false} FoldAppend<A, B>(a: seq<A>, b: seq<A>, init: B, step: (B, A) -> Result<B>)
    ensures Fold(a + b, init, step) ==
      if Fold(a, init, step).Err? then Fold(a, init, step) else Fold(b, Fold(a, init, step).value, step)
  {
    if b == [] {
      assert a + b == a;
    } else {
      var front := b[..|b| - 1];
      FoldAppend(a, front, init, step);
      assert (a + b)[..|a + b| - 1] == a + front;
      assert (a + b)[|a + b| - 1] == b[|b| - 1];
    }
  }

  /** The body of a loop that gathers the items of each element: `acc + items(x)`. */
  function Gather<A, C>(items: A -> Result<seq<C>>): (seq<C>, A) -> Result<seq<C>> {
    (acc: seq<C>, x: A) => if items(x).Err? then Err(items(x).error) else Ok(acc + items(x).value)
  }

  /** The items of every element, in order, or the exception of the first element whose items cannot be read. */
  function Flatten<A, C>(xs: seq<A>, items: A -> Result<seq<C>>): Result<seq<C>> {
    Fold(xs, [], Gather(items))
  }

  /**
   * Two nested loops, the inner one over the items of each element of the
   * outer, complete exactly when the items of every element can be read and
   * one loop over all of those items completes; they then end in the same
   * state as that one loop.
   */
  lemma {:induction false} FoldNested<A, B, C>(
    xs: seq<A>, init: B, outer: (B, A) -> Result<B>, items: A -> Result<seq<C>>, inner: (B, C) -> Result<B>)
    requires forall acc, x ::
               outer(acc, x) == if items(x).Err? then Err(items(x).error) else Fold(items(x).value, acc, inner)
    ensures Fold(xs, init, outer).Ok? <==>
      Flatten(xs, items).Ok? && Fold(Flatten(xs, items).value, init, inner).Ok?
    ensures Fold(xs, init, outer).Ok? ==> Fold(xs, init, outer) == Fold(Flatten(xs, items).value, init, inner)
  {
    if xs != [] {
      var front, last := xs[..|xs| - 1], xs[|xs| - 1];
      FoldNested(front, init, outer, items, inner);
      var all := Flatten(front, items);
      if all.Ok? && items(last).Ok? {
        FoldAppend(all.value, items(last).value, init, inner);
      }
    }
  }
}

=== FILE: pystr.dfy ===
/**
 * Python `str` operations the migration scripts use, on `seq<char>`:
 * substring tests (`needle in hay`), `str.startswith`, `str.replace`,
 * `str.split`, `sep.join` and `int()` on a decimal literal.
 */
module PyStr {
  import opened PyBase

  /** `pat` occurs in `s` starting at index `i`. */
  predicate OccursAt(s: string, pat: string, i: int) {
    0 <= i && i + |pat| <= |s| && s[i..i + |pat|] == pat
  }

  /** Python `s.startswith(prefix)`. */
  predicate StartsWith(s: string, prefix: string) {
    |prefix| <= |s| && s[..|prefix|] == prefix
  }

  /** Python `needle in hay` for two strings; the empty string is in every string. */
  predicate Contains(hay: string, needle: string)
    decreases |hay|
  {
    StartsWith(hay, needle) || (hay != [] && Contains(hay[1..], needle))
  }

  /** `needle in hay` holds exactly when `needle` occurs in `hay` at some index. */
  lemma {:induction false} ContainsIffOccurs(hay: string, needle: string)
    ensures Contains(hay, needle) <==> exists i :: OccursAt(hay, needle, i)
    decreases |hay|
  {
    if StartsWith(hay, needle) {
      assert OccursAt(hay, needle, 0);
    } else if hay != [] {
      ContainsIffOccurs(hay[1..], needle);
      if exists i :: OccursAt(hay, needle, i) {
        var i :| OccursAt(hay, needle, i);
        assert i != 0;
        assert hay[1..][i - 1..i - 1 + |needle|] == hay[i..i + |needle|];
        assert OccursAt(hay[1..], needle, i - 1);
      }
      if exists i :: OccursAt(hay[1..], needle, i) {
        var i :| OccursAt(hay[1..], needle, i);
        assert hay[1..][i..i + |needle|] == hay[i + 1..i + 1 + |needle|];
        assert OccursAt(hay, needle, i + 1);
      }
    }
  }

  /**
   * Python `s.replace(pat, rep)` for a non-empty `pat`: scanning from the
   * left, every occurrence of `pat` that does not overlap an earlier replaced
   * one becomes `rep`.
   */
  function Replace(s: string, pat: string, rep: string): string
    requires pat != []
    decreases |s|
  {
    if StartsWith(s, pat) then rep + Replace(s[|pat|..], pat, rep)
    else if s == [] then []
    else [s[0]] + Replace(s[1..], pat, rep)
  }

  /** Python `s.split(sep)` for a non-empty `sep`: the pieces between the occurrences `Replace` finds. */
  function Split(s: string, sep: string): (parts: seq<string>)
    requires sep != []
    ensures |parts| >= 1
    decreases |s|
  {
    if StartsWith(s, sep) then [""] + Split(s[|sep|..], sep)
    else if s == [] then [""]
    else
      var rest := Split(s[1..], sep);
      [[s[0]] + rest[0]] + rest[1..]
  }

  /** Python `sep.join(parts)`. */
  function Join(parts: seq<string>, sep: string): string {
    if parts == [] then ""
    else if |parts| == 1 then parts[0]
    else parts[0] + sep + Join(parts[1..], sep)
  }

  /** Joining is unaffected by a character put in front of the first part. */
  lemma JoinConsHead(c: char, parts: seq<string>, sep: string)
    requires |parts| >= 1
    ensures Join([[c] + parts[0]] + parts[1..], sep) == [c] + Join(parts, sep)
  {
    var ps := [[c] + parts[0]] + parts[1..];
    if |parts| > 1 {
      assert ps[1..] == parts[1..];
    }
  }

  /** Joining the pieces of a split with the separator gives back the string. */
  lemma {:induction false} JoinSplit(s: string, sep: string)
    requires sep != []
    ensures Join(Split(s, sep), sep) == s
    decreases |s|
  {
    if StartsWith(s, sep) {
      var rest := Split(s[|sep|..], sep);
      JoinSplit(s[|sep|..], sep);
      assert ([""] + rest)[1..] == rest;
      assert s == sep + s[|sep|..];
    } else if s != [] {
      JoinSplit(s[1..], sep);
      JoinConsHead(s[0], Split(s[1..], sep), sep);
    }
  }

  /** `s.replace(pat, rep)` is `rep.join(s.split(pat))`, as Python documents it. */
  lemma {:induction false} ReplaceIsJoinSplit(s: string, pat: string, rep: string)
    requires pat != []
    ensures Replace(s, pat, rep) == Join(Split(s, pat), rep)
    decreases |s|
  {
    if StartsWith(s, pat) {
      var rest := Split(s[|pat|..], pat);
      ReplaceIsJoinSplit(s[|pat|..], pat, rep);
      assert ([""] + rest)[1..] == rest;
    } else if s != [] {
      ReplaceIsJoinSplit(s[1..], pat, rep);
      JoinConsHead(s[0], Split(s[1..], pat), rep);
    }
  }

  /** Replacing a pattern by itself changes nothing. */
  lemma ReplaceBySelf(s: string, pat: string)
    requires pat != []
    ensures Replace(s, pat, pat) == s
  {
    ReplaceIsJoinSplit(s, pat, pat);
    JoinSplit(s, pat);
  }

  /** A string in which the pattern does not occur is left unchanged. */
  lemma {:induction false} ReplaceAbsent(s: string, pat: string, rep: string)
    requires pat != []
    requires !Contains(s, pat)
    ensures Replace(s, pat, rep) == s
    decreases |s|
  {
    if s != [] {
      ReplaceAbsent(s[1..], pat, rep);
    }
  }

  /**
   * When the scan finds no occurrence of `pat` starting inside the prefix `a`,
   * replacing in `a + t` keeps `a` and replaces in `t`.
   */
  lemma {:induction false} ReplaceSkipsPrefix(a: string, t: string, pat: string, rep: string)
    requires pat != []
    requires forall i :: 0 <= i < |a| ==> !StartsWith((a + t)[i..], pat)
    ensures Replace(a + t, pat, rep) == a + Replace(t, pat, rep)
    decreases |a|
  {
    if a != [] {
      var s := a + t;
      var s' := a[1..] + t;
      assert s[0..] == s;
      assert !StartsWith(s, pat);
      assert s[1..] == s';
      assert Replace(s, pat, rep) == [a[0]] + Replace(s', pat, rep);
      forall i | 0 <= i < |a[1..]| ensures !StartsWith(s'[i..], pat) {
        assert s'[i..] == s[i + 1..];
      }
      ReplaceSkipsPrefix(a[1..], t, pat, rep);
      assert [a[0]] + a[1..] == a;
    } else {
      assert a + t == t;
    }
  }

  /**
   * A string holding exactly one occurrence of `pat` becomes the same string
   * with that occurrence, and nothing else, replaced by `rep`.
   */
  lemma ReplaceSingleOccurrence(a: string, b: string, pat: string, rep: string)
    requires pat != []
    requires forall i :: OccursAt(a + pat + b, pat, i) ==> i == |a|
    ensures Replace(a + pat + b, pat, rep) == a + rep + b
  {
    assert a + pat + b == a + (pat + b);
    NoOccurrenceBefore(a, b, pat);
    ReplaceSkipsPrefix(a, pat + b, pat, rep);
    assert StartsWith(pat + b, pat);
    assert (pat + b)[|pat|..] == b;
    NoOccurrenceAfter(a, b, pat);
    ReplaceAbsent(b, pat, rep);
  }

  lemma NoOccurrenceBefore(a: string, b: string, pat: string)
    requires forall i :: OccursAt(a + pat + b, pat, i) ==> i == |a|
    ensures forall i :: 0 <= i < |a| ==> !StartsWith((a + (pat + b))[i..], pat)
  {
    var s := a + pat + b;
    assert s == a + (pat + b);
    forall i | 0 <= i < |a| ensures !StartsWith(s[i..], pat) {
      assert !OccursAt(s, pat, i);
      assert i + |pat| <= |s| ==> s[i..][..|pat|] == s[i..i + |pat|];
    }
  }

  lemma NoOccurrenceAfter(a: string, b: string, pat: string)
    requires pat != []
    requires forall i :: OccursAt(a + pat + b, pat, i) ==> i == |a|
    ensures !Contains(b, pat)
  {
    var s := a + pat + b;
    forall i | 0 <= i ensures !OccursAt(b, pat, i) {
      assert !OccursAt(s, pat, |a| + |pat| + i);
      assert i + |pat| <= |b| ==> s[|a| + |pat| + i..|a| + |pat| + i + |pat|] == b[i..i + |pat|];
    }
    ContainsIffOccurs(b, pat);
  }

  /** `s` with every `c` taken out, the rest kept in order. */
  function Without(s: string, c: char): string {
    if s == [] then [] else (if s[0] == c then [] else [s[0]]) + Without(s[1..], c)
  }

  /** `s.replace(c, '')` deletes every `c` and keeps every other character in order. */
  lemma {:induction false} ReplaceCharByEmpty(s: string, c: char)
    ensures Replace(s, [c], "") == Without(s, c)
    ensures c !in Replace(s, [c], "")
  {
    if s != [] {
      ReplaceCharByEmpty(s[1..], c);
      assert StartsWith(s, [c]) <==> s[0] == c;
    }
  }

  /** Number of occurrences of `c` in `s`. */
  function CountChar(s: string, c: char): nat {
    if s == [] then 0 else (if s[0] == c then 1 else 0) + CountChar(s[1..], c)
  }

  /**
   * Splitting on one character gives one more field than there are
   * separators, and no field holds the separator.
   */
  lemma {:induction false} SplitOnChar(s: string, c: char)
    ensures |Split(s, [c])| == CountChar(s, c) + 1
    ensures forall i :: 0 <= i < |Split(s, [c])| ==> c !in Split(s, [c])[i]
  {
    if s != [] {
      SplitOnChar(s[1..], c);
      assert StartsWith(s, [c]) <==> s[0] == c;
      assert s[|[c]|..] == s[1..];
      if s[0] != c {
        var rest := Split(s[1..], [c]);
        var parts := [[s[0]] + rest[0]] + rest[1..];
        forall i | 0 <= i < |parts| ensures c !in parts[i] {
          if i > 0 {
            assert parts[i] == rest[i];
          }
        }
      }
    }
  }

  // ---------------------------------------------------------------------
  // int() on a string
  // ---------------------------------------------------------------------

  /** The ASCII and Latin-1 characters Python treats as white space. */
  predicate IsSpace(c: char) {
    (9 <= c as int <= 13) || (28 <= c as int <= 32) || c as int == 0x85 || c as int == 0xA0
  }

  predicate IsDigit(c: char) {
    '0' <= c <= '9'
  }

  /** `s` without leading and trailing white space. */
  function Strip(s: string): (t: string)
    decreases |s|
  {
    if s != [] && IsSpace(s[0]) then Strip(s[1..])
    else if s != [] && IsSpace(s[|s| - 1]) then Strip(s[..|s| - 1])
    else s
  }

  /**
   * A run of decimal digits in which single underscores may separate two
   * digits, as Python's integer literals allow.
   */
  predicate IsDigitRun(t: string) {
    && t != []
    && IsDigit(t[0])
    && IsDigit(t[|t| - 1])
    && (forall i :: 0 <= i < |t| ==> IsDigit(t[i]) || t[i] == '_')
    && (forall i :: 0 <= i < |t| - 1 ==> t[i] == '_' ==> t[i + 1] != '_')
  }

  /** The value of a digit run, underscores skipped. */
  function DigitRunValue(t: string): nat {
    if t == [] then 0
    else if t[|t| - 1] == '_' then DigitRunValue(t[..|t| - 1])
    else 10 * DigitRunValue(t[..|t| - 1]) + (t[|t| - 1] as int - '0' as int) % 10
  }

  /**
   * Python `int(s)` in base ten: white space around an optional sign and a
   * digit run; anything else raises `ValueError`.
   */
  function ParseInt(s: string): Result<int> {
    var t := Strip(s);
    if t != [] && (t[0] == '+' || t[0] == '-') then
      if IsDigitRun(t[1..]) then
        var v: int := DigitRunValue(t[1..]);
        Ok(if t[0] == '-' then -v else v)
      else Err(ValueError(s))
    else if IsDigitRun(t) then Ok(DigitRunValue(t))
    else Err(ValueError(s))
  }

  /** Python `str(n)` for a non-negative integer. */
  function ShowNat(n: nat): (t: string)
    ensures t != [] && IsDigit(t[0]) && IsDigit(t[|t| - 1])
    ensures forall i :: 0 <= i < |t| ==> IsDigit(t[i])
  {
    if n < 10 then ['0' + n as char]
    else ShowNat(n / 10) + ['0' + (n % 10) as char]
  }

  /** Python `str(n)`. */
  function ShowInt(n: int): string {
    if n < 0 then "-" + ShowNat(-n) else ShowNat(n)
  }

  lemma {:induction false} DigitRunValueShow(n: nat)
    ensures DigitRunValue(ShowNat(n)) == n
  {
    if n >= 10 {
      DigitRunValueShow(n / 10);
      var t := ShowNat(n);
      assert t[..|t| - 1] == ShowNat(n / 10);
    }
  }

  /** `int(str(n)) == n`: the decimal text of an integer parses back to it. */
  lemma ParseShowInt(n: int)
    ensures ParseInt(ShowInt(n)) == Ok(n)
  {
    var t := ShowInt(n);
    var m: nat := if n < 0 then -n else n;
    DigitRunValueShow(m);
    assert !IsSpace(t[0]) && !IsSpace(t[|t| - 1]);
    assert Strip(t) == t;
    if n < 0 {
      assert t[1..] == ShowNat(m);
    }
  }
}

=== FILE: spec_lines.dfy ===
/**
 * The migration spec file read by fabric_migration.py: one migration per
 * line, `source,dest` for a single leaf or `s1,s2,d1,d2` for a VPC pair;
 * spaces are ignored and blank or `#` lines are skipped.
 */
module SpecFile {
  import opened PyBase
  import opened PyStr

  /** Why a line stops the run: a wrong number of fields, or an exception from `int()`. */
  datatype LineError = FieldCount(fields: seq<string>) | Raised(error: PyError)

  /** What one line of the spec file asks for. */
  datatype SpecLine =
    | Skip
    | Single(source: string, dest: string)
    | Pair(source0: string, source1: string, dest0: string, dest1: string)
    | Error(reason: LineError)

  /** `line.replace(' ', '').replace('\n', '')`. */
  function CleanLine(raw: string): string {
    Replace(Replace(raw, " ", ""), "\n", "")
  }

  /** A cleaned line holds neither spaces nor newlines, and cleaning twice changes nothing more. */
  lemma CleanLineSpec(raw: string)
    ensures ' ' !in CleanLine(raw) && '\n' !in CleanLine(raw)
    ensures CleanLine(CleanLine(raw)) == CleanLine(raw)
  {
    var once := Replace(raw, " ", "");
    ReplaceCharByEmpty(raw, ' ');
    ReplaceCharByEmpty(once, '\n');
    WithoutKeeps(once, '\n', ' ');
    var clean := CleanLine(raw);
    ReplaceCharByEmpty(clean, ' ');
    WithoutAbsent(clean, ' ');
    ReplaceCharByEmpty(clean, '\n');
    WithoutAbsent(clean, '\n');
  }

  lemma {:induction false} WithoutKeeps(s: string, c: char, d: char)
    requires d !in s
    ensures d !in Without(s, c)
  {
    if s != [] {
      WithoutKeeps(s[1..], c, d);
    }
  }

  lemma {:induction false} WithoutAbsent(s: string, c: char)
    requires c !in s
    ensures Without(s, c) == s
  {
    if s != [] {
      WithoutAbsent(s[1..], c);
    }
  }

  /**
   * `pair.sort(key=int)` on two strings: both keys are computed first, so
   * the first string that is not an integer raises; the sort is stable.
   */
  function SortPairByInt(a: string, b: string): (r: Result<(string, string)>)
    ensures r.Ok? <==> ParseInt(a).Ok? && ParseInt(b).Ok?
    ensures r.Err? ==> r.error == if ParseInt(a).Err? then ParseInt(a).error else ParseInt(b).error
    ensures r.Ok? ==> r.value == (a, b) || r.value == (b, a)
    ensures r.Ok? ==> ParseInt(r.value.0).value <= ParseInt(r.value.1).value
    ensures r.Ok? && ParseInt(a).value == ParseInt(b).value ==> r.value == (a, b)
  {
    var ka :- ParseInt(a);
    var kb :- ParseInt(b);
    Ok(if kb < ka then (b, a) else (a, b))
  }

  /** One line of the spec file, as the main loop reads it. */
  function ParseLine(raw: string): SpecLine {
    var line := CleanLine(raw);
    if line == [] || StartsWith(line, "#") then Skip
    else
      var fields := Split(line, ",");
      if |fields| == 2 then Single(fields[0], fields[1])
      else if |fields| == 4 then
        match SortPairByInt(fields[0], fields[1])
        case Err(e) => Error(Raised(e))
        case Ok(sources) =>
          match SortPairByInt(fields[2], fields[3])
          case Err(e) => Error(Raised(e))
          case Ok(dests) => Pair(sources.0, sources.1, dests.0, dests.1)
      else Error(FieldCount(fields))
  }

  /** The line is skipped exactly when, once cleaned, it is empty or starts with `#`. */
  lemma ParseLineSkip(raw: string)
    ensures ParseLine(raw).Skip? <==> CleanLine(raw) == [] || StartsWith(CleanLine(raw), "#")
  {
    var line := CleanLine(raw);
    if !(line == [] || StartsWith(line, "#")) {
      assert |Split(line, ",")| >= 1;
    }
  }

  /**
   * A line that is not skipped is a single migration exactly when it has
   * one comma, and its two fields then make up the cleaned line.
   */
  lemma ParseLineSingle(raw: string)
    ensures ParseLine(raw).Single? <==>
      !ParseLine(raw).Skip? && CountChar(CleanLine(raw), ',') == 1
    ensures ParseLine(raw).Single? ==>
      && ',' !in ParseLine(raw).source && ',' !in ParseLine(raw).dest
      && ParseLine(raw).source + "," + ParseLine(raw).dest == CleanLine(raw)
  {
    var line := CleanLine(raw);
    ParseLineSkip(raw);
    SplitOnChar(line, ',');
    if ParseLine(raw).Single? {
      var fields := Split(line, ",");
      JoinSplit(line, ",");
      assert fields == [fields[0]] + [fields[1]];
      assert Join(fields, ",") == fields[0] + "," + Join([fields[1]], ",");
    }
  }

  /**
   * A line that is not skipped and has three commas is a VPC pair unless a
   * field is not an integer; the sources and the destinations are then each
   * in ascending numeric order and are the line's fields, rearranged only
   * within their own pair.
   */
  lemma ParseLinePair(raw: string)
    ensures ParseLine(raw).Pair? ==> !ParseLine(raw).Skip? && CountChar(CleanLine(raw), ',') == 3
    ensures ParseLine(raw).Pair? ==>
      var p := ParseLine(raw);
      var fields := Split(CleanLine(raw), ",");
      && ParseInt(p.source0).Ok? && ParseInt(p.source1).Ok?
      && ParseInt(p.dest0).Ok? && ParseInt(p.dest1).Ok?
      && ParseInt(p.source0).value <= ParseInt(p.source1).value
      && ParseInt(p.dest0).value <= ParseInt(p.dest1).value
      && multiset{p.source0, p.source1} == multiset{fields[0], fields[1]}
      && multiset{p.dest0, p.dest1} == multiset{fields[2], fields[3]}
    ensures !ParseLine(raw).Skip? && CountChar(CleanLine(raw), ',') == 3 ==>
      ParseLine(raw).Pair? || (ParseLine(raw).Error? && ParseLine(raw).reason.Raised?)
  {
    ParseLineSkip(raw);
    SplitOnChar(CleanLine(raw), ',');
  }

  /**
   * Conversely, a line that is not skipped and has three commas has four
   * fields; it is a pair exactly when all four are integers, and otherwise
   * stops with the error of the first field, left to right, that is not.
   */
  lemma ParseLinePairFields(raw: string)
    requires !ParseLine(raw).Skip? && CountChar(CleanLine(raw), ',') == 3
    ensures |Split(CleanLine(raw), ",")| == 4
    ensures var f := Split(CleanLine(raw), ",");
      ParseLine(raw).Pair? <==>
        ParseInt(f[0]).Ok? && ParseInt(f[1]).Ok? && ParseInt(f[2]).Ok? && ParseInt(f[3]).Ok?
    ensures var f := Split(CleanLine(raw), ",");
      !ParseLine(raw).Pair? ==> ParseLine(raw) == Error(Raised(
        if ParseInt(f[0]).Err? then ParseInt(f[0]).error
        else if ParseInt(f[1]).Err? then ParseInt(f[1]).error
        else if ParseInt(f[2]).Err? then ParseInt(f[2]).error
        else ParseInt(f[3]).error))
  {
    ParseLineSkip(raw);
    SplitOnChar(CleanLine(raw), ',');
  }

  /** Every other comma count stops the run with the fields it found. */
  lemma ParseLineFieldCount(raw: string)
    ensures ParseLine(raw).Error? && ParseLine(raw).reason.FieldCount? <==>
      !ParseLine(raw).Skip? && CountChar(CleanLine(raw), ',') != 1 && CountChar(CleanLine(raw), ',') != 3
    ensures ParseLine(raw).Error? && ParseLine(raw).reason.FieldCount? ==>
      ParseLine(raw).reason.fields == Split(CleanLine(raw), ",")
  {
    ParseLineSkip(raw);
    SplitOnChar(CleanLine(raw), ',');
  }

  // -----------------------------------------------------------------------
  // The loop over the lines of the file
  // -----------------------------------------------------------------------

  /** Each line of the file, parsed. */
  function Parsed(lines: seq<string>): (parsed: seq<SpecLine>)
    ensures |parsed| == |lines|
    ensures forall i :: 0 <= i < |lines| ==> parsed[i] == ParseLine(lines[i])
  {
    seq(|lines|, i requires 0 <= i < |lines| => ParseLine(lines[i]))
  }

  /**
   * The migrations the parsed lines ask for, in order, up to the first line
   * that stops the run, and the reason it stopped, if it did.
   */
  function Run(parsed: seq<SpecLine>): (seq<SpecLine>, Option<LineError>) {
    if parsed == [] then ([], None)
    else
      var (done, stop) := Run(parsed[..|parsed| - 1]);
      if stop.Some? then (done, stop)
      else match parsed[|parsed| - 1]
        case Skip => (done, None)
        case Error(reason) => (done, Some(reason))
        case entry => (done + [entry], None)
  }

  /** The single and pair migrations among `parsed`, in order. */
  function Migrations(parsed: seq<SpecLine>): (r: seq<SpecLine>)
    ensures forall e :: e in r ==> e.Single? || e.Pair?
  {
    if parsed == [] then []
    else
      var last := parsed[|parsed| - 1];
      Migrations(parsed[..|parsed| - 1]) + if last.Single? || last.Pair? then [last] else []
  }

  /** The index of the first malformed line, or the number of lines when there is none. */
  function FirstError(parsed: seq<SpecLine>): (k: nat)
    ensures k <= |parsed|
    ensures forall i :: 0 <= i < k ==> !parsed[i].Error?
    ensures k < |parsed| ==> parsed[k].Error?
  {
    if parsed == [] then 0
    else
      var front := parsed[..|parsed| - 1];
      var k := FirstError(front);
      assert forall i :: 0 <= i < |front| ==> front[i] == parsed[i];
      if k < |front| then k
      else if parsed[|parsed| - 1].Error? then |front|
      else |parsed|
  }

  /**
   * The run lists exactly the migrations of the lines before the first
   * malformed line, in file order, and stops with that line's reason, or
   * reads the whole file when there is none.
   */
  lemma {:induction false} RunEntries(parsed: seq<SpecLine>)
    ensures Run(parsed).0 == Migrations(parsed[..FirstError(parsed)])
    ensures Run(parsed).1 == if FirstError(parsed) < |parsed| then Some(parsed[FirstError(parsed)].reason) else None
    ensures forall e :: e in Run(parsed).0 ==> e.Single? || e.Pair?
  {
    if parsed != [] {
      var front := parsed[..|parsed| - 1];
      RunEntries(front);
      var k := FirstError(front);
      if k < |front| {
        assert parsed[..k] == front[..k];
      } else {
        assert parsed[..|front|] == front && front[..|front|] == front;
        var last := parsed[|parsed| - 1];
        if last.Error? {
          assert FirstError(parsed) == |front|;
        } else {
          assert FirstError(parsed) == |parsed|;
          assert parsed[..|parsed|] == parsed;
          assert Migrations(parsed) == Migrations(front) + if last.Single? || last.Pair? then [last] else [];
        }
      }
    }
  }

  /** The run reads the whole file exactly when no line is malformed. */
  lemma {:induction false} RunCompletes(parsed: seq<SpecLine>)
    ensures Run(parsed).1.None? <==> forall i :: 0 <= i < |parsed| ==> !parsed[i].Error?
  {
    if parsed != [] {
      var front := parsed[..|parsed| - 1];
      RunCompletes(front);
      assert forall k :: 0 <= k < |front| ==> front[k] == parsed[k];
    }
  }

  /**
   * A run that stops, stops at the first malformed line, with its reason,
   * after the migrations of the lines before it.
   */
  lemma {:induction false} RunStopsAtFirstError(parsed: seq<SpecLine>)
    ensures Run(parsed).1.Some? ==> exists i ::
      && 0 <= i < |parsed|
      && parsed[i] == Error(Run(parsed).1.value)
      && (forall k :: 0 <= k < i ==> !parsed[k].Error?)
      && Run(parsed[..i]) == (Run(parsed).0, None)
  {
    if parsed != [] {
      var front := parsed[..|parsed| - 1];
      if Run(front).1.Some? {
        assert Run(parsed) == Run(front);
        RunStopsAtFirstError(front);
        var i :| 0 <= i < |front| && front[i] == Error(Run(front).1.value)
          && (forall k :: 0 <= k < i ==> !front[k].Error?) && Run(front[..i]) == (Run(front).0, None);
        assert front[..i] == parsed[..i];
        assert forall k :: 0 <= k < i ==> front[k] == parsed[k];
      } else if Run(parsed).1.Some? {
        RunCompletes(front);
        assert forall k :: 0 <= k < |front| ==> front[k] == parsed[k];
        assert parsed[..|front|] == front;
        assert Run(parsed).0 == Run(front).0;
      }
    }
  }

  /** Once a prefix of the file has stopped the run, the rest of the file changes nothing. */
  lemma {:induction false} RunStops(parsed: seq<SpecLine>, i: int)
    requires 0 <= i <= |parsed|
    requires Run(parsed[..i]).1.Some?
    ensures Run(parsed) == Run(parsed[..i])
    decreases |parsed| - i
  {
    if i < |parsed| {
      assert parsed[..i + 1][..i] == parsed[..i];
      RunStops(parsed, i + 1);
    } else {
      assert parsed[..i] == parsed;
    }
  }

  /** The main loop's reading of the file, line by line, until a line stops it. */
  method ReadSpec(lines: seq<string>) returns (entries: seq<SpecLine>, stop: Option<LineError>)
    ensures (entries, stop) == Run(Parsed(lines))
  {
    ghost var parsed := Parsed(lines);
    entries, stop := [], None;
    var i := 0;
    while i < |lines| && stop.None?
      invariant 0 <= i <= |lines|
      invariant (entries, stop) == Run(parsed[..i])
      invariant stop.Some? ==> Run(parsed) == Run(parsed[..i])
      decreases |lines| - i
    {
      assert parsed[..i + 1][..i] == parsed[..i];
      var entry := ParseLine(lines[i]);
      match entry {
        case Skip =>
        case Error(reason) => stop := Some(reason);
        case _ => entries := entries + [entry];
      }
      i := i + 1;
      if stop.Some? {
        RunStops(parsed, i);
      }
    }
    if stop.None? {
      assert parsed[..i] == parsed;
    }
  }
}
